=== FILE: README.md ===
# urnik-web timetable viewer — a Dafny model

urnik-web is the browser front end of a school timetable service. A pupil
picks a class, optionally narrowed to chosen groups and subjects. A teacher
picks a professor. The page fetches that week's timetable and shows it in
one of two ways:

- the compact day-card list (`default_view`);
- the hour grid (`timetable_view`), where lessons that overlap in time sit
  side by side in lanes.

This project models the logic behind those screens as pure Dafny functions
and proves what they guarantee.

Each module follows one source file:

- `Merge` (merge.dfy) is the loop both views run on an array of timetables.
  The days of the first timetable are the skeleton. Every lesson is tagged
  with the `className` of its timetable and appended to the first skeleton
  day with the same label. `CompactView` adds the per-day sort by slot;
  `GridView.MergedData` does not sort.
- `StableSort` is `Array.prototype.sort` with the comparator
  `a.slot - b.slot`. It is written as insertion sort, and
  `StableSortIsUnique` shows that every stable sort gives the same result.
- `GridLayout` and `GridView` cover `processedDays`: lessons are annotated
  with `to_slot`, sorted, cut into overlap clusters by a running maximum end,
  and given first-fit lanes. `GridView` also holds the current-time
  indicator.
- `TimeSlots` is the sixteen-period table with `getTimeRange`.
- `ClassCard` is `darkenColor`.
- `DayCard` is the date test of `isToday`.
- `PaletteColor` is `stringToColor`.
- `EmailModal` covers the checks and payload of `handleSubscribe`.
- `ModalSave`, `SettingsModal` and `OnboardingModal` model the settings and
  onboarding modals. Their `handleSave` code is identical in the two files,
  so it is modelled once.
- `Home` models the page in `pages/index.tsx`. This covers the stored
  preferences, the save and change handlers, `onMount`, and how
  `fetchTimetable` chooses its request.

Support modules:

- `JsObject` models plain JavaScript objects as insertion-ordered entry
  lists.
- `JsNumber` models `ToInt32` and the truncating `%`.
- `SettingsTypes` holds the shapes passed to `onSave`.
- `TimetableTypes` holds the service's records.

Inputs the code reads from its environment are parameters:

- today's date and the current time;
- whether `window` exists;
- the contents of `localStorage`;
- the subjects the service returns.

Quirks of the code that the model keeps:

- The onboarding modal's save button can be enabled while `handleSave`
  emits nothing (`OnboardingModal.EnabledButSilent`).
- Before any mode is saved, the page's mode is `null`. Closing onboarding
  with Escape and opening the settings then gives a modal whose save emits
  nothing until a mode button is pressed
  (`SettingsModal.NullModeSavesNothing`).
- A duration of 0 gives a range that ends before it starts
  (`TimeSlots.ZeroDurationRange`).
- `#abc` is read as the number `0xabc`, not as CSS shorthand
  (`ClassCard.ShorthandReadAsNumber`).
- Colours that read from 0x80000000 up pass through a 32-bit sign change
  (`ClassCard.NegativeRedClamped`), and digits past the eighth are dropped
  by the 32-bit conversion (`ClassCard.NinthDigitWrapped`).

## Model

| member | source | states |
|---|---|---|
| `GridView.MergedData` | src/components/timetable_view/Timetable.tsx:17-47 | A single timetable comes back as given and an empty array gives an empty timetable. Otherwise the header is "Professor View" with the first input's week label. The days keep the first input's labels and notes in order, and day k holds exactly the lessons the independent `Merge.Gather` collects for it. |
| `Merge.FindDay` | src/components/timetable_view/Timetable.tsx:31 | Returns the index of the first day carrying the label, or nothing when no day carries it. |
| `Merge.Skeleton` | src/components/timetable_view/Timetable.tsx:27 | Keeps the labels and notes of the first timetable's days, one for one, with every lesson list emptied. |
| `Merge.Tag` | src/components/timetable_view/Timetable.tsx:33-36 | Every lesson is kept, in order, with only its `className` set to the timetable's name. |
| `Merge.MergeDaysContents` | src/components/timetable_view/Timetable.tsx:27-40 | After the two loops, each skeleton day keeps its label and note. Its lessons are those `Gather` lists: timetable by timetable and day by day, the tagged lessons of every source day whose label first matches it. |
| `Merge.GatherCount` | src/components/timetable_view/Timetable.tsx:29-38 | A merged day holds as many lessons as its matching source days hold together. |
| `Merge.GatheredLessonOrigin` | src/components/timetable_view/Timetable.tsx:29-38 | Every merged lesson is a lesson of some input day with the same label, tagged with that input's name. |
| `Merge.GatherIncludes` | src/components/timetable_view/Timetable.tsx:30-37 | Every lesson of a source day whose label occurs in the skeleton appears, tagged, in the first skeleton day with that label. |
| `Merge.UnmatchedDayDropped` | src/components/timetable_view/Timetable.tsx:31-32 | A source day whose label is not in the skeleton contributes nothing: removing it changes no merged day. |
| `Merge.SingleMergeTags` | src/components/timetable_view/Timetable.tsx:27-40 | Merging one timetable whose labels are distinct gives back its own days, each lesson tagged with the timetable's name. |
| `CompactView.MergedData` | src/components/default_view/Timetable.tsx:12-46 | Same cases and header as the grid merge. Each day's lessons are a stable sort by slot of the gathered lessons: ascending, ties in merge order, and the same multiset. |
| `CompactView.SortDaysStable` | src/components/default_view/Timetable.tsx:37-39 | Each sorted day is a stable sort by slot of that day's merged lessons. |
| `StableSort.Sort` | src/components/default_view/Timetable.tsx:38 | The result is ascending by key, a permutation of the input, and of the same length. |
| `StableSort.SortIsStable` | src/components/default_view/Timetable.tsx:38 | For every key value, the elements with that key appear in the result in the same order as in the input. |
| `StableSort.StableSortIsUnique` | src/components/default_view/Timetable.tsx:38 | Any sequence that is sorted and keeps the per-key order of the input equals the modelled sort, so every stable sort produces the same days. |
| `GridLayout.Annotate` | src/components/timetable_view/Timetable.tsx:92-96 | Every lesson is kept in order, and its end slot is its slot plus its duration. |
| `GridLayout.Prepare` | src/components/timetable_view/Timetable.tsx:92-97 | The annotated lessons are ascending by slot, each ends at slot plus duration, and their lessons are the stable sort of the day's lessons. |
| `GridLayout.PrepareOrder` | src/components/timetable_view/Timetable.tsx:92-97 | Sorting the annotated lessons orders them exactly as sorting the plain lessons by slot does. |
| `GridLayout.MaxEnd` | src/components/timetable_view/Timetable.tsx:108 | The result bounds every end slot of the cluster and is the end slot of one of its lessons. |
| `GridLayout.ClustersCorrect` | src/components/timetable_view/Timetable.tsx:103-117 | The clusters cut the sorted list, in order, into non-empty pieces whose concatenation is the list. A lesson joins the current cluster exactly when it starts before that cluster's largest end; otherwise it opens the next one. |
| `GridLayout.FirstFit` | src/components/timetable_view/Timetable.tsx:124-136 | The least lane whose last occupant ends no later than the slot, with every lower lane still busy; or the lane count when no lane is free. |
| `GridLayout.AssignLanes` | src/components/timetable_view/Timetable.tsx:120-143 | Every lesson keeps its lesson data and end slot and gets a lane below the cluster's lane count. All lessons of the cluster carry the same lane count. |
| `GridLayout.PlacePrefix` | src/components/timetable_view/Timetable.tsx:122-137 | Placing further lessons never changes the lanes of lessons already placed. |
| `GridLayout.LastIsMostRecent` | src/components/timetable_view/Timetable.tsx:125-135 | The tracked last occupant of each lane is in that lane, and no later placed lesson is. |
| `GridLayout.FirstFitChoice` | src/components/timetable_view/Timetable.tsx:122-136 | Lesson i goes to the least lane whose most recent occupant before i ends no later than lesson i starts. When there is no such lane, it opens a new one. |
| `GridLayout.LanesDisjoint` | src/components/timetable_view/Timetable.tsx:122-137 | After any prefix of the cluster is placed, lessons sharing a lane do not overlap, and each lane's most recent occupant ends last. |
| `GridLayout.AssignedLanesDisjoint` | src/components/timetable_view/Timetable.tsx:121-143 | Of two lessons of one cluster in the same lane, the earlier ends no later than the later starts. |
| `GridLayout.LanesNeeded` | src/components/timetable_view/Timetable.tsx:121-139 | For lessons sorted by start, with positive lengths, some slot has as many lessons running at once as first fit opens lanes. |
| `GridLayout.NoFewerLanes` | src/components/timetable_view/Timetable.tsx:121-139 | No lane assignment that keeps overlapping lessons apart uses fewer lanes than first fit's lane count. |
| `GridView.ProcessDay` | src/components/timetable_view/Timetable.tsx:91-146 | Keeps the day as it was and yields one processed lesson per lesson. Every lane is below its lane count. |
| `GridView.ProcessDayLessons` | src/components/timetable_view/Timetable.tsx:92-146 | The processed lessons are the stable sort by slot of the day's lessons, each ending at slot plus duration. |
| `GridView.LayoutKeepsLessons` | src/components/timetable_view/Timetable.tsx:119-144 | The cluster and lane pass keeps the sorted order and every end slot. |
| `GridView.ClustersSeparated` | src/components/timetable_view/Timetable.tsx:103-117 | Every lesson of a cluster ends no later than every lesson of the later clusters starts. |
| `GridView.ProcessDayNoClash` | src/components/timetable_view/Timetable.tsx:87-148 | In a processed day, a lesson that starts before an earlier lesson ends sits in a different lane, and both show the same lane count. |
| `GridView.ClusterLanesMinimal` | src/components/timetable_view/Timetable.tsx:119-144 | For every cluster of the day and every lane assignment of that cluster that keeps overlapping lessons apart, the cluster's lane count is at most the assignment's. |
| `GridView.DayIndex` | src/components/timetable_view/Timetable.tsx:74-75 | Maps the weekday to a column index in 0..6 with Monday first; stepping the index by one, modulo 7, gives back the weekday. |
| `GridView.TimeIndicator` | src/components/timetable_view/Timetable.tsx:59-85 | No line exactly when the time is before 7:15, after 20:30, or on a day past the last column. Otherwise the line lies 0 to 100 percent of the way from 7:15 to 20:30, in proportion to the minutes elapsed, in day column index + 2. |
| `GridView.IndicatorMonotone` | src/components/timetable_view/Timetable.tsx:65-72 | On one day, a later time puts the line strictly lower. |
| `TimeSlots.TableIsSchedule` | src/lib/time.ts:1-18 | The table has 16 valid times of day. Period k + 1 starts at 7:15 plus 50k minutes and ends 45 minutes later, so each period ends before the next one starts. |
| `TimeSlots.SlotAt` | src/lib/time.ts:21-22 | A table entry exactly for indexes 0 to 15, nothing otherwise. |
| `TimeSlots.GetTimeRange` | src/lib/time.ts:20-29 | "N/A" exactly when the first or the last period is outside 1..16. Otherwise the first period's start, a dash, and the last period's end. |
| `TimeSlots.RangeSpan` | src/lib/time.ts:20-28 | A range the table covers spans 50 times the duration minus 5 minutes. |
| `TimeSlots.FirstPeriodRange` | src/lib/time.ts:1-28 | Slot 1 for one period shows "7:15-8:00". |
| `TimeSlots.WholeDayRange` | src/lib/time.ts:1-28 | Slot 1 for sixteen periods shows "7:15-20:30". |
| `TimeSlots.DoublePeriodRange` | src/lib/time.ts:1-28 | Slot 4 for two periods shows "9:45-11:20". |
| `TimeSlots.PastLastPeriod` | src/lib/time.ts:21-26 | A lesson starting after period 16, or running past it, shows "N/A". |
| `TimeSlots.ZeroDurationRange` | src/lib/time.ts:20-28 | A duration of 0 is not refused. From slot 2 it shows the previous period's end ("8:05-8:00"); from slot 1 it shows "N/A". |
| `ClassCard.HexPrefix` | src/components/default_view/ClassCard.tsx:13 | The longest run of hex digits at the start of the string: what `parseInt(_, 16)` reads from a body without the `0x` marker. |
| `ClassCard.ParsedDigits` | src/components/default_view/ClassCard.tsx:13 | The digits `parseInt(_, 16)` reads: the longest run of hex digits right after a leading `0x` or `0X` when there is one, and at the start otherwise. |
| `ClassCard.BitOrDisjoint` | src/components/default_view/ClassCard.tsx:22 | OR-ing a value shifted left by k bits with a value below 2^k adds them. |
| `ClassCard.ToHex` | src/components/default_view/ClassCard.tsx:22 | `toString(16)` gives lowercase hex digits that read back as the number. |
| `ClassCard.PadStart` | src/components/default_view/ClassCard.tsx:22 | `padStart` gives the longer of the string and the width, filled in front with the pad character. |
| `ClassCard.Darken` | src/components/default_view/ClassCard.tsx:5-23 | The result has a leading `#` exactly when the input has one. After the `#` come at least six lowercase hex digits. |
| `ClassCard.ParseExact` | src/components/default_view/ClassCard.tsx:13 | Every modelled reading of up to thirteen digits lies below 2^52, where `parseInt`'s double is exact. |
| `ClassCard.NinthDigitWrapped` | src/components/default_view/ClassCard.tsx:13-22 | `#1000000ff` is read exactly, its ninth digit is dropped by the 32-bit conversion, and the result reads `0xff` behind its `#`. |
| `ClassCard.DarkenValue` | src/components/default_view/ClassCard.tsx:13-22 | For any parsable colour, short forms such as `#abc` included, whose 32-bit reading fits in 24 bits: the result keeps the `#`, has six lowercase digits, and reads back as the reading's red, green and blue bytes each lowered by the amount, stopping at zero. |
| `ClassCard.ParsedValue` | src/components/default_view/ClassCard.tsx:13 | A six-digit colour parses to its hex value, unchanged by the 32-bit conversion. |
| `ClassCard.Hex6RoundTrip` | src/components/default_view/ClassCard.tsx:22 | A number below 2^24 is written as exactly six lowercase hex digits that read back as the number. |
| `ClassCard.DarkenChannels` | src/components/default_view/ClassCard.tsx:15-22 | Darkening a six-digit colour gives a six-digit lowercase colour. Each of red, green and blue becomes the channel minus the amount, clamped at 0, independently of the others. |
| `ClassCard.DarkenNeverLightens` | src/components/default_view/ClassCard.tsx:15-20 | No channel of the darkened colour exceeds the same channel of the input. |
| `ClassCard.DarkenTwice` | src/components/default_view/ClassCard.tsx:15-22 | Darkening by a and then by b is darkening by a + b. |
| `ClassCard.DarkenByZero` | src/components/default_view/ClassCard.tsx:13-22 | Darkening a lowercase six-digit colour by 0 gives it back unchanged. |
| `ClassCard.SameChannels` | src/components/default_view/ClassCard.tsx:22 | Two lowercase six-digit colours that agree on `#` and on all three channels are the same string. |
| `ClassCard.NegativeRedClamped` | src/components/default_view/ClassCard.tsx:13-22 | `#ffffffff` reads as -1 after the 32-bit shift, so red clamps to 0: darkening by 40 gives `#00d7d7`. |
| `ClassCard.ShorthandReadAsNumber` | src/components/default_view/ClassCard.tsx:13-22 | `#abc` is the number 0xabc, so darkening by 0 gives `#000abc`. |
| `ClassCard.MarkerSkipped` | src/components/default_view/ClassCard.tsx:13-22 | `0x12` is read past its `0x` marker as 0x12, so darkening by 0 gives `000012`. |
| `DayCard.IsToday` | src/components/default_view/DayCard.tsx:9-19 | False when the date pattern matches nowhere in the title. Otherwise true exactly when, at the leftmost position where it matches, the first group's number is today's date and the second's is the one-based month. |
| `DayCard.MatchAt` | src/components/default_view/DayCard.tsx:11 | A date match at a position exists exactly when one of the four digit-group shapes fits there. The group lengths chosen are the first the backtracking pattern tries, longer groups first. |
| `DayCard.FindMatch` | src/components/default_view/DayCard.tsx:11 | Returns the leftmost position where the pattern matches, or no match when it fits nowhere. |
| `DayCard.NoDateNeverToday` | src/components/default_view/DayCard.tsx:11-13 | A title with no date in it is never today. |
| `DayCard.TodayIsLeftmostMatch` | src/components/default_view/DayCard.tsx:11-18 | A day is today exactly when the leftmost match's day number equals today's date and its month number equals the one-based month. |
| `DayCard.DatedLabel` | src/components/default_view/DayCard.tsx:11-18 | For a digit-free name followed by `D.M` and anything not starting with a digit, the day is today exactly when D is the date and M the month. The year is ignored. |
| `DayCard.LeadingZerosAndTrailingDot` | src/components/default_view/DayCard.tsx:11-18 | "03.09" and "3.9." are today on the same days: exactly the 3rd of September. |
| `JsNumber.ToInt32` | src/lib/color.ts:17 | The result lies in the signed 32-bit range and differs from the input by a multiple of 2^32. |
| `JsNumber.Rem` | src/lib/color.ts:19 | The remainder of truncating division: a = q·b + r, with \|r\| < b and r carrying the sign of a. |
| `PaletteColor.CodeUnits` | src/lib/color.ts:16-17 | The UTF-16 code units `charCodeAt` walks: at least one per character, each below 2^16. |
| `PaletteColor.BasicPlaneUnits` | src/lib/color.ts:16-17 | For characters below U+10000 the code units are the characters themselves. |
| `PaletteColor.PaletteIndex` | src/lib/color.ts:19 | `Math.abs(hash % 10)` with the truncating remainder: in 0..9 and equal to \|hash\| mod 10. |
| `PaletteColor.UnitsColor` | src/lib/color.ts:15-20 | Any run of UTF-16 code units, unpaired surrogates included, hashes to one of the ten palette classes. |
| `PaletteColor.StringToColor` | src/lib/color.ts:14-21 | The loop's result is one of the ten palette classes and equals the color defined by folding the hash step over the code units. |
| `PaletteColor.ColorInPalette` | src/lib/color.ts:1-20 | Every string maps to one of the ten palette classes. |
| `PaletteColor.EmptyIsBlue` | src/lib/color.ts:15-20 | The empty string keeps hash 0 and gets "bg-blue-500". |
| `PaletteColor.SingleLetter` | src/lib/color.ts:16-20 | "a" hashes to 97 and gets "bg-teal-500". |
| `PaletteColor.NegativeHash` | src/lib/color.ts:16-20 | The 32-bit shift makes the hash of "zzzzzz" negative (-685785664). The absolute remainder still picks a palette entry: "bg-indigo-500". |
| `PaletteColor.HashExact` | src/lib/color.ts:16-18 | For up to 2^21 code units the hash stays below 2^53 in magnitude, so a double holds it exactly. |
| `EmailModal.IsValidEmail` | src/components/EmailModal.tsx:36 | The scan accepts exactly the strings of the pattern `^\S+@\S+\.\S+$`. These have no whitespace, an `@` after the first character, and a `.` at least two characters after it that is not the last character. |
| `EmailModal.EmptyEmailInvalid` | src/components/EmailModal.tsx:36 | The empty string fails the pattern, so the separate emptiness test never decides. |
| `EmailModal.EmailExamples` | src/components/EmailModal.tsx:36 | Accepts "ana@sola.si" and "a@b.c.". Refuses a missing local part, a dot right after `@`, a trailing dot, and a space. |
| `EmailModal.HandleSubscribe` | src/components/EmailModal.tsx:35-58 | An invalid email gives "Vnesite veljaven email naslov." before anything else. A valid email with a missing or empty class id gives "Manjka ID razreda.". Otherwise the payload carries the email and subjects as given and the group object. |
| `JsObject.Put` | src/components/EmailModal.tsx:51 | After `obj[k] = v`, k reads v and every other key reads as before. An existing key keeps its place and a new key goes last, so keys stay distinct. |
| `JsObject.FromPairsKeepsLast` | src/components/SettingsModal.tsx:81-84 | Building an object pair by pair, a key ends with the value of its last pair. |
| `SettingsTypes.GroupObject` | src/components/EmailModal.tsx:49-52 | The group object has distinct keys, and they are exactly the names of the groups. |
| `SettingsTypes.LaterGroupWins` | src/components/EmailModal.tsx:49-52 | A group name maps to the number of its last entry: later duplicates overwrite earlier ones. |
| `ModalSave.SavedGroups` | src/components/SettingsModal.tsx:110-112 | Exactly the entries with a positive group number are saved, so the "Vsi" choice of 0 is dropped. |
| `ModalSave.SavedSubjects` | src/components/SettingsModal.tsx:114-116 | Exactly the subjects whose box is checked are saved. |
| `ModalSave.HandleSave` | src/components/SettingsModal.tsx:102-126 | Emits something exactly when a mode is set and that mode has a non-empty selection; with no mode it emits nothing. A professor save carries only the mode, the professor and the view type. A class save carries the class, the positive groups and the checked subjects. |
| `ModalSave.SaveIgnoresOtherSelection` | src/components/SettingsModal.tsx:103-109 | What is saved does not depend on the selection of the mode not in use. |
| `ModalSave.ChooseMode` | src/components/SettingsModal.tsx:158-159 | A mode button sets that mode and leaves the rest of the selection alone. |
| `ModalSave.ChosenModeSaves` | src/components/SettingsModal.tsx:103-126 | From any state, mode or none, pressing a mode button and saving emits settings in that mode exactly when that mode's selection is made. |
| `SettingsModal.InitialChecks` | src/components/SettingsModal.tsx:88-100 | One checkbox per fetched subject. With stored subjects, a box is checked exactly when its subject is stored; with none stored, every box is checked. |
| `SettingsModal.SubjectsFor` | src/components/SettingsModal.tsx:40-44 | The subject list delivered for a class: none for an empty class id, the fetched list otherwise. |
| `SettingsModal.SwitchClass` | src/components/SettingsModal.tsx:52 | Setting the class keeps every other part of the selection. The subject checks are rebuilt, one box per delivered subject as `InitialChecks` sets them, exactly when the class changes to a defined id; otherwise they are kept. |
| `SettingsModal.Mounted` | src/components/SettingsModal.tsx:47-99 | The modal as the page creates it, once its class's subjects arrive. It holds the props' mode, class, professor and view type, no groups, and the initial checks for the delivered subjects (none without a class). |
| `SettingsModal.Opened` | src/components/SettingsModal.tsx:73-99 | Opening takes the mode (`None` for the page's `null`), class, professor and view type from the props, and every group reads as in the group object of the stored groups. When the class equals the one the modal last held, the subject checks are the ones it was left with. |
| `SettingsModal.ToggleSubject` | src/components/SettingsModal.tsx:205 | The subject's box reads as set, every other box reads as before, and nothing else in the selection changes. |
| `SettingsModal.NewClassSavesSubjects` | src/components/SettingsModal.tsx:73-116 | Opening on a class other than the one the modal last held, then saving in class mode, keeps the stored subjects the class still offers, or every offered subject when none were stored. |
| `SettingsModal.SameClassKeepsChecks` | src/components/SettingsModal.tsx:73-116 | Opening on the class the modal last held, then saving in class mode, sends exactly the boxes left checked, whatever the page now stores. |
| `SettingsModal.FirstOpenSavesSubjects` | src/components/SettingsModal.tsx:47-116 | On the first opening after the page creates the modal, saving in class mode keeps the stored subjects the class offers, or every offered subject when none were stored. |
| `SettingsModal.ClearedChecksStayCleared` | src/components/SettingsModal.tsx:73-116 | For class "7" with MAT and SLO both cleared and saved, reopening and saving at once sends no subjects. |
| `SettingsModal.EscapeKeepsEdits` | src/components/SettingsModal.tsx:57-116 | After clearing SLO and closing without saving, the next opening on the same class saves MAT alone, although the page still stores both. |
| `SettingsModal.ReopenSavesGroups` | src/components/SettingsModal.tsx:81-112 | Saving in class mode right after any opening keeps, for every stored group name, its last stored number when that number is positive. The group object is rebuilt on every opening. |
| `SettingsModal.ReopenSavesProfessor` | src/components/SettingsModal.tsx:76-108 | Saving right after opening in professor mode gives back just the stored professor and view type. |
| `SettingsModal.NullModeSavesNothing` | src/components/SettingsModal.tsx:76-126 | Opened with the page's `null` mode, the modal emits nothing on save, whatever is selected. After a mode button is pressed, saving follows that mode's selection from the props. |
| `OnboardingModal.AllChecked` | src/components/OnboardingModal.tsx:69-76 | Exactly the fetched subjects have a box, and every box starts checked. |
| `OnboardingModal.InitiallyDisabled` | src/components/OnboardingModal.tsx:41-45 | The modal starts in class mode with the default view and nothing chosen. Its button is disabled and saving would emit nothing. |
| `OnboardingModal.SaveNeedsEnabled` | src/components/OnboardingModal.tsx:78-85 | Whenever saving emits settings, the button is enabled. |
| `OnboardingModal.EnabledButSilent` | src/components/OnboardingModal.tsx:237 | The button is enabled yet a click emits nothing exactly when the only selection belongs to the other mode, or when no mode is set (a state this modal never reaches). |
| `OnboardingModal.FirstClassSave` | src/components/OnboardingModal.tsx:69-102 | Picking a class straight away and saving sends that class, no groups, every fetched subject and the default view. |
| `Home.SubjectsRoundTrip` | src/pages/index.tsx:60-74 | In the browser, after storing subjects for a non-empty class id, reading that class's subjects gives them back. |
| `Home.SubjectsOtherClassesKept` | src/pages/index.tsx:68-74 | Storing one class's subjects leaves every other class's stored subjects as they were. |
| `Home.EmptyClassId` | src/pages/index.tsx:60-69 | An empty class id reads as no subjects and makes storing subjects a no-op. |
| `Home.MissingKeyDefaults` | src/pages/index.tsx:19-84 | Missing keys read as: empty professor and class ids, no groups, the default view. The mode reads as absent in the browser and as class mode on the server. |
| `Home.HandleSaveSettings` | src/pages/index.tsx:175-202 | The mode and the view type (default when absent) are always shown, and stored when running in the browser; the settings modal closes. The onboarding flag is untouched. |
| `Home.SaveSettingsProfessor` | src/pages/index.tsx:188-190 | A professor save shows and stores the professor and touches no class, group or subject state. |
| `Home.SaveSettingsClass` | src/pages/index.tsx:191-199 | A class save shows and stores the class, its groups and its subjects (empty when absent), leaving the professor alone. Reading the class's stored subjects gives what is shown. |
| `Home.SaveSettingsNeitherBranch` | src/pages/index.tsx:183-201 | A save with no selection for its mode changes no id, group or subject, shown or stored. |
| `Home.HandleOnboardingSave` | src/pages/index.tsx:204-232 | The mode is always shown, and stored in the browser; the onboarding modal closes, and the settings modal is untouched. |
| `Home.OnboardingTimetableType` | src/pages/index.tsx:212-230 | The view type changes, shown and stored, only when the professor or class branch fires; otherwise it stays as it was. |
| `Home.HandlersAgree` | src/pages/index.tsx:175-232 | When a branch fires, saving from onboarding and from settings leaves the same store and the same page, apart from which modal closes. |
| `Home.HandleModeChange` | src/pages/index.tsx:234-242 | The new mode is shown and stored. Switching to professors reloads the stored professor; switching to classes reloads the stored class. Groups and subjects are kept. |
| `Home.ChangeClassId` | src/pages/index.tsx:244-249 | The new class is shown and stored, and its stored subjects are shown. Groups and the stored groups and subjects are untouched. |
| `Home.ChangeProfessorId` | src/pages/index.tsx:251-254 | The new professor is shown and stored, and the shown class is untouched. |
| `Home.SwitchClassAndBack` | src/pages/index.tsx:191-249 | After a class save, switching to another class and back shows the saved subjects again. |
| `Home.Mount` | src/pages/index.tsx:131-163 | With no stored mode, the page opens the onboarding modal and shows no class, professor or subjects. Otherwise it shows the stored mode, class, professor, groups and that class's stored subjects, and the stored view type either way. |
| `Home.ReloadAfterClassSave` | src/pages/index.tsx:142-199 | Reloading after a class save shows the same mode, class, groups, subjects and view type as before the reload. |
| `Home.ReloadAfterProfessorSave` | src/pages/index.tsx:142-190 | Reloading after a professor save shows the same mode, professor and view type as before the reload. |
| `Home.SelectRequest` | src/pages/index.tsx:91-126 | No week gives no request. Professor mode needs a professor. Class mode needs a class and uses the POST filter exactly when there are groups or subjects to send; otherwise it uses a plain GET. |
| `Home.FilterGroupsLastWins` | src/pages/index.tsx:108-112 | In the filtered request, a group name carries the number of its last entry. |
| `Home.PageRequestUnfiltered` | src/pages/index.tsx:256-268 | A class page with no groups and no subjects asks for the plain class timetable. |

## Left out

- Network I/O is not modelled. This covers every `fetch` and its status
  handling: the modals' group and subject fetches, `getOptions`, the
  requests `fetchTimetable` sends, the subscribe POST, and both export
  buttons. Only the choice of request is modelled, and fetched subjects
  are a parameter.
- The effect that picks the current week from the options
  (`pages/index.tsx`) is left out, because the options come from the
  network. The week is a parameter of `Home.SelectRequest`.
- Solid reactivity, rendering and styling are not modelled: memos, effects,
  resources, stores, `reconcile`, JSX, the Escape-key listeners and the
  motion components. The handlers are functions from one page-and-store
  state to the next.
- Timers and async flags are left out: the minute timer of the grid, the
  `setTimeout` resets of the mail modal, and the loading, success and error
  display flags. The clock is a parameter of `GridView.TimeIndicator`.
- GridView.TimeIndicator: the percentage is a Dafny real, not a
  double, and the CSS string built from it is left out.
- The grid's guard for a merged timetable without `days` is not modelled,
  because a modelled timetable always has a day list.
- GridView.ProcessDayNoClash: requires every lesson's duration to be
  non-negative. `processedDays` does not check it; a negative duration makes a
  lesson end before it starts.
- GridLayout.AssignedLanesDisjoint: requires that no lesson ends before it
  starts. `processedDays` does not check that either.
- GridLayout.LanesNeeded: requires durations of at least 1, which
  optimality needs. A zero-length lesson overlaps nothing, yet it can still
  open a lane.
- GridLayout.NoFewerLanes: requires durations of at least 1, as
  `GridLayout.LanesNeeded` does.
- GridView.ClusterLanesMinimal: requires durations of at least 1, as
  `GridLayout.LanesNeeded` does.
- StableSort.Sort: slots are integers. Comparators that return NaN for
  missing or non-numeric slots are not modelled.
- TimeSlots.GetTimeRange: slots and durations are integers. A fractional
  index into the table is `undefined` in JavaScript, so the page would show
  "N/A"; the model does not accept such input.
- ClassCard.Darken: requires one to thirteen hex digits after the optional `#`
  and a non-negative amount. Left out:
  - the whitespace and sign `parseInt` accepts;
  - its NaN result when there are no digits;
  - more than thirteen digits, where the value can pass 2^53 and a double
    loses precision before the 32-bit conversion;
  - negative or fractional amounts.
- SettingsModal.Opened: the subjects of a newly chosen class are taken as
  already delivered. A save made while they are still loading, which would
  send the previous class's checks, is not modelled.
- DayCard.IsToday: today's date and month are parameters in place of
  `new Date()`.
- PaletteColor.StringToColor: the hash is an unbounded integer, while
  JavaScript keeps it in a double. The double is exact only below 2^53;
  `PaletteColor.HashExact` shows that bound holds for strings of up to 2^21
  code units, and longer strings are not modelled. A Dafny `string` holds
  only Unicode scalar values, so a string with an unpaired surrogate, which
  `charCodeAt` walks as one unit, cannot be passed in; such strings are
  covered by `PaletteColor.UnitsColor` on their code units.
- Stored preferences are typed fields of a record. These are left out:
  stored text that is not valid JSON, stored values of the wrong type, and
  a `viewMode` other than `class` or `professor`.
- The ordering JavaScript gives integer-like object keys (they come first,
  in numeric order) is not modelled. Objects keep insertion order. Looking
  up a class id such as `constructor` in the stored subject object would
  find an inherited member; this is not modelled either.
- The presentational components are not part of this model: `Settings.tsx`,
  `SubjectCard.tsx`, `DateWarning.tsx`, `Cookies.tsx`, `pages/email.tsx`,
  `app.tsx` and the export buttons.

=== FILE: class_card.dfy ===
/**
 * `darkenColor` of the lesson card (`default_view/ClassCard.tsx`): read a
 * hex colour with `parseInt(color, 16)`, take the red, green and blue bytes
 * with 32-bit shifts and masks, lower each by `amount` without going below
 * zero, and write the colour back as at least six lowercase hex digits,
 * keeping a leading `#`.
 */
module ClassCard {
  import opened JsNumber

  // ---------------------------------------------------------------------------
  // Hex digits
  // ---------------------------------------------------------------------------

  predicate IsHexDigit(c: char) {
    ('0' <= c <= '9') || ('a' <= c <= 'f') || ('A' <= c <= 'F')
  }

  predicate IsLowerHexDigit(c: char) {
    ('0' <= c <= '9') || ('a' <= c <= 'f')
  }

  function DigitValue(c: char): (d: nat)
    requires IsHexDigit(c)
    ensures d < 16
  {
    if '0' <= c <= '9' then c as int - '0' as int
    else if 'a' <= c <= 'f' then c as int - 'a' as int + 10
    else c as int - 'A' as int + 10
  }

  /** The lowercase digit `Number.prototype.toString(16)` writes for `d`. */
  function HexChar(d: nat): (c: char)
    requires d < 16
    ensures IsLowerHexDigit(c) && DigitValue(c) == d
  {
    if d < 10 then (48 + d) as char else (87 + d) as char
  }

  predicate AllHex(s: string) {
    forall i :: 0 <= i < |s| ==> IsHexDigit(s[i])
  }

  predicate AllLowerHex(s: string) {
    forall i :: 0 <= i < |s| ==> IsLowerHexDigit(s[i])
  }

  /** The value of a string of hex digits, most significant first. */
  function HexValue(s: string): (v: nat)
    requires AllHex(s)
  {
    if |s| == 0 then 0 else HexValue(s[..|s| - 1]) * 16 + DigitValue(s[|s| - 1])
  }

  /** The longest prefix of `s` made of hex digits. */
  function HexPrefix(s: string): (p: string)
    ensures |p| <= |s| && p == s[..|p|] && AllHex(p)
    ensures |p| < |s| ==> !IsHexDigit(s[|p|])
  {
    if |s| == 0 || !IsHexDigit(s[0]) then ""
    else
      var rest := HexPrefix(s[1..]);
      assert s[..1 + |rest|] == [s[0]] + rest;
      [s[0]] + rest
  }

  /** Whether `s` opens with the `0x` or `0X` marker that `parseInt(s, 16)` skips. */
  predicate HexMarked(s: string) {
    |s| >= 2 && s[0] == '0' && (s[1] == 'x' || s[1] == 'X')
  }

  /**
   * The digits `parseInt(s, 16)` reads: the longest run of hex digits
   * starting right after the `0x` marker when there is one, and at the
   * start of `s` otherwise.
   */
  function ParsedDigits(s: string): (d: string)
    ensures var from := if HexMarked(s) then 2 else 0;
      && from + |d| <= |s| && d == s[from..from + |d|] && AllHex(d)
      && (from + |d| < |s| ==> !IsHexDigit(s[from + |d|]))
  {
    if HexMarked(s) then HexPrefix(s[2..]) else HexPrefix(s)
  }

  // ---------------------------------------------------------------------------
  // Bitwise OR
  // ---------------------------------------------------------------------------

  function Pow2(k: nat): (p: nat)
    ensures p >= 1
  {
    if k == 0 then 1 else 2 * Pow2(k - 1)
  }

  /** Bitwise OR of two non-negative integers, one bit at a time. */
  function BitOr(x: nat, y: nat): nat
    decreases x + y
  {
    if x == 0 then y
    else if y == 0 then x
    else BitOr(x / 2, y / 2) * 2 + (if x % 2 == 1 || y % 2 == 1 then 1 else 0)
  }

  /** OR with a value that fits below the low `k` zero bits of the other adds the two. */
  lemma {:induction false} BitOrDisjoint(x: nat, y: nat, k: nat)
    requires y < Pow2(k)
    ensures BitOr(x * Pow2(k), y) == x * Pow2(k) + y
    decreases k
  {
    if k > 0 && x * Pow2(k) != 0 && y != 0 {
      var h := x * Pow2(k - 1);
      assert x * Pow2(k) == h * 2;
      assert (h * 2) / 2 == h && (h * 2) % 2 == 0;
      BitOrDisjoint(x, y / 2, k - 1);
    }
  }

  /**
   * `r << 16 | g << 8 | b`. With red below 2^15 no shift reaches bit 31, so
   * every operand is the non-negative integer the 32-bit operator sees.
   */
  function Pack(r: nat, g: nat, b: nat): nat
    requires r < 0x8000 && g < 0x100 && b < 0x100
  {
    BitOr(BitOr(r * 0x10000, g * 0x100), b)
  }

  /** The three fields occupy disjoint bits, so packing them adds them up. */
  lemma PackIsSum(r: nat, g: nat, b: nat)
    requires r < 0x8000 && g < 0x100 && b < 0x100
    ensures Pack(r, g, b) == r * 0x10000 + g * 0x100 + b
  {
    assert Pow2(8) == 0x100;
    assert Pow2(16) == 0x10000;
    BitOrDisjoint(r, g * 0x100, 16);
    BitOrDisjoint(r * 0x100 + g, b, 8);
    assert (r * 0x100 + g) * 0x100 == r * 0x10000 + g * 0x100;
  }

  // ---------------------------------------------------------------------------
  // Writing a number in hex
  // ---------------------------------------------------------------------------

  /** `n.toString(16)` for a non-negative integer: lowercase, no leading zeros. */
  function ToHex(n: nat): (s: string)
    ensures |s| > 0 && AllLowerHex(s) && AllHex(s)
    ensures HexValue(s) == n
  {
    if n < 16 then [HexChar(n)]
    else
      var s := ToHex(n / 16) + [HexChar(n % 16)];
      assert s[..|s| - 1] == ToHex(n / 16);
      s
  }

  /** Numbers below `16^k` need at most `k` hex digits. */
  lemma {:induction false} ToHexLength(n: nat, k: nat)
    requires n < Pow16(k)
    ensures |ToHex(n)| <= k || (n == 0 && k == 0)
    decreases k
  {
    if n >= 16 {
      ToHexLength(n / 16, k - 1);
    }
  }

  function Pow16(k: nat): (p: nat)
    ensures p >= 1
  {
    if k == 0 then 1 else 16 * Pow16(k - 1)
  }

  /** `s.padStart(n, c)`: `c` repeated in front of `s` up to length `n`. */
  function PadStart(s: string, n: nat, c: char): (r: string)
    ensures |r| == if |s| >= n then |s| else n
    ensures r == Repeat(c, |r| - |s|) + s
  {
    if |s| >= n then s else Repeat(c, n - |s|) + s
  }

  function Repeat(c: char, n: nat): (r: string)
    ensures |r| == n && forall i :: 0 <= i < n ==> r[i] == c
  {
    if n == 0 then [] else [c] + Repeat(c, n - 1)
  }

  /** Leading zeros add nothing to a hex value. */
  lemma {:induction false} ZerosValue(n: nat, s: string)
    requires AllHex(s)
    ensures AllHex(Repeat('0', n) + s)
    ensures HexValue(Repeat('0', n) + s) == HexValue(s)
    decreases |s|
  {
    var z := Repeat('0', n);
    if |s| == 0 {
      assert z + s == z;
      ZerosOnly(n);
    } else {
      var init := s[..|s| - 1];
      ZerosValue(n, init);
      assert (z + s)[..|z + s| - 1] == z + init;
    }
  }

  lemma {:induction false} ZerosOnly(n: nat)
    ensures AllHex(Repeat('0', n)) && HexValue(Repeat('0', n)) == 0
    decreases n
  {
    if n > 0 {
      ZerosOnly(n - 1);
      assert Repeat('0', n)[..n - 1] == Repeat('0', n - 1);
    }
  }

  // ---------------------------------------------------------------------------
  // darkenColor
  // ---------------------------------------------------------------------------

  /** `color[0] === "#"`. */
  predicate HasPound(color: string) { |color| > 0 && color[0] == '#' }

  /** The colour without its leading `#`. */
  function Body(color: string): string {
    if HasPound(color) then color[1..] else color
  }

  /**
   * The colours whose parse is modelled: `parseInt` reads one to thirteen
   * hex digits after the optional `#` and `0x` (anything after them is
   * ignored). Thirteen digits stay below 2^52, so the double `parseInt`
   * returns is the exact value that `ToInt32` then wraps.
   */
  predicate Parsable(color: string) {
    1 <= |ParsedDigits(Body(color))| <= 13
  }

  /** `if (x < 0) x = 0`. */
  function Clamp(x: int): nat { if x < 0 then 0 else x }

  datatype Rgb = Rgb(red: nat, green: nat, blue: nat)

  /**
   * `(num >> 16) - amount`, `((num >> 8) & 0xFF) - amount` and
   * `(num & 0xFF) - amount`, each clamped at zero. An arithmetic shift right
   * is floor division, and masking a two's-complement number with `0xFF`
   * is its non-negative remainder modulo 256.
   */
  function Channel(num: int, amount: int): (c: Rgb)
    requires -TwoTo31 <= num < TwoTo31 && amount >= 0
    ensures c.red < 0x8000 && c.green < 0x100 && c.blue < 0x100
  {
    Rgb(Clamp(num / 0x10000 - amount), Clamp((num / 0x100) % 0x100 - amount),
        Clamp(num % 0x100 - amount))
  }

  /** The channels lowered, packed and written with at least six digits. */
  function DarkenedHex(num: int, amount: int): string
    requires -TwoTo31 <= num < TwoTo31 && amount >= 0
  {
    var c := Channel(num, amount);
    Hex6(Pack(c.red, c.green, c.blue))
  }

  /**
   * `darkenColor(color, amount)` for a parsable colour and a non-negative
   * amount: the output keeps the `#` exactly when the input has one, and
   * its hex part is at least six lowercase digits.
   */
  function Darken(color: string, amount: int): (r: string)
    requires amount >= 0 && Parsable(color)
    ensures HasPound(r) <==> HasPound(color)
    ensures |Body(r)| >= 6 && AllLowerHex(Body(r))
  {
    var usePound := HasPound(color);
    var num := ToInt32(HexValue(ParsedDigits(Body(color))));
    var hex := DarkenedHex(num, amount);
    assert AllLowerHex(hex);
    var r := (if usePound then "#" else "") + hex;
    assert Body(r) == hex;
    r
  }

  // ---------------------------------------------------------------------------
  // Six-digit colours
  // ---------------------------------------------------------------------------

  /** A colour of exactly six hex digits after the optional `#`. */
  predicate SixDigit(color: string) {
    |Body(color)| == 6 && AllHex(Body(color))
  }

  /** The red, green and blue bytes of a six-digit colour. */
  function Channels(color: string): (c: Rgb)
    requires SixDigit(color)
    ensures c.red < 256 && c.green < 256 && c.blue < 256
  {
    var v := HexValue(Body(color));
    HexBound(Body(color));
    Rgb(v / 0x10000, (v / 0x100) % 0x100, v % 0x100)
  }

  /** A six-digit colour's value is below 2^24. */
  lemma {:induction false} HexBound(s: string)
    requires AllHex(s)
    ensures HexValue(s) < Pow16(|s|)
    decreases |s|
  {
    if |s| > 0 {
      HexBound(s[..|s| - 1]);
    }
  }

  lemma SixDigitParses(color: string)
    requires SixDigit(color)
    ensures Parsable(color) && ParsedDigits(Body(color)) == Body(color)
    ensures HexValue(Body(color)) < 0x100_0000
  {
    HexBound(Body(color));
  }

  /** Lowering every channel by `amount`, stopping at zero. */
  function Lower(c: Rgb, amount: nat): Rgb {
    Rgb(Clamp(c.red - amount), Clamp(c.green - amount), Clamp(c.blue - amount))
  }

  /** The 24-bit value whose bytes are `c`'s channels. */
  function Value(c: Rgb): nat
    requires c.red < 256 && c.green < 256 && c.blue < 256
  {
    c.red * 0x10000 + c.green * 0x100 + c.blue
  }

  /** Shifting and masking a packed value gives back its channels. */
  lemma UnpackValue(c: Rgb)
    requires c.red < 256 && c.green < 256 && c.blue < 256
    ensures Value(c) < 0x100_0000
    ensures Value(c) / 0x10000 == c.red
    ensures (Value(c) / 0x100) % 0x100 == c.green
    ensures Value(c) % 0x100 == c.blue
  {
    var v := Value(c);
    assert v == (c.red * 0x100 + c.green) * 0x100 + c.blue;
    assert v / 0x100 == c.red * 0x100 + c.green;
  }

  /** A value below 2^24 written by `toString(16).padStart(6, "0")`. */
  function Hex6(n: nat): string
  {
    PadStart(ToHex(n), 6, '0')
  }

  /** Six-digit padding of a 24-bit value reads back as that value. */
  lemma Hex6RoundTrip(n: nat)
    requires n < 0x100_0000
    ensures |Hex6(n)| == 6 && AllLowerHex(Hex6(n)) && AllHex(Hex6(n))
    ensures HexValue(Hex6(n)) == n
  {
    var digits := ToHex(n);
    assert Pow16(6) == 0x100_0000;
    ToHexLength(n, 6);
    ZerosValue(6 - |digits|, digits);
  }

  /** `parseInt` reads a six-digit colour as its whole value, a positive 32-bit number. */
  lemma ParsedValue(color: string)
    requires SixDigit(color)
    ensures Parsable(color)
    ensures ToInt32(HexValue(ParsedDigits(Body(color)))) == HexValue(Body(color))
  {
    SixDigitParses(color);
    ToInt32Fixed(HexValue(Body(color)));
  }

  /** The text after the optional `#` of a darkened colour. */
  lemma DarkenShape(color: string, amount: nat)
    requires Parsable(color)
    ensures Body(Darken(color, amount)) == DarkenedHex(ToInt32(HexValue(ParsedDigits(Body(color)))), amount)
  {
    var hex := DarkenedHex(ToInt32(HexValue(ParsedDigits(Body(color)))), amount);
    var r := Darken(color, amount);
    if HasPound(color) {
      assert r == "#" + hex;
      assert r[1..] == hex;
    } else {
      assert r == hex;
    }
  }

  /** For a 24-bit value, the darkened text is the lowered channels' value in six digits. */
  lemma DarkenedValue(v: nat, amount: nat)
    requires v < 0x100_0000
    ensures DarkenedHex(v, amount) == Hex6(Value(Lower(Rgb(v / 0x10000, (v / 0x100) % 0x100, v % 0x100), amount)))
  {
    assert v / 0x10000 < 256;
    var c := Lower(Rgb(v / 0x10000, (v / 0x100) % 0x100, v % 0x100), amount);
    assert Channel(v, amount) == c;
    PackIsSum(c.red, c.green, c.blue);
  }

  /**
   * Darkening any parsable colour whose 32-bit reading fits in 24 bits, short
   * forms such as `#abc` included: the result keeps the `#`, has six lowercase
   * digits, and reads back as the reading's red, green and blue bytes each
   * lowered by `amount`, stopping at zero.
   */
  lemma DarkenValue(color: string, amount: nat)
    requires Parsable(color)
    requires 0 <= ToInt32(HexValue(ParsedDigits(Body(color)))) < 0x100_0000
    ensures var num := ToInt32(HexValue(ParsedDigits(Body(color))));
      var r := Darken(color, amount);
      && (HasPound(r) <==> HasPound(color))
      && |Body(r)| == 6 && AllLowerHex(Body(r))
      && HexValue(Body(r)) == Value(Lower(Rgb(num / 0x10000, (num / 0x100) % 0x100, num % 0x100), amount))
  {
    var num := ToInt32(HexValue(ParsedDigits(Body(color))));
    DarkenShape(color, amount);
    DarkenedValue(num, amount);
    var c := Lower(Rgb(num / 0x10000, (num / 0x100) % 0x100, num % 0x100), amount);
    UnpackValue(c);
    Hex6RoundTrip(Value(c));
  }

  /** The channels of a 24-bit value put back together give the value. */
  lemma SplitValue(v: nat)
    requires v < 0x100_0000
    ensures v / 0x10000 < 256
    ensures v == Value(Rgb(v / 0x10000, (v / 0x100) % 0x100, v % 0x100))
  {
    var hi := v / 0x100;
    assert v == hi * 0x100 + v % 0x100;
    assert hi == (hi / 0x100) * 0x100 + hi % 0x100;
    assert hi / 0x100 == v / 0x10000;
  }

  /** The hex part of a darkened six-digit colour, channel by channel. */
  lemma DarkenBody(color: string, amount: nat)
    requires SixDigit(color)
    ensures Parsable(color)
    ensures Body(Darken(color, amount)) == Hex6(Value(Lower(Channels(color), amount)))
  {
    ParsedValue(color);
    DarkenShape(color, amount);
    var v := HexValue(Body(color));
    SixDigitParses(color);
    DarkenedValue(v, amount);
  }

  /**
   * Darkening a six-digit colour gives a six-digit colour again, with the
   * same `#`, six lowercase digits, and every channel lowered by `amount`
   * independently, stopping at zero.
   */
  lemma DarkenChannels(color: string, amount: nat)
    requires SixDigit(color)
    ensures Parsable(color)
    ensures var r := Darken(color, amount);
      && SixDigit(r)
      && AllLowerHex(Body(r))
      && Channels(r) == Lower(Channels(color), amount)
  {
    DarkenBody(color, amount);
    var c := Lower(Channels(color), amount);
    UnpackValue(c);
    Hex6RoundTrip(Value(c));
  }

  /** Darkening never raises a channel. */
  lemma DarkenNeverLightens(color: string, amount: nat)
    requires SixDigit(color)
    ensures Parsable(color) && SixDigit(Darken(color, amount))
    ensures var c := Channels(color);
      var d := Channels(Darken(color, amount));
      d.red <= c.red && d.green <= c.green && d.blue <= c.blue
  {
    DarkenChannels(color, amount);
  }

  /** Lowering by `a` and then by `b` is lowering by `a + b`. */
  lemma LowerTwice(c: Rgb, a: nat, b: nat)
    ensures Lower(Lower(c, a), b) == Lower(c, a + b)
  {
  }

  /** Darkening by `a` and then by `b` is darkening by `a + b`. */
  lemma DarkenTwice(color: string, a: nat, b: nat)
    requires SixDigit(color)
    ensures Parsable(color)
    ensures var once := Darken(color, a);
      Parsable(once) && Darken(once, b) == Darken(color, a + b)
  {
    DarkenChannels(color, a);
    var once := Darken(color, a);
    DarkenChannels(once, b);
    DarkenChannels(color, a + b);
    var twice := Darken(once, b);
    var direct := Darken(color, a + b);
    LowerTwice(Channels(color), a, b);
    SameChannels(twice, direct);
  }

  /** Two lowercase six-digit colours with the same `#` and the same channels are equal. */
  lemma SameChannels(x: string, y: string)
    requires SixDigit(x) && SixDigit(y) && AllLowerHex(Body(x)) && AllLowerHex(Body(y))
    requires HasPound(x) == HasPound(y)
    requires Channels(x) == Channels(y)
    ensures x == y
  {
    ChannelsValue(x);
    ChannelsValue(y);
    LowerHexInjective(Body(x), Body(y));
    SameBody(x, y);
  }

  /** Colours with the same body that agree on the `#` are equal. */
  lemma SameBody(x: string, y: string)
    requires HasPound(x) == HasPound(y) && Body(x) == Body(y)
    ensures x == y
  {
    if HasPound(x) {
      assert x == [x[0]] + Body(x);
      assert y == [y[0]] + Body(y);
    }
  }

  /** A six-digit colour's value is the value of its channels. */
  lemma ChannelsValue(x: string)
    requires SixDigit(x)
    ensures HexValue(Body(x)) == Value(Channels(x))
  {
    HexBound(Body(x));
    SplitValue(HexValue(Body(x)));
  }

  /** Lowercase hex strings of one length are equal when their values are. */
  lemma {:induction false} LowerHexInjective(s: string, t: string)
    requires |s| == |t| && AllLowerHex(s) && AllLowerHex(t) && AllHex(s) && AllHex(t)
    requires HexValue(s) == HexValue(t)
    ensures s == t
    decreases |s|
  {
    if |s| > 0 {
      var n := |s| - 1;
      assert DigitValue(s[n]) == HexValue(s) % 16;
      assert DigitValue(t[n]) == HexValue(t) % 16;
      LowerDigitInjective(s[n], t[n]);
      LowerHexInjective(s[..n], t[..n]);
      assert s == s[..n] + [s[n]] && t == t[..n] + [t[n]];
    }
  }

  lemma LowerDigitInjective(c: char, d: char)
    requires IsLowerHexDigit(c) && IsLowerHexDigit(d) && DigitValue(c) == DigitValue(d)
    ensures c == d
  {
  }

  /** Darkening a lowercase six-digit colour by zero gives it back unchanged. */
  lemma DarkenByZero(color: string)
    requires SixDigit(color) && AllLowerHex(Body(color))
    ensures Parsable(color) && Darken(color, 0) == color
  {
    DarkenChannels(color, 0);
    var r := Darken(color, 0);
    assert Lower(Channels(color), 0) == Channels(color);
    SameChannels(r, color);
  }

  /** A run of `f` digits is one less than a power of sixteen. */
  lemma {:induction false} AllFValue(n: nat)
    ensures AllHex(Repeat('f', n)) && HexValue(Repeat('f', n)) == Pow16(n) - 1
    decreases n
  {
    if n > 0 {
      AllFValue(n - 1);
      assert Repeat('f', n)[..n - 1] == Repeat('f', n - 1);
    }
  }

  /** What `Darken` writes, given the number `parseInt` reads and the hex text it darkens to. */
  lemma DarkenFrom(color: string, amount: nat, num: int, hex: string, out: string)
    requires Parsable(color)
    requires ToInt32(HexValue(ParsedDigits(Body(color)))) == num
    requires -TwoTo31 <= num < TwoTo31
    requires DarkenedHex(num, amount) == hex
    requires out == (if HasPound(color) then "#" else "") + hex
    ensures Darken(color, amount) == out
  {
  }

  lemma AllFParse(color: string)
    requires color == "#ffffffff"
    ensures Parsable(color) && ToInt32(HexValue(ParsedDigits(Body(color)))) == -1
  {
    assert Body("#ffffffff") == "ffffffff" == Repeat('f', 8);
    AllFValue(8);
    assert !HexMarked("ffffffff");
    assert HexPrefix("ffffffff") == "ffffffff";
    assert ToInt32(0xffff_ffff) == -1;
  }

  lemma MinusOneDarkened(num: int, amount: nat)
    requires num == -1 && amount == 40
    ensures DarkenedHex(num, amount) == "00d7d7"
  {
    assert Channel(-1, 40) == Rgb(0, 0xd7, 0xd7);
    PackIsSum(0, 0xd7, 0xd7);
    HexD7D7(0xd7d7);
    assert Hex6(0xd7d7) == "00d7d7";
  }

  /** `"#" + hex` spelled out, for the examples. */
  lemma PoundJoin(hex: string, out: string)
    requires |out| == |hex| + 1 && out[0] == '#' && out[1..] == hex
    ensures out == "#" + hex
  {
  }

  lemma HexD7D7(n: nat)
    requires n == 0xd7d7
    ensures ToHex(n) == "d7d7"
  {
    var a, b, c := n / 16, n / 256, n / 4096;
    assert a / 16 == b && b / 16 == c && c == 0xd;
    assert ToHex(c) == "d";
    assert ToHex(b) == ToHex(c) + [HexChar(7)];
    assert ToHex(a) == ToHex(b) + [HexChar(0xd)];
    assert ToHex(n) == ToHex(a) + [HexChar(7)];
  }

  /**
   * Eight digits with the top bit set read as a negative 32-bit number: its
   * arithmetic shift gives a negative red, which is clamped to zero, and the
   * masked green and blue bytes stay whole.
   */
  lemma NegativeRedClamped(color: string)
    requires color == "#ffffffff"
    ensures Parsable(color) && Darken(color, 40) == "#00d7d7"
  {
    AllFParse(color);
    MinusOneDarkened(-1, 40);
    PoundJoin("00d7d7", "#00d7d7");
    DarkenFrom(color, 40, -1, "00d7d7", "#00d7d7");
  }

  lemma AbcParse(color: string)
    requires color == "#abc"
    ensures Parsable(color) && ToInt32(HexValue(ParsedDigits(Body(color)))) == 0xabc
  {
    assert Body("#abc") == "abc";
    assert HexPrefix("abc") == "abc";
    assert "abc"[..2] == "ab" && "ab"[..1] == "a" && "a"[..0] == "";
    assert HexValue("abc") == 0xabc;
    ToInt32Fixed(0xabc);
  }

  lemma AbcDarkened(num: int, amount: nat)
    requires num == 0xabc && amount == 0
    ensures DarkenedHex(num, amount) == "000abc"
  {
    assert Channel(0xabc, 0) == Rgb(0, 0x0a, 0xbc);
    PackIsSum(0, 0x0a, 0xbc);
    assert ToHex(0xa) == "a";
    assert ToHex(0xab) == "a" + "b";
    assert ToHex(0xabc) == "ab" + "c";
    assert Hex6(0xabc) == "000abc";
  }

  /** A three-digit shorthand is read as the number it spells, not expanded per channel. */
  lemma ShorthandReadAsNumber(color: string)
    requires color == "#abc"
    ensures Parsable(color) && Darken(color, 0) == "#000abc"
  {
    AbcParse(color);
    AbcDarkened(0xabc, 0);
    PoundJoin("000abc", "#000abc");
    DarkenFrom(color, 0, 0xabc, "000abc", "#000abc");
  }

  /** Thirteen hex digits read below 2^52, where a double is still exact. */
  lemma ParseExact(color: string)
    requires Parsable(color)
    ensures HexValue(ParsedDigits(Body(color))) < 0x10_0000_0000_0000
  {
    var d := ParsedDigits(Body(color));
    HexBound(d);
    Pow16Grows(|d|, 13);
    assert Pow16(13) == 0x10_0000_0000_0000;
  }

  lemma {:induction false} Pow16Grows(j: nat, k: nat)
    requires j <= k
    ensures Pow16(j) <= Pow16(k)
    decreases k
  {
    if j < k {
      Pow16Grows(j, k - 1);
    }
  }

  /** Reading `a` then `b` shifts `a`'s value past `b`'s digits. */
  lemma {:induction false} HexAppend(a: string, b: string)
    requires AllHex(a) && AllHex(b)
    ensures AllHex(a + b)
    ensures HexValue(a + b) == HexValue(a) * Pow16(|b|) + HexValue(b)
    decreases |b|
  {
    if |b| == 0 {
      assert a + b == a;
    } else {
      var init, last := b[..|b| - 1], b[|b| - 1];
      HexAppend(a, init);
      var hi := HexValue(a + init);
      assert HexValue(a + b) == hi * 16 + DigitValue(last) by {
        assert (a + b)[..|a + b| - 1] == a + init;
        assert (a + b)[|a + b| - 1] == last;
      }
      assert HexValue(b) == HexValue(init) * 16 + DigitValue(last);
      ShiftDigit(HexValue(a), Pow16(|init|), HexValue(init), DigitValue(last));
    }
  }

  lemma ShiftDigit(x: int, p: int, y: int, z: int)
    ensures (x * p + y) * 16 + z == x * (16 * p) + (y * 16 + z)
  {
  }

  lemma NinthDigitParse(color: string)
    requires color == "#1000000ff"
    ensures Parsable(color) && ToInt32(HexValue(ParsedDigits(Body(color)))) == 0xff
  {
    var d := "1000000ff";
    assert Body(color) == d && !HexMarked(d) && AllHex(d);
    assert HexPrefix(d) == d;
    assert ParsedDigits(Body(color)) == d;
    NinthDigitValue(d);
    assert ToInt32(0x1_0000_00ff) == 0xff;
  }

  lemma NinthDigitValue(d: string)
    requires d == "1000000ff"
    ensures AllHex(d) && HexValue(d) == 0x1_0000_00ff
  {
    var low := Repeat('0', 6) + "ff";
    assert d == "1" + low;
    assert HexValue("1") == 1 by { assert "1"[..0] == ""; }
    assert HexValue("ff") == 0xff by { assert "ff"[..1] == "f" && "f"[..0] == ""; }
    ZerosValue(6, "ff");
    assert Pow16(8) == 0x1_0000_0000;
    HexAppend("1", low);
  }

  /**
   * A ninth digit is read exactly and then dropped by the 32-bit
   * conversion: `#1000000ff` darkens as `0xff` does.
   */
  lemma NinthDigitWrapped(color: string)
    requires color == "#1000000ff"
    ensures Parsable(color)
    ensures HasPound(Darken(color, 0)) && |Body(Darken(color, 0))| == 6
    ensures HexValue(Body(Darken(color, 0))) == 0xff
  {
    NinthDigitParse(color);
    assert HasPound(color);
    DarkenBlueOnly(color);
  }

  lemma BlueChannels(num: int)
    requires num == 0xff
    ensures Lower(Rgb(num / 0x10000, (num / 0x100) % 0x100, num % 0x100), 0) == Rgb(0, 0, 0xff)
    ensures Value(Rgb(0, 0, 0xff)) == 0xff
  {
  }

  /** A colour whose 32-bit reading is `0xff` darkens by 0 to a body reading `0xff`. */
  lemma DarkenBlueOnly(color: string)
    requires Parsable(color) && ToInt32(HexValue(ParsedDigits(Body(color)))) == 0xff
    ensures (HasPound(Darken(color, 0)) <==> HasPound(color)) && |Body(Darken(color, 0))| == 6
    ensures HexValue(Body(Darken(color, 0))) == 0xff
  {
    var num := ToInt32(HexValue(ParsedDigits(Body(color))));
    var r := Darken(color, 0);
    var c := Lower(Rgb(num / 0x10000, (num / 0x100) % 0x100, num % 0x100), 0);
    assert (HasPound(r) <==> HasPound(color)) && |Body(r)| == 6 && HexValue(Body(r)) == Value(c) by {
      DarkenValue(color, 0);
    }
    BlueChannels(num);
  }

  lemma MarkedParse(color: string)
    requires color == "0x12"
    ensures Parsable(color) && ToInt32(HexValue(ParsedDigits(Body(color)))) == 0x12
  {
    assert Body("0x12") == "0x12" && HexMarked("0x12");
    assert "0x12"[2..] == "12";
    assert HexPrefix("12") == "12";
    assert "12"[..1] == "1" && "1"[..0] == "";
    assert HexValue("12") == 0x12;
    ToInt32Fixed(0x12);
  }

  lemma TwelveDarkened(num: int, amount: nat)
    requires num == 0x12 && amount == 0
    ensures DarkenedHex(num, amount) == "000012"
  {
    assert Channel(0x12, 0) == Rgb(0, 0, 0x12);
    PackIsSum(0, 0, 0x12);
    assert ToHex(0x1) == "1";
    assert ToHex(0x12) == "1" + "2";
    assert Hex6(0x12) == "000012";
  }

  /** The `0x` marker is skipped before the digits are read, as `parseInt(_, 16)` does. */
  lemma MarkerSkipped(color: string)
    requires color == "0x12"
    ensures Parsable(color) && Darken(color, 0) == "000012"
  {
    MarkedParse(color);
    TwelveDarkened(0x12, 0);
    DarkenFrom(color, 0, 0x12, "000012", "000012");
  }
}

=== FILE: compact_view.dfy ===
/**
 * The compact day-list view (`default_view/Timetable.tsx`): the shared merge,
 * followed by a stable sort of every merged day's lessons by slot.
 */
module CompactView {
  import opened TimetableTypes
  import opened StableSort
  import Merge

  /** `for (const day of mergedDays) day.classes.sort((a, b) => a.slot - b.slot)`. */
  function SortDays(days: seq<Day>): (r: seq<Day>)
    ensures Merge.SameFrame(r, days)
    ensures forall k :: 0 <= k < |r| ==> r[k].classes == Sort(days[k].classes, SlotOf)
  {
    if |days| == 0 then []
    else [days[0].(classes := Sort(days[0].classes, SlotOf))] + SortDays(days[1..])
  }

  lemma SortDaysStable(days: seq<Day>)
    ensures forall k :: 0 <= k < |days| ==>
      StableSortOf(SortDays(days)[k].classes, days[k].classes, SlotOf)
  {
    forall k | 0 <= k < |days|
      ensures StableSortOf(SortDays(days)[k].classes, days[k].classes, SlotOf)
    {
      SortIsStable(days[k].classes, SlotOf);
    }
  }

  /**
   * `mergedData` of the compact view. A single timetable is shown as given
   * (unsorted); an empty array gives an empty timetable; otherwise every day
   * of the first timetable holds the gathered lessons of all inputs, sorted
   * by slot with ties kept in merge order, which is a permutation.
   */
  function MergedData(input: TimetableInput): (r: Timetable)
    ensures input.Single? ==> r == input.timetable
    ensures input.Many? && |input.timetables| == 0 ==> r == Timetable("", "", [])
    ensures input.Many? && |input.timetables| > 0 ==>
      var ts := input.timetables;
      && r.className == Merge.CombinedName
      && r.weekLabel == ts[0].weekLabel
      && Merge.SameFrame(r.days, ts[0].days)
      && forall k :: 0 <= k < |r.days| ==>
           && StableSortOf(r.days[k].classes, Merge.Gather(ts[0].days, ts, k), SlotOf)
           && multiset(r.days[k].classes) == multiset(Merge.Gather(ts[0].days, ts, k))
  {
    match input
    case Single(t) => t
    case Many(ts) =>
      if |ts| == 0 then Timetable("", "", [])
      else
        var merged := Merge.MergeDays(ts);
        Merge.MergeDaysContents(ts);
        SortDaysStable(merged);
        Timetable(Merge.CombinedName, ts[0].weekLabel, SortDays(merged))
  }
}

=== FILE: day_card.dfy ===
/**
 * `isToday` of the day card (`default_view/DayCard.tsx`): find the first
 * `D.M` date in a day's title with the pattern `(\d{1,2})\.(\d{1,2})\.?`
 * and compare it with today's day of the month and month. Today's date is
 * a parameter: `date` is `Date.getDate()` and `month0` is the zero-based
 * `Date.getMonth()`.
 */
module DayCard {
  import opened Wrappers

  /** `\d`: an ASCII decimal digit. */
  predicate IsDigit(c: char) { '0' <= c <= '9' }

  predicate AllDigits(s: string) {
    forall k :: 0 <= k < |s| ==> IsDigit(s[k])
  }

  /** `parseInt(s, 10)` of a string of digits. */
  function DecimalValue(s: string): nat
    requires AllDigits(s)
  {
    if |s| == 0 then 0 else DecimalValue(s[..|s| - 1]) * 10 + (s[|s| - 1] as int - '0' as int)
  }

  /** One match of the pattern: where it starts and how many digits each group took. */
  datatype DateMatch = DateMatch(start: nat, dayDigits: nat, monthDigits: nat)

  /**
   * The pattern can match at `i` with `a` digits in the first group and `b`
   * in the second: `a` digits, a dot, `b` digits. The optional trailing dot
   * never stops a match.
   */
  predicate Shape(s: string, i: nat, a: nat, b: nat) {
    && 1 <= a <= 2 && 1 <= b <= 2
    && i + a + 1 + b <= |s|
    && IsDigit(s[i]) && (a == 2 ==> IsDigit(s[i + 1]))
    && s[i + a] == '.'
    && IsDigit(s[i + a + 1]) && (b == 2 ==> IsDigit(s[i + a + 2]))
  }

  /** Some shape fits at `i`: the pattern matches there. */
  predicate Fits(s: string, i: nat) {
    Shape(s, i, 2, 2) || Shape(s, i, 2, 1) || Shape(s, i, 1, 2) || Shape(s, i, 1, 1)
  }

  /**
   * A backtracking matcher tries the longest first group first and, for
   * it, the longest second group first: `(a, b)` fits and nothing tried
   * before it does.
   */
  predicate FirstTried(s: string, i: nat, a: nat, b: nat) {
    && Shape(s, i, a, b)
    && (a < 2 ==> !Shape(s, i, 2, 2) && !Shape(s, i, 2, 1))
    && (b < 2 ==> !Shape(s, i, a, 2))
  }

  /** How many digits greedy `\d{1,2}` takes at `i`: two when there are two, else one, else none. */
  function GroupLength(s: string, i: nat): (n: nat)
    requires i <= |s|
    ensures n <= 2 && i + n <= |s|
  {
    if i < |s| && IsDigit(s[i]) then
      if i + 1 < |s| && IsDigit(s[i + 1]) then 2 else 1
    else 0
  }

  /**
   * The regular expression tried at position `i`: it matches exactly when
   * some shape fits, and its groups are the shape a backtracking matcher
   * reaches first.
   */
  function MatchAt(s: string, i: nat): (r: Option<DateMatch>)
    requires i <= |s|
    ensures r.Some? <==> Fits(s, i)
    ensures r.Some? ==> r.value.start == i && FirstTried(s, i, r.value.dayDigits, r.value.monthDigits)
  {
    var a := GroupLength(s, i);
    var dot := i + a;
    if a > 0 && dot < |s| && s[dot] == '.' && GroupLength(s, dot + 1) > 0 then
      Some(DateMatch(i, a, GroupLength(s, dot + 1)))
    else
      None
  }

  /** The leftmost match at or after `from`, as `String.prototype.match` reports it. */
  function FindMatch(s: string, from: nat): (r: Option<DateMatch>)
    requires from <= |s|
    ensures r.Some? ==>
      && from <= r.value.start <= |s|
      && MatchAt(s, r.value.start) == r
      && forall j :: from <= j < r.value.start ==> !Fits(s, j)
    ensures r.None? ==> forall j :: from <= j <= |s| ==> !Fits(s, j)
    decreases |s| - from
  {
    var here := MatchAt(s, from);
    if here.Some? then here
    else if from == |s| then None
    else FindMatch(s, from + 1)
  }

  /** The text of the two groups of a match. */
  function DayText(s: string, m: DateMatch): (d: string)
    requires m.start <= |s| && MatchAt(s, m.start) == Some(m)
    ensures AllDigits(d)
  {
    s[m.start..m.start + m.dayDigits]
  }

  function MonthText(s: string, m: DateMatch): (d: string)
    requires m.start <= |s| && MatchAt(s, m.start) == Some(m)
    ensures AllDigits(d)
  {
    var from := m.start + m.dayDigits + 1;
    s[from..from + m.monthDigits]
  }

  /**
   * `isToday`: false when the title holds no date; otherwise whether the
   * first number is today's day of the month and the second today's
   * one-based month.
   */
  function IsToday(title: string, date: int, month0: int): (today: bool)
    ensures (forall i :: 0 <= i <= |title| ==> !Fits(title, i)) ==> !today
    ensures forall i :: 0 <= i <= |title| && Fits(title, i) && (forall j :: 0 <= j < i ==> !Fits(title, j)) ==>
      (today <==> DecimalValue(DayText(title, MatchAt(title, i).value)) == date
                  && DecimalValue(MonthText(title, MatchAt(title, i).value)) == month0 + 1)
  {
    match FindMatch(title, 0)
    case None => false
    case Some(m) =>
      DecimalValue(DayText(title, m)) == date && DecimalValue(MonthText(title, m)) == month0 + 1
  }

  /** A title in which the pattern matches nowhere is never today. */
  lemma NoDateNeverToday(title: string, date: int, month0: int)
    requires forall i :: 0 <= i <= |title| ==> !Fits(title, i)
    ensures !IsToday(title, date, month0)
  {
  }

  /**
   * The date read is the leftmost match: a title is today exactly when the
   * pattern matches at some `i`, nowhere before it, and the groups there
   * are today's day and one-based month.
   */
  lemma TodayIsLeftmostMatch(title: string, date: int, month0: int, i: nat)
    requires i <= |title| && Fits(title, i)
    requires forall j :: 0 <= j < i ==> !Fits(title, j)
    ensures var m := MatchAt(title, i).value;
      IsToday(title, date, month0) <==>
        DecimalValue(DayText(title, m)) == date && DecimalValue(MonthText(title, m)) == month0 + 1
  {
    var r := FindMatch(title, 0);
    assert r.value.start == i;
  }

  predicate NoDigits(s: string) {
    forall k :: 0 <= k < |s| ==> !IsDigit(s[k])
  }

  /**
   * A title `name D.M rest` whose name has no digits, where the text after
   * the month does not start with a digit, is today exactly when `D` is
   * today's day of the month and `M` today's month. The rest, be it a
   * trailing dot and a year or nothing, plays no part.
   */
  lemma DatedLabel(name: string, d: string, m: string, rest: string, date: int, month0: int)
    requires NoDigits(name)
    requires 1 <= |d| <= 2 && AllDigits(d) && 1 <= |m| <= 2 && AllDigits(m)
    requires |rest| == 0 || !IsDigit(rest[0])
    ensures IsToday(name + d + "." + m + rest, date, month0)
      <==> DecimalValue(d) == date && DecimalValue(m) == month0 + 1
  {
    var s := name + d + "." + m + rest;
    DatedLabelMatch(name, d, m, rest);
    TodayIsLeftmostMatch(s, date, month0, |name|);
  }

  /** Where the pattern matches in `name D.M rest`, and what its groups hold. */
  lemma DatedLabelMatch(name: string, d: string, m: string, rest: string)
    requires NoDigits(name)
    requires 1 <= |d| <= 2 && AllDigits(d) && 1 <= |m| <= 2 && AllDigits(m)
    requires |rest| == 0 || !IsDigit(rest[0])
    ensures var s := name + d + "." + m + rest;
      && Fits(s, |name|)
      && (forall k :: 0 <= k < |name| ==> !Fits(s, k))
      && MatchAt(s, |name|) == Some(DateMatch(|name|, |d|, |m|))
      && DayText(s, DateMatch(|name|, |d|, |m|)) == d
      && MonthText(s, DateMatch(|name|, |d|, |m|)) == m
  {
    var s := name + d + "." + m + rest;
    var i := |name|;
    var j := i + |d| + 1;
    forall k | 0 <= k < i ensures !Fits(s, k) {
      assert s[k] == name[k];
    }
    assert s[i..i + |d|] == d;
    assert s[i + |d|] == '.';
    assert s[j..j + |m|] == m;
    assert IsDigit(s[i]) && (|d| == 2 ==> IsDigit(s[i + 1]));
    assert IsDigit(s[j]) && (|m| == 2 ==> IsDigit(s[j + 1]));
    assert j + |m| == |s| || s[j + |m|] == rest[0];
    assert Shape(s, i, |d|, |m|);
  }

  /**
   * Leading zeros parse as decimal and the trailing dot is optional, so
   * "03.09" and "3.9." are today on the same days.
   */
  lemma LeadingZerosAndTrailingDot(date: int, month0: int)
    ensures IsToday("03.09", date, month0) == IsToday("3.9.", date, month0)
    ensures IsToday("3.9.", date, month0) <==> date == 3 && month0 == 8
  {
    PaddedLabel(date, month0);
    DottedLabel(date, month0);
  }

  /** "03.09" is today exactly on 3 September. */
  lemma PaddedLabel(date: int, month0: int)
    ensures IsToday("03.09", date, month0) <==> date == 3 && month0 == 8
  {
    assert DecimalValue("03") == 3 by { assert "03"[..1] == "0"; }
    assert DecimalValue("09") == 9 by { assert "09"[..1] == "0"; }
    assert "" + "03" + "." + "09" + "" == "03.09";
    DatedLabel("", "03", "09", "", date, month0);
  }

  /** "3.9." is today exactly on 3 September. */
  lemma DottedLabel(date: int, month0: int)
    ensures IsToday("3.9.", date, month0) <==> date == 3 && month0 == 8
  {
    assert "" + "3" + "." + "9" + "." == "3.9.";
    DatedLabel("", "3", "9", ".", date, month0);
  }
}

=== FILE: email_modal.dfy ===
/**
 * The checks `handleSubscribe` makes before it posts a mailing-list
 * subscription (`EmailModal.tsx`), and the payload it builds. The POST
 * itself and the loading and success flags are not part of this model.
 */
module EmailModal {
  import opened Wrappers
  import JsObject
  import opened SettingsTypes

  /** What `handleSubscribe` sends to `/mailing/subscribe/<classId>`. */
  datatype Subscription = Subscription(
    classId: string,
    email: string,
    subjects: seq<string>,
    groups: JsObject.Entries<int>)

  const InvalidEmail: string := "Vnesite veljaven email naslov."
  const MissingClassId: string := "Manjka ID razreda."

  /** `\s` of JavaScript regular expressions. */
  predicate IsSpace(c: char) {
    || c == '\t' || c == '\n' || c == '\U{000B}' || c == '\U{000C}' || c == '\r' || c == ' '
    || c == '\U{00A0}' || c == '\U{1680}' || ('\U{2000}' <= c <= '\U{200A}')
    || c == '\U{2028}' || c == '\U{2029}' || c == '\U{202F}' || c == '\U{205F}'
    || c == '\U{3000}' || c == '\U{FEFF}'
  }

  /**
   * `^\S+@\S+\.\S+$`: no whitespace anywhere, and an `@` after at least one
   * character, followed at least two characters later by a `.` that is not
   * the last character. The `\S+` runs may themselves hold `@` and `.`.
   */
  predicate EmailPattern(s: string) {
    && (forall k :: 0 <= k < |s| ==> !IsSpace(s[k]))
    && exists i, j :: 1 <= i && i + 2 <= j < |s| - 1 && s[i] == '@' && s[j] == '.'
  }

  /**
   * The pattern test, as a scan: reject on whitespace, find the first `@`
   * after the first character, then look for a `.` between two characters
   * after it and the next-to-last character.
   */
  method IsValidEmail(s: string) returns (ok: bool)
    ensures ok <==> EmailPattern(s)
  {
    var k := 0;
    while k < |s|
      invariant 0 <= k <= |s|
      invariant forall m :: 0 <= m < k ==> !IsSpace(s[m])
    {
      if IsSpace(s[k]) {
        return false;
      }
      k := k + 1;
    }
    if |s| == 0 {
      return false;
    }
    var at := 1;
    while at < |s| && s[at] != '@'
      invariant 1 <= at <= |s|
      invariant forall m :: 1 <= m < at ==> s[m] != '@'
    {
      at := at + 1;
    }
    if at == |s| {
      return false;
    }
    var dot := at + 2;
    while dot < |s| - 1 && s[dot] != '.'
      invariant at + 2 <= dot
      invariant dot == at + 2 || dot <= |s| - 1
      invariant forall m :: at + 2 <= m < dot && m < |s| ==> s[m] != '.'
    {
      dot := dot + 1;
    }
    ok := dot < |s| - 1;
  }

  /** The empty string fails the pattern, so the separate emptiness test adds nothing. */
  lemma EmptyEmailInvalid()
    ensures !EmailPattern("")
  {
  }

  /** `!props.classId`: an absent or empty class id. */
  predicate Missing(classId: Option<string>) {
    classId.None? || classId.value == ""
  }

  /**
   * `handleSubscribe` up to the request: the email check comes first, the
   * class id check second, and a request carries the email and subjects as
   * given together with the group object.
   */
  method HandleSubscribe(email: string, classId: Option<string>,
                         groups: seq<StoredGroup>, subjects: seq<string>)
    returns (r: Result<Subscription, string>)
    ensures !EmailPattern(email) ==> r == Failure(InvalidEmail)
    ensures EmailPattern(email) && Missing(classId) ==> r == Failure(MissingClassId)
    ensures EmailPattern(email) && !Missing(classId) ==>
      r == Success(Subscription(classId.value, email, subjects, GroupObject(groups)))
  {
    var valid := IsValidEmail(email);
    if email == "" || !valid {
      return Failure(InvalidEmail);
    }
    if classId.None? || classId.value == "" {
      return Failure(MissingClassId);
    }
    r := Success(Subscription(classId.value, email, subjects, GroupObject(groups)));
  }

  /** Some addresses the pattern takes and some it refuses. */
  lemma EmailExamples()
    ensures EmailPattern("ana@sola.si")
    ensures EmailPattern("a@b.c.")
    ensures !EmailPattern("@sola.si")
    ensures !EmailPattern("ana@.si")
    ensures !EmailPattern("ana@sola.")
    ensures !EmailPattern("ana @sola.si")
  {
    assert "ana@sola.si"[3] == '@' && "ana@sola.si"[8] == '.';
    assert "a@b.c."[1] == '@' && "a@b.c."[3] == '.';
    assert "ana @sola.si"[3] == ' ';
  }
}

=== FILE: grid_layout.dfy ===
/**
 * The lesson layout of the grid view (`processedDays` in
 * `timetable_view/Timetable.tsx`): every day's lessons are sorted by slot,
 * split into overlap clusters with a running maximum end slot, and given
 * first-fit lanes inside their cluster.
 */
module GridLayout {
  import opened TimetableTypes
  import opened StableSort

  /** `ProcessedClassInfo`: a lesson with its exclusive end slot, its lane and its cluster's lane count. */
  datatype Placed = Placed(lesson: Lesson, toSlot: int, lane: int, totalLanes: int)

  function StartOf(p: Placed): int { p.lesson.slot }

  /** The lessons of a processed list, without the layout fields. */
  function Lessons(s: seq<Placed>): (r: seq<Lesson>)
    ensures |r| == |s|
    ensures forall i :: 0 <= i < |s| ==> r[i] == s[i].lesson
  {
    if |s| == 0 then [] else [s[0].lesson] + Lessons(s[1..])
  }

  /** The lesson occupies at least its own start slot. */
  ghost predicate Positive(p: Placed) { p.lesson.slot < p.toSlot }

  /** The lesson does not end before it starts. */
  ghost predicate Forward(p: Placed) { p.lesson.slot <= p.toSlot }

  // ---------------------------------------------------------------------------
  // Preparation
  // ---------------------------------------------------------------------------

  /** `{ ...c, to_slot: c.slot + c.duration, lane: 0, totalLanes: 1 }` for every lesson. */
  function Annotate(classes: seq<Lesson>): (r: seq<Placed>)
    ensures Lessons(r) == classes
    ensures forall i :: 0 <= i < |r| ==> EndMatches(r[i])
  {
    if |classes| == 0 then []
    else
      var l := classes[0];
      [Placed(l, l.slot + l.duration, 0, 1)] + Annotate(classes[1..])
  }

  lemma {:induction false} LessonsWithKey(s: seq<Placed>, v: int)
    ensures WithKey(Lessons(s), SlotOf, v) == Lessons(WithKey(s, StartOf, v))
    decreases |s|
  {
    if |s| > 0 {
      LessonsWithKey(s[1..], v);
      assert Lessons(s)[1..] == Lessons(s[1..]);
      LessonsAppend(if StartOf(s[0]) == v then [s[0]] else [], WithKey(s[1..], StartOf, v));
    }
  }

  lemma {:induction false} LessonsAppend(a: seq<Placed>, b: seq<Placed>)
    ensures Lessons(a + b) == Lessons(a) + Lessons(b)
  {
  }

  /**
   * The lessons of a day ready for layout: annotated with their end slot and
   * stably sorted by slot. The grid view orders lessons exactly as the
   * compact view's sort does.
   */
  function Prepare(classes: seq<Lesson>): (r: seq<Placed>)
    ensures |r| == |classes|
    ensures SortedBy(r, StartOf)
    ensures forall i :: 0 <= i < |r| ==> r[i].toSlot == r[i].lesson.slot + r[i].lesson.duration
    ensures Lessons(r) == Sort(classes, SlotOf)
  {
    var annotated := Annotate(classes);
    var r := Sort(annotated, StartOf);
    PrepareOrder(classes);
    EndsSurviveSort(annotated, r);
    r
  }

  /** The end slot is `slot + duration`. */
  ghost predicate EndMatches(p: Placed) { p.toSlot == p.lesson.slot + p.lesson.duration }

  lemma EndsSurviveSort(a: seq<Placed>, b: seq<Placed>)
    requires multiset(a) == multiset(b)
    requires forall i :: 0 <= i < |a| ==> EndMatches(a[i])
    ensures forall i :: 0 <= i < |b| ==> EndMatches(b[i])
  {
    forall i | 0 <= i < |b| ensures EndMatches(b[i]) {
      assert b[i] in multiset(a);
    }
  }

  lemma PrepareOrder(classes: seq<Lesson>)
    ensures Lessons(Sort(Annotate(classes), StartOf)) == Sort(classes, SlotOf)
  {
    var annotated := Annotate(classes);
    var sorted := Sort(annotated, StartOf);
    SortIsStable(annotated, StartOf);
    forall v
      ensures WithKey(Lessons(sorted), SlotOf, v) == WithKey(classes, SlotOf, v)
    {
      LessonsWithKey(sorted, v);
      LessonsWithKey(annotated, v);
    }
    assert SortedBy(Lessons(sorted), SlotOf);
    StableSortIsUnique(Lessons(sorted), classes, SlotOf);
  }

  // ---------------------------------------------------------------------------
  // Overlap clusters
  // ---------------------------------------------------------------------------

  /** `Math.max(...cluster.map(c => c.to_slot))` of a non-empty cluster. */
  function MaxEnd(c: seq<Placed>): (m: int)
    requires |c| > 0
    ensures forall i :: 0 <= i < |c| ==> c[i].toSlot <= m
    ensures exists i :: 0 <= i < |c| && c[i].toSlot == m
  {
    if |c| == 1 then c[0].toSlot
    else
      var m := MaxEnd(c[..|c| - 1]);
      if c[|c| - 1].toSlot > m then c[|c| - 1].toSlot else m
  }

  /**
   * The clustering loop from lesson `current`'s cluster on: a lesson that
   * starts before the current cluster's maximum end joins it, any other
   * lesson closes it and opens a new one.
   */
  function ClusterFrom(current: seq<Placed>, rest: seq<Placed>): seq<seq<Placed>>
    requires |current| > 0
    decreases |rest|
  {
    if |rest| == 0 then [current]
    else if rest[0].lesson.slot < MaxEnd(current) then ClusterFrom(current + [rest[0]], rest[1..])
    else [current] + ClusterFrom([rest[0]], rest[1..])
  }

  /** The overlap clusters of a day's prepared lessons. */
  function Clusters(s: seq<Placed>): seq<seq<Placed>> {
    if |s| == 0 then [] else ClusterFrom([s[0]], s[1..])
  }

  function Flatten<T>(cs: seq<seq<T>>): seq<T> {
    if |cs| == 0 then [] else cs[0] + Flatten(cs[1..])
  }

  /** Every lesson of `c` after the first starts before the largest end of the lessons before it. */
  ghost predicate Joined(c: seq<Placed>) {
    && |c| > 0
    && forall j :: 0 < j < |c| ==> c[j].lesson.slot < MaxEnd(c[..j])
  }

  /**
   * `cs` splits `s` in order into clusters such that a lesson joins the
   * current cluster iff it starts before the cluster's largest end, and opens
   * the next cluster otherwise.
   */
  ghost predicate IsClustering(s: seq<Placed>, cs: seq<seq<Placed>>) {
    && (forall i :: 0 <= i < |cs| ==> Joined(cs[i]))
    && Split(s, cs)
  }

  /**
   * `cs` cuts `s` in order into non-empty pieces, each piece starting no
   * earlier than the largest end of the piece before it.
   */
  ghost predicate Split(s: seq<Placed>, cs: seq<seq<Placed>>) {
    && Flatten(cs) == s
    && (forall i :: 0 <= i < |cs| ==> |cs[i]| > 0)
    && (forall i :: 0 <= i < |cs| - 1 ==> cs[i + 1][0].lesson.slot >= MaxEnd(cs[i]))
  }

  lemma GrowJoined(current: seq<Placed>, x: Placed)
    requires Joined(current)
    requires x.lesson.slot < MaxEnd(current)
    ensures Joined(current + [x])
  {
    var grown := current + [x];
    assert grown[..|current|] == current;
    forall j | 0 < j < |grown| ensures grown[j].lesson.slot < MaxEnd(grown[..j]) {
      if j < |current| {
        assert grown[..j] == current[..j];
      }
    }
  }

  /** Closing `current` in front of a clustering of the remaining lessons. */
  lemma ConsCluster(current: seq<Placed>, rest: seq<Placed>, tail: seq<seq<Placed>>)
    requires Joined(current)
    requires IsClustering(rest, tail)
    requires |tail| > 0 && |tail[0]| > 0 && |rest| > 0 && tail[0][0] == rest[0]
    requires rest[0].lesson.slot >= MaxEnd(current)
    ensures IsClustering(current + rest, [current] + tail)
  {
    var cs := [current] + tail;
    assert cs[1..] == tail;
    assert Flatten(cs) == current + Flatten(tail);
    forall i | 0 <= i < |cs| - 1 ensures cs[i + 1][0].lesson.slot >= MaxEnd(cs[i]) {
      if i > 0 {
        assert cs[i] == tail[i - 1] && cs[i + 1] == tail[i];
      }
    }
  }

  ghost predicate ClusterFromSpec(current: seq<Placed>, rest: seq<Placed>)
    requires |current| > 0
  {
    var cs := ClusterFrom(current, rest);
    && |cs| > 0
    && |current| <= |cs[0]| && cs[0][..|current|] == current
    && IsClustering(current + rest, cs)
  }

  lemma {:induction false} ClusterFromCorrect(current: seq<Placed>, rest: seq<Placed>)
    requires Joined(current)
    ensures ClusterFromSpec(current, rest)
    decreases |rest|, 1
  {
    if |rest| == 0 {
      var cs := ClusterFrom(current, rest);
      assert current + rest == current;
      assert Flatten(cs) == current + Flatten(cs[1..]);
    } else if rest[0].lesson.slot < MaxEnd(current) {
      ClusterFromJoins(current, rest);
    } else {
      ClusterFromCloses(current, rest);
    }
  }

  lemma {:induction false} ClusterFromJoins(current: seq<Placed>, rest: seq<Placed>)
    requires Joined(current)
    requires |rest| > 0 && rest[0].lesson.slot < MaxEnd(current)
    ensures ClusterFromSpec(current, rest)
    decreases |rest|, 0
  {
    var grown := current + [rest[0]];
    GrowJoined(current, rest[0]);
    ClusterFromCorrect(grown, rest[1..]);
    var cs := ClusterFrom(grown, rest[1..]);
    assert ClusterFrom(current, rest) == cs;
    GrownPrefix(current, rest, cs);
  }

  /** The clusters built from `current` grown by the next lesson are those built from `current`. */
  lemma GrownPrefix(current: seq<Placed>, rest: seq<Placed>, cs: seq<seq<Placed>>)
    requires |current| > 0 && |rest| > 0
    requires |cs| > 0 && |current| + 1 <= |cs[0]| && cs[0][..|current| + 1] == current + [rest[0]]
    requires IsClustering(current + [rest[0]] + rest[1..], cs)
    ensures |current| <= |cs[0]| && cs[0][..|current|] == current
    ensures IsClustering(current + rest, cs)
  {
    var grown := current + [rest[0]];
    assert grown + rest[1..] == current + rest;
    assert grown[..|current|] == current;
    assert cs[0][..|grown|][..|current|] == cs[0][..|current|];
  }

  lemma {:induction false} ClusterFromCloses(current: seq<Placed>, rest: seq<Placed>)
    requires Joined(current)
    requires |rest| > 0 && rest[0].lesson.slot >= MaxEnd(current)
    ensures ClusterFromSpec(current, rest)
    decreases |rest|, 0
  {
    var cs := ClusterFrom(current, rest);
    var tail := ClusterFrom([rest[0]], rest[1..]);
    assert cs == [current] + tail;
    ClusterFromCorrect([rest[0]], rest[1..]);
    assert [rest[0]] + rest[1..] == rest;
    assert tail[0][0] == tail[0][..1][0];
    ConsCluster(current, rest, tail);
  }

  /** The clusters partition the prepared lessons in order, split exactly where `processedDays` splits. */
  lemma ClustersCorrect(s: seq<Placed>)
    ensures IsClustering(s, Clusters(s))
  {
    if |s| > 0 {
      ClusterFromCorrect([s[0]], s[1..]);
      assert [s[0]] + s[1..] == s;
    } else {
      assert Flatten(Clusters(s)) == [];
    }
  }

  // ---------------------------------------------------------------------------
  // First-fit lanes inside one cluster
  // ---------------------------------------------------------------------------

  /**
   * The least lane whose most recent occupant ends no later than `slot`
   * (`lastInLane.to_slot <= lesson.slot`), or `|ends|` for a new lane.
   */
  function FirstFit(ends: seq<int>, slot: int): (i: nat)
    ensures i <= |ends|
    ensures i < |ends| ==> ends[i] <= slot
    ensures forall l :: 0 <= l < i ==> ends[l] > slot
  {
    if |ends| == 0 then 0
    else if ends[0] <= slot then 0
    else 1 + FirstFit(ends[1..], slot)
  }

  /**
   * The lanes after placing the first lessons of a cluster: the lane of each
   * placed lesson, and for every lane the index of its most recent occupant
   * (`lanes[i][lanes[i].length - 1]`).
   */
  datatype LaneState = LaneState(laneOf: seq<nat>, last: seq<nat>)

  /** The end slots of the lanes' most recent occupants. */
  function Ends(c: seq<Placed>, last: seq<nat>): (r: seq<int>)
    requires forall l :: 0 <= l < |last| ==> last[l] < |c|
    ensures |r| == |last|
    ensures forall l :: 0 <= l < |last| ==> r[l] == c[last[l]].toSlot
  {
    if |last| == 0 then [] else [c[last[0]].toSlot] + Ends(c, last[1..])
  }

  ghost predicate WellFormed(st: LaneState, n: nat) {
    && |st.laneOf| == n
    && (forall l :: 0 <= l < |st.last| ==> st.last[l] < n)
    && (forall i :: 0 <= i < n ==> st.laneOf[i] < |st.last|)
  }

  /** The lanes after `cluster.forEach` has placed the first `n` lessons of `c`. */
  function Place(c: seq<Placed>, n: nat): (st: LaneState)
    requires n <= |c|
    ensures WellFormed(st, n)
    decreases n
  {
    if n == 0 then LaneState([], [])
    else
      var prev := Place(c, n - 1);
      Push(prev, FirstFit(Ends(c, prev.last), c[n - 1].lesson.slot), n - 1)
  }

  /** The `n`-th lesson goes where first fit puts it, after the lessons before it. */
  lemma PlaceStep(c: seq<Placed>, m: nat, n: nat)
    requires n == m + 1 && n <= |c|
    ensures var prev := Place(c, m);
      Place(c, n) == Push(prev, FirstFit(Ends(c, prev.last), c[m].lesson.slot), m)
  {
  }

  /**
   * Puts lesson `idx` into `lane`: `lanes[lane].push(lesson)` for an existing
   * lane, `lanes.push([lesson])` for `lane == lanes.length`.
   */
  function Push(st: LaneState, lane: nat, idx: nat): (r: LaneState)
    requires WellFormed(st, idx) && lane <= |st.last|
    ensures WellFormed(r, idx + 1)
    ensures r.laneOf == st.laneOf + [lane]
    ensures |r.last| == if lane < |st.last| then |st.last| else |st.last| + 1
  {
    if lane < |st.last| then LaneState(st.laneOf + [lane], st.last[lane := idx])
    else LaneState(st.laneOf + [lane], st.last + [idx])
  }

  /** Writes each lesson's lane and the cluster's lane count. */
  function Stamp(c: seq<Placed>, laneOf: seq<nat>, total: nat): (r: seq<Placed>)
    requires |laneOf| == |c|
    ensures |r| == |c|
    ensures forall i :: 0 <= i < |c| ==>
      r[i] == Placed(c[i].lesson, c[i].toSlot, laneOf[i], total)
  {
    if |c| == 0 then []
    else [Placed(c[0].lesson, c[0].toSlot, laneOf[0], total)] + Stamp(c[1..], laneOf[1..], total)
  }

  /**
   * The lane pass over one cluster. Every lesson keeps its lesson and end
   * slot, gets a lane below the cluster's lane count, and every lesson of a
   * non-empty cluster carries the same lane count, at least one.
   */
  function AssignLanes(c: seq<Placed>): (r: seq<Placed>)
    ensures |r| == |c|
    ensures Lessons(r) == Lessons(c)
    ensures forall i :: 0 <= i < |r| ==> r[i].toSlot == c[i].toSlot
    ensures forall i :: 0 <= i < |r| ==> 0 <= r[i].lane < r[i].totalLanes
    ensures forall i, j :: 0 <= i < |r| && 0 <= j < |r| ==> r[i].totalLanes == r[j].totalLanes
  {
    var st := Place(c, |c|);
    Stamp(c, st.laneOf, |st.last|)
  }

  /** Placing more lessons never changes the lanes of those already placed. */
  lemma {:induction false} PlacePrefix(c: seq<Placed>, i: nat, n: nat)
    requires i <= n <= |c|
    ensures Place(c, n).laneOf[..i] == Place(c, i).laneOf
    decreases n
  {
    if i < n {
      var m := n - 1;
      PlacePrefix(c, i, m);
      PlaceStep(c, m, n);
      var prev := Place(c, m);
      var now := Place(c, n);
      assert now.laneOf[..i] == prev.laneOf[..i];
    }
  }

  /**
   * `last[l]` is the most recent occupant of lane `l` among the first `n`
   * lessons: it is in lane `l`, and no later lesson is.
   */
  ghost predicate MostRecent(st: LaneState, n: nat)
    requires WellFormed(st, n)
  {
    forall l :: 0 <= l < |st.last| ==>
      && st.laneOf[st.last[l]] == l
      && forall j :: st.last[l] < j < n ==> st.laneOf[j] != l
  }

  lemma PushMostRecent(st: LaneState, lane: nat, idx: nat)
    requires WellFormed(st, idx) && lane <= |st.last|
    requires MostRecent(st, idx)
    ensures MostRecent(Push(st, lane, idx), idx + 1)
  {
    var r := Push(st, lane, idx);
    forall l | 0 <= l < |r.last|
      ensures r.laneOf[r.last[l]] == l
      ensures forall j :: r.last[l] < j < idx + 1 ==> r.laneOf[j] != l
    {
      if l != lane {
        assert r.last[l] == st.last[l];
      }
    }
  }

  lemma {:induction false} LastIsMostRecent(c: seq<Placed>, n: nat)
    requires n <= |c|
    ensures MostRecent(Place(c, n), n)
    decreases n
  {
    if n > 0 {
      var m := n - 1;
      LastIsMostRecent(c, m);
      PlaceStep(c, m, n);
      var prev := Place(c, m);
      PushMostRecent(prev, FirstFit(Ends(c, prev.last), c[m].lesson.slot), m);
    }
  }

  /**
   * First fit: lesson `i` goes to the least lane whose most recent occupant
   * (among the lessons before `i`) ends no later than lesson `i` starts, and
   * to a new lane when there is none.
   */
  lemma FirstFitChoice(c: seq<Placed>, i: nat)
    requires i < |c|
    ensures var before := Place(c, i);
      var lane := Place(c, |c|).laneOf[i];
      && lane == Place(c, i + 1).laneOf[i]
      && lane <= |before.last|
      && (lane < |before.last| ==> c[before.last[lane]].toSlot <= c[i].lesson.slot)
      && (forall l :: 0 <= l < lane ==> c[before.last[l]].toSlot > c[i].lesson.slot)
  {
    PlacePrefix(c, i + 1, |c|);
    assert Place(c, |c|).laneOf[i] == Place(c, |c|).laneOf[..i + 1][i];
  }

  /** Every placed lesson ends no later than the most recent occupant of its lane. */
  ghost predicate EndsBounded(c: seq<Placed>, st: LaneState, n: nat)
    requires n <= |c| && WellFormed(st, n)
  {
    forall i {:trigger st.laneOf[i]} :: 0 <= i < n ==> c[i].toSlot <= c[st.last[st.laneOf[i]]].toSlot
  }

  /** Placed lessons sharing a lane do not overlap. */
  ghost predicate LaneSharersDisjoint(c: seq<Placed>, laneOf: seq<nat>, n: nat)
    requires n <= |c| && n <= |laneOf|
  {
    forall i, j :: 0 <= i < j < n && laneOf[i] == laneOf[j] ==> c[i].toSlot <= c[j].lesson.slot
  }

  lemma PushDisjoint(c: seq<Placed>, st: LaneState, lane: nat, idx: nat, n: nat)
    requires n == idx + 1 && n <= |c| && WellFormed(st, idx) && lane <= |st.last|
    requires Forward(c[idx])
    requires lane < |st.last| ==> c[st.last[lane]].toSlot <= c[idx].lesson.slot
    requires EndsBounded(c, st, idx) && LaneSharersDisjoint(c, st.laneOf, idx)
    ensures EndsBounded(c, Push(st, lane, idx), n)
    ensures LaneSharersDisjoint(c, Push(st, lane, idx).laneOf, n)
  {
    PushEndsBounded(c, st, lane, idx);
    LaneEndsBeforeNext(c, st, lane, idx);
    PushSharersDisjoint(c, st.laneOf, lane, idx);
  }

  lemma PushEndsBounded(c: seq<Placed>, st: LaneState, lane: nat, idx: nat)
    requires idx < |c| && WellFormed(st, idx) && lane <= |st.last|
    requires Forward(c[idx])
    requires lane < |st.last| ==> c[st.last[lane]].toSlot <= c[idx].lesson.slot
    requires EndsBounded(c, st, idx)
    ensures EndsBounded(c, Push(st, lane, idx), idx + 1)
  {
    var r := Push(st, lane, idx);
    assert r.last[lane] == idx;
    forall i | 0 <= i < idx + 1 ensures c[i].toSlot <= c[r.last[r.laneOf[i]]].toSlot {
      if i < idx {
        assert r.laneOf[i] == st.laneOf[i];
        if st.laneOf[i] != lane {
          assert r.last[r.laneOf[i]] == st.last[st.laneOf[i]];
        } else {
          assert c[i].toSlot <= c[st.last[lane]].toSlot;
        }
      } else {
        assert r.laneOf[i] == lane;
      }
    }
  }

  /** Every lesson already in a lane that fits lesson `idx` ends before `idx` starts. */
  lemma LaneEndsBeforeNext(c: seq<Placed>, st: LaneState, lane: nat, idx: nat)
    requires idx < |c| && WellFormed(st, idx) && lane <= |st.last|
    requires lane < |st.last| ==> c[st.last[lane]].toSlot <= c[idx].lesson.slot
    requires EndsBounded(c, st, idx)
    ensures forall i :: 0 <= i < idx && st.laneOf[i] == lane ==> c[i].toSlot <= c[idx].lesson.slot
  {
    forall i | 0 <= i < idx && st.laneOf[i] == lane
      ensures c[i].toSlot <= c[idx].lesson.slot
    {
      assert c[i].toSlot <= c[st.last[st.laneOf[i]]].toSlot;
    }
  }

  lemma PushSharersDisjoint(c: seq<Placed>, laneOf: seq<nat>, lane: nat, idx: nat)
    requires idx < |c| && |laneOf| == idx
    requires forall i :: 0 <= i < idx && laneOf[i] == lane ==> c[i].toSlot <= c[idx].lesson.slot
    requires LaneSharersDisjoint(c, laneOf, idx)
    ensures LaneSharersDisjoint(c, laneOf + [lane], idx + 1)
  {
    var pushed := laneOf + [lane];
    forall i, j | 0 <= i < j < idx + 1 && pushed[i] == pushed[j]
      ensures c[i].toSlot <= c[j].lesson.slot
    {
      assert pushed[i] == laneOf[i];
      if j < idx {
        assert pushed[j] == laneOf[j];
      }
    }
  }

  /** After placing the first `n` lessons, lane-mates do not overlap and every lane's last occupant ends last. */
  ghost predicate PlacedApart(c: seq<Placed>, n: nat)
    requires n <= |c|
  {
    var st := Place(c, n);
    EndsBounded(c, st, n) && LaneSharersDisjoint(c, st.laneOf, n)
  }

  /** With no lesson ending before it starts, the lessons sharing a lane never overlap. */
  lemma {:induction false} LanesDisjoint(c: seq<Placed>, n: nat)
    requires n <= |c|
    requires forall k :: 0 <= k < |c| ==> Forward(c[k])
    ensures PlacedApart(c, n)
    decreases n
  {
    if n > 0 {
      var m := n - 1;
      LanesDisjoint(c, m);
      PlaceDisjoint(c, m, n);
    }
  }

  /** Placing lesson `m`, the `n`-th, keeps lane-mates apart. */
  lemma PlaceDisjoint(c: seq<Placed>, m: nat, n: nat)
    requires n == m + 1 && n <= |c| && Forward(c[m])
    requires PlacedApart(c, m)
    ensures PlacedApart(c, n)
  {
    var prev := Place(c, m);
    var lane := FirstFit(Ends(c, prev.last), c[m].lesson.slot);
    PlaceStep(c, m, n);
    PushDisjoint(c, prev, lane, m, n);
  }

  /** Two lessons of one cluster that overlap in time are in different lanes. */
  lemma AssignedLanesDisjoint(c: seq<Placed>)
    requires forall k :: 0 <= k < |c| ==> Forward(c[k])
    ensures var r := AssignLanes(c);
      forall i, j :: 0 <= i < j < |r| && r[i].lane == r[j].lane ==> r[i].toSlot <= r[j].lesson.slot
  {
    LanesDisjoint(c, |c|);
    assert LaneSharersDisjoint(c, Place(c, |c|).laneOf, |c|);
  }

  // ---------------------------------------------------------------------------
  // The lane count is the fewest lanes any layout could use
  // ---------------------------------------------------------------------------

  /** Lesson `p` is running at slot `t`. */
  ghost predicate Covers(p: Placed, t: int) { p.lesson.slot <= t < p.toSlot }

  /** The two lessons are running at a common slot. */
  ghost predicate Overlap(p: Placed, q: Placed) {
    p.lesson.slot < q.toSlot && q.lesson.slot < p.toSlot
  }

  /** `w` lists distinct lessons of `c` that are all running at slot `t`. */
  ghost predicate Crowd(c: seq<Placed>, t: int, w: seq<nat>) {
    && (forall j :: 0 <= j < |w| ==> w[j] < |c| && Covers(c[w[j]], t))
    && (forall j, k :: 0 <= j < k < |w| ==> w[j] != w[k])
  }

  /** A lane for every lesson, such that lessons sharing a lane never overlap. */
  ghost predicate ValidLanes(c: seq<Placed>, lanes: seq<nat>, m: nat) {
    && |lanes| == |c|
    && (forall i :: 0 <= i < |c| ==> lanes[i] < m)
    && (forall i, j :: 0 <= i < |c| && 0 <= j < |c| && i != j && lanes[i] == lanes[j] ==> !Overlap(c[i], c[j]))
  }

  /** Some lesson opened the newest lane: before it there was one lane fewer and it chose a new lane. */
  lemma {:induction false} NewestLaneOpened(c: seq<Placed>, n: nat) returns (i: nat)
    requires n <= |c| && |Place(c, n).last| > 0
    ensures i < n
    ensures |Place(c, i).last| + 1 == |Place(c, n).last|
    ensures Place(c, n).laneOf[i] == |Place(c, i).last|
    decreases n
  {
    var m := n - 1;
    PlaceStep(c, m, n);
    var prev := Place(c, m);
    var lane := FirstFit(Ends(c, prev.last), c[m].lesson.slot);
    if lane < |prev.last| {
      i := NewestLaneOpened(c, m);
      assert Place(c, n).laneOf[i] == prev.laneOf[i];
    } else {
      i := m;
    }
  }

  lemma LastDistinct(st: LaneState, n: nat)
    requires WellFormed(st, n) && MostRecent(st, n)
    ensures forall j, k :: 0 <= j < k < |st.last| ==> st.last[j] != st.last[k]
  {
  }

  /**
   * First fit over lessons sorted by start slot is optimal: the lesson that
   * opened the last lane starts while the most recent occupant of every
   * other lane is still running, so that many lessons run at once.
   */
  lemma LanesNeeded(c: seq<Placed>)
    requires |c| > 0
    requires SortedBy(c, StartOf)
    requires forall k :: 0 <= k < |c| ==> Positive(c[k])
    ensures exists t: int, w: seq<nat> :: Crowd(c, t, w) && |w| == |Place(c, |c|).last|
  {
    var i := NewestLaneOpened(c, |c|);
    var before := Place(c, i);
    FirstFitChoice(c, i);
    LastIsMostRecent(c, i);
    LastDistinct(before, i);
    var w := before.last + [i];
    var t := c[i].lesson.slot;
    forall j | 0 <= j < |w| ensures w[j] < |c| && Covers(c[w[j]], t) {
      if j < |before.last| {
        assert c[w[j]].lesson.slot <= t;
      }
    }
    assert Crowd(c, t, w);
  }

  /** Distinct numbers below `m` are at most `m` many. */
  lemma {:induction false} DistinctBelow(xs: seq<nat>, m: nat)
    requires forall j :: 0 <= j < |xs| ==> xs[j] < m
    requires forall j, k :: 0 <= j < k < |xs| ==> xs[j] != xs[k]
    ensures |xs| <= m
    decreases m
  {
    if |xs| > 0 {
      assert xs[0] < m;
      // drop the value m - 1, if present, and recurse below it
      var rest := Without(xs, m - 1);
      WithoutDistinct(xs, m - 1);
      DistinctBelow(rest, m - 1);
    }
  }

  /** `xs` without the entries equal to `v`. */
  function Without(xs: seq<nat>, v: nat): (r: seq<nat>)
    ensures forall j :: 0 <= j < |r| ==> r[j] != v && r[j] in xs
    ensures forall x :: x in xs && x != v ==> x in r
  {
    if |xs| == 0 then []
    else if xs[0] == v then Without(xs[1..], v)
    else [xs[0]] + Without(xs[1..], v)
  }

  /** Dropping one value from distinct numbers leaves distinct numbers, at most one fewer. */
  lemma {:induction false} WithoutDistinct(xs: seq<nat>, v: nat)
    requires forall j, k :: 0 <= j < k < |xs| ==> xs[j] != xs[k]
    ensures var r := Without(xs, v);
      && (forall j, k :: 0 <= j < k < |r| ==> r[j] != r[k])
      && |xs| <= |r| + (if v in xs then 1 else 0)
    decreases |xs|
  {
    if |xs| > 0 {
      var tail := xs[1..];
      WithoutDistinct(tail, v);
      assert xs[0] !in tail;
      if xs[0] != v {
        assert Without(xs, v) == [xs[0]] + Without(tail, v);
      }
    }
  }

  /**
   * No layout of a cluster in which lessons sharing a lane never overlap can
   * use fewer lanes than the first-fit lane count.
   */
  lemma NoFewerLanes(c: seq<Placed>, lanes: seq<nat>, m: nat)
    requires |c| > 0
    requires SortedBy(c, StartOf)
    requires forall k :: 0 <= k < |c| ==> Positive(c[k])
    requires ValidLanes(c, lanes, m)
    ensures AssignLanes(c)[0].totalLanes <= m
  {
    LanesNeeded(c);
    var t: int, w: seq<nat> :| Crowd(c, t, w) && |w| == |Place(c, |c|).last|;
    var used := Relabel(lanes, w);
    forall j, k | 0 <= j < k < |used| ensures used[j] != used[k] {
      assert Overlap(c[w[j]], c[w[k]]);
    }
    DistinctBelow(used, m);
  }

  /** The lanes `lanes` gives to the lessons listed in `w`. */
  function Relabel(lanes: seq<nat>, w: seq<nat>): (r: seq<nat>)
    requires forall j :: 0 <= j < |w| ==> w[j] < |lanes|
    ensures |r| == |w|
    ensures forall j :: 0 <= j < |w| ==> r[j] == lanes[w[j]]
  {
    if |w| == 0 then [] else [lanes[w[0]]] + Relabel(lanes, w[1..])
  }
}

=== FILE: grid_view.dfy ===
/**
 * The hour-grid view (`timetable_view/Timetable.tsx`): the shared merge
 * without sorting, the per-day lesson layout of `GridLayout`, and the
 * current-time indicator line.
 */
module GridView {
  import opened Wrappers
  import opened TimetableTypes
  import opened StableSort
  import opened GridLayout
  import Merge

  /**
   * `mergedData` of the grid view. A single timetable is shown as given; an
   * empty array gives an empty timetable; otherwise every day of the first
   * timetable holds the gathered lessons of all inputs, in merge order (the
   * layout sorts them later).
   */
  function MergedData(input: TimetableInput): (r: Timetable)
    ensures input.Single? ==> r == input.timetable
    ensures input.Many? && |input.timetables| == 0 ==> r == Timetable("", "", [])
    ensures input.Many? && |input.timetables| > 0 ==>
      var ts := input.timetables;
      && r.className == Merge.CombinedName
      && r.weekLabel == ts[0].weekLabel
      && Merge.SameFrame(r.days, ts[0].days)
      && forall k :: 0 <= k < |r.days| ==> r.days[k].classes == Merge.Gather(ts[0].days, ts, k)
  {
    match input
    case Single(t) => t
    case Many(ts) =>
      if |ts| == 0 then Timetable("", "", [])
      else
        Merge.MergeDaysContents(ts);
        Timetable(Merge.CombinedName, ts[0].weekLabel, Merge.MergeDays(ts))
  }

  // ---------------------------------------------------------------------------
  // processedDays
  // ---------------------------------------------------------------------------

  /** `{ ...day, processedLessons }`. */
  datatype ProcessedDay = ProcessedDay(day: Day, processedLessons: seq<Placed>)

  /** `clusters.forEach(...)`: the lane pass over every cluster, the results concatenated in order. */
  function ProcessClusters(cs: seq<seq<Placed>>): (r: seq<Placed>)
    ensures |r| == |Flatten(cs)|
    ensures forall i :: 0 <= i < |r| ==>
      r[i].lesson == Flatten(cs)[i].lesson && r[i].toSlot == Flatten(cs)[i].toSlot
    ensures forall i :: 0 <= i < |r| ==> 0 <= r[i].lane < r[i].totalLanes
  {
    if |cs| == 0 then []
    else
      var head := AssignLanes(cs[0]);
      var tail := ProcessClusters(cs[1..]);
      LanePassStep(cs, head, tail);
      head + tail
  }

  /** Prepending the first cluster's lane pass keeps what `ProcessClusters` promises. */
  lemma LanePassStep(cs: seq<seq<Placed>>, head: seq<Placed>, tail: seq<Placed>)
    requires |cs| > 0 && head == AssignLanes(cs[0])
    requires |tail| == |Flatten(cs[1..])|
    requires forall i :: 0 <= i < |tail| ==>
      tail[i].lesson == Flatten(cs[1..])[i].lesson && tail[i].toSlot == Flatten(cs[1..])[i].toSlot
    requires forall i :: 0 <= i < |tail| ==> 0 <= tail[i].lane < tail[i].totalLanes
    ensures |head + tail| == |Flatten(cs)|
    ensures forall i :: 0 <= i < |head + tail| ==>
      (head + tail)[i].lesson == Flatten(cs)[i].lesson && (head + tail)[i].toSlot == Flatten(cs)[i].toSlot
    ensures forall i :: 0 <= i < |head + tail| ==> 0 <= (head + tail)[i].lane < (head + tail)[i].totalLanes
  {
    var flat := Flatten(cs);
    var rest := Flatten(cs[1..]);
    var r := head + tail;
    assert flat == cs[0] + rest;
    assert |head| == |cs[0]|;
    forall i | 0 <= i < |r|
      ensures r[i].lesson == flat[i].lesson && r[i].toSlot == flat[i].toSlot
      ensures 0 <= r[i].lane < r[i].totalLanes
    {
      if i < |head| {
        assert r[i] == head[i] && flat[i] == cs[0][i];
        assert head[i].lesson == Lessons(head)[i];
        assert cs[0][i].lesson == Lessons(cs[0])[i];
      } else {
        assert r[i] == tail[i - |head|] && flat[i] == rest[i - |head|];
      }
    }
  }

  /** One day of `processedDays`: an empty day lays out nothing. */
  function ProcessDay(d: Day): (r: ProcessedDay)
    ensures r.day == d
    ensures |r.processedLessons| == |d.classes|
    ensures forall i :: 0 <= i < |r.processedLessons| ==> 0 <= r.processedLessons[i].lane < r.processedLessons[i].totalLanes
  {
    var prepared := Prepare(d.classes);
    if |prepared| == 0 then ProcessedDay(d, [])
    else
      ClustersCorrect(prepared);
      ProcessedDay(d, ProcessClusters(Clusters(prepared)))
  }

  /** `processedDays`: every day of the merged timetable, laid out. */
  function ProcessedDays(t: Timetable): (r: seq<ProcessedDay>)
    ensures |r| == |t.days|
    ensures forall k :: 0 <= k < |r| ==> r[k] == ProcessDay(t.days[k])
  {
    ProcessDayList(t.days)
  }

  function ProcessDayList(days: seq<Day>): (r: seq<ProcessedDay>)
    ensures |r| == |days|
    ensures forall k :: 0 <= k < |r| ==> r[k] == ProcessDay(days[k])
  {
    if |days| == 0 then [] else [ProcessDay(days[0])] + ProcessDayList(days[1..])
  }

  /**
   * The grid shows exactly the day's lessons, in the order the compact view
   * sorts them, each spanning `slot` up to `slot + duration`.
   */
  lemma ProcessDayLessons(d: Day)
    ensures Lessons(ProcessDay(d).processedLessons) == Sort(d.classes, SlotOf)
    ensures forall p :: p in ProcessDay(d).processedLessons ==> p.toSlot == p.lesson.slot + p.lesson.duration
  {
    var prepared := Prepare(d.classes);
    if |prepared| > 0 {
      LayoutKeepsLessons(prepared);
    }
  }

  /** The lane pass over the clusters keeps every lesson, its end slot and its position. */
  lemma LayoutKeepsLessons(s: seq<Placed>)
    ensures var r := ProcessClusters(Clusters(s));
      && Lessons(r) == Lessons(s)
      && forall i :: 0 <= i < |r| ==> r[i].toSlot == s[i].toSlot
  {
    var cs := Clusters(s);
    ClustersCorrect(s);
    assert Flatten(cs) == s;
    var r := ProcessClusters(cs);
    assert forall i :: 0 <= i < |r| ==> Lessons(r)[i] == Lessons(s)[i];
  }

  /**
   * Two lessons of a day that overlap in time are drawn in the same cluster
   * grid (equal lane counts) and in different lanes.
   */
  ghost predicate NoClash(r: seq<Placed>) {
    forall i, j :: 0 <= i < j < |r| && r[j].lesson.slot < r[i].toSlot ==>
      r[i].lane != r[j].lane && r[i].totalLanes == r[j].totalLanes
  }

  lemma ClusterNoClash(c: seq<Placed>)
    requires forall k :: 0 <= k < |c| ==> Forward(c[k])
    ensures NoClash(AssignLanes(c))
  {
    AssignedLanesDisjoint(c);
  }

  /** Every lesson of `b` starts once every lesson of `a` has ended. */
  ghost predicate EndsBefore(a: seq<Placed>, b: seq<Placed>) {
    forall i, j :: 0 <= i < |a| && 0 <= j < |b| ==> a[i].toSlot <= b[j].lesson.slot
  }

  /** Joining two layouts, the second starting only after the first has ended. */
  lemma ConcatNoClash(a: seq<Placed>, b: seq<Placed>)
    requires NoClash(a) && NoClash(b)
    requires EndsBefore(a, b)
    ensures NoClash(a + b)
  {
    var r := a + b;
    forall i, j | 0 <= i < j < |r| && r[j].lesson.slot < r[i].toSlot
      ensures r[i].lane != r[j].lane && r[i].totalLanes == r[j].totalLanes
    {
      if j < |a| {
        assert r[i] == a[i] && r[j] == a[j];
      } else if i >= |a| {
        assert r[i] == b[i - |a|] && r[j] == b[j - |a|];
      }
    }
  }

  /** A suffix of an ascending sequence is ascending. */
  lemma SortedSuffix(s: seq<Placed>, m: nat)
    requires SortedBy(s, StartOf) && m <= |s|
    ensures SortedBy(s[m..], StartOf)
  {
    forall i, j | 0 <= i < j < |s[m..]| ensures StartOf(s[m..][i]) <= StartOf(s[m..][j]) {
      assert s[m..][i] == s[m + i] && s[m..][j] == s[m + j];
    }
  }

  /** The clusters after the first split the lessons after the first cluster. */
  lemma ClusteringTail(s: seq<Placed>, cs: seq<seq<Placed>>)
    requires Split(s, cs) && |cs| > 0
    ensures |cs[0]| <= |s| && s[|cs[0]|..] == Flatten(cs[1..])
    ensures Split(s[|cs[0]|..], cs[1..])
  {
    assert Flatten(cs) == cs[0] + Flatten(cs[1..]);
    forall i | 0 <= i < |cs[1..]| - 1 ensures cs[1..][i + 1][0].lesson.slot >= MaxEnd(cs[1..][i]) {
      assert cs[1..][i + 1] == cs[i + 2] && cs[1..][i] == cs[i + 1];
    }
  }

  lemma {:induction false} ProcessClustersNoClash(s: seq<Placed>, cs: seq<seq<Placed>>)
    requires Split(s, cs)
    requires SortedBy(s, StartOf)
    requires forall k :: 0 <= k < |s| ==> Forward(s[k])
    ensures NoClash(ProcessClusters(cs))
    decreases |cs|
  {
    if |cs| > 0 {
      var n := |cs[0]|;
      ForwardPieces(s, cs);
      ClusterNoClash(cs[0]);
      ProcessClustersNoClash(s[n..], cs[1..]);
      ClustersSeparated(s, cs);
      ConcatNoClash(AssignLanes(cs[0]), ProcessClusters(cs[1..]));
    }
  }

  /** The first piece and the rest of a split keep the properties of the lessons split. */
  lemma ForwardPieces(s: seq<Placed>, cs: seq<seq<Placed>>)
    requires Split(s, cs) && |cs| > 0
    requires SortedBy(s, StartOf)
    requires forall k :: 0 <= k < |s| ==> Forward(s[k])
    ensures |cs[0]| <= |s|
    ensures Split(s[|cs[0]|..], cs[1..]) && SortedBy(s[|cs[0]|..], StartOf)
    ensures forall k :: 0 <= k < |s| - |cs[0]| ==> Forward(s[|cs[0]|..][k])
    ensures forall k :: 0 <= k < |cs[0]| ==> Forward(cs[0][k])
  {
    ClusteringTail(s, cs);
    SortedSuffix(s, |cs[0]|);
    forall k | 0 <= k < |cs[0]| ensures Forward(cs[0][k]) {
      assert cs[0][k] == s[k];
    }
  }

  /** Every lesson after the first cluster starts once every lesson of the first cluster has ended. */
  lemma ClustersSeparated(s: seq<Placed>, cs: seq<seq<Placed>>)
    requires Split(s, cs) && |cs| > 0
    requires SortedBy(s, StartOf)
    ensures EndsBefore(AssignLanes(cs[0]), ProcessClusters(cs[1..]))
  {
    ClusteringTail(s, cs);
    var n := |cs[0]|;
    var rest := s[n..];
    var a := AssignLanes(cs[0]);
    var b := ProcessClusters(cs[1..]);
    forall i, j | 0 <= i < |a| && 0 <= j < |b| ensures a[i].toSlot <= b[j].lesson.slot {
      assert b[j].lesson == rest[j].lesson;
      assert cs[1][0] == rest[0];
      assert a[i].toSlot == cs[0][i].toSlot <= MaxEnd(cs[0]);
      assert StartOf(rest[0]) <= StartOf(rest[j]) by {
        if j > 0 {
          assert rest[0] == s[n] && rest[j] == s[n + j];
        }
      }
    }
  }

  /**
   * When no lesson of the day has a negative duration, lessons that overlap
   * in time never share a lane, and they are laid out in the same cluster.
   */
  lemma ProcessDayNoClash(d: Day)
    requires forall c :: c in d.classes ==> c.duration >= 0
    ensures NoClash(ProcessDay(d).processedLessons)
  {
    var prepared := Prepare(d.classes);
    if |prepared| > 0 {
      ClustersCorrect(prepared);
      forall k | 0 <= k < |prepared| ensures Forward(prepared[k]) {
        assert prepared[k].lesson == Lessons(prepared)[k];
        assert prepared[k].lesson in multiset(d.classes);
      }
      ProcessClustersNoClash(prepared, Clusters(prepared));
    }
  }

  /** A cluster is a contiguous piece of the prepared lessons, so it is ascending too. */
  lemma ClusterSorted(s: seq<Placed>, cs: seq<seq<Placed>>, k: nat)
    requires Split(s, cs) && SortedBy(s, StartOf) && k < |cs|
    ensures SortedBy(cs[k], StartOf)
    decreases k
  {
    ClusteringTail(s, cs);
    if k == 0 {
      forall i, j | 0 <= i < j < |cs[0]| ensures StartOf(cs[0][i]) <= StartOf(cs[0][j]) {
        assert cs[0][i] == s[i] && cs[0][j] == s[j];
      }
    } else {
      SortedSuffix(s, |cs[0]|);
      ClusterSorted(s[|cs[0]|..], cs[1..], k - 1);
    }
  }

  /**
   * When every lesson of the day lasts at least one slot, the lane count of
   * every cluster is the fewest lanes any layout of that cluster without
   * overlapping lane-mates could use.
   */
  lemma ClusterLanesMinimal(d: Day, k: nat, lanes: seq<nat>, m: nat)
    requires forall c :: c in d.classes ==> c.duration >= 1
    requires k < |Clusters(Prepare(d.classes))|
    ensures ValidLanes(Clusters(Prepare(d.classes))[k], lanes, m) ==>
      forall p :: p in AssignLanes(Clusters(Prepare(d.classes))[k]) ==> p.totalLanes <= m
  {
    var prepared := Prepare(d.classes);
    var cs := Clusters(prepared);
    if ValidLanes(cs[k], lanes, m) {
      ClustersCorrect(prepared);
      ClusterSorted(prepared, cs, k);
      ClusterLessonsPositive(d, k);
      NoFewerLanes(cs[k], lanes, m);
    }
  }

  /** When every lesson of the day lasts a slot or more, so does every lesson of every cluster. */
  lemma ClusterLessonsPositive(d: Day, k: nat)
    requires forall c :: c in d.classes ==> c.duration >= 1
    requires k < |Clusters(Prepare(d.classes))|
    ensures forall i :: 0 <= i < |Clusters(Prepare(d.classes))[k]| ==>
      Positive(Clusters(Prepare(d.classes))[k][i])
  {
    var prepared := Prepare(d.classes);
    var cs := Clusters(prepared);
    ClustersCorrect(prepared);
    ClusteringTail(prepared, cs);
    forall i | 0 <= i < |cs[k]| ensures Positive(cs[k][i]) {
      MemberOfCluster(prepared, cs, k, i);
      var p := cs[k][i];
      var q :| 0 <= q < |prepared| && prepared[q] == p;
      PreparedLessonPositive(d, q);
    }
  }

  lemma PreparedLessonPositive(d: Day, q: nat)
    requires forall c :: c in d.classes ==> c.duration >= 1
    requires q < |d.classes|
    ensures q < |Prepare(d.classes)| && Positive(Prepare(d.classes)[q])
  {
    var prepared := Prepare(d.classes);
    var p := prepared[q];
    assert p.lesson == Lessons(prepared)[q];
    assert p.lesson in multiset(Sort(d.classes, SlotOf));
    assert p.lesson in multiset(d.classes);
  }

  /** Every lesson of a cluster is one of the clustered lessons. */
  lemma {:induction false} MemberOfCluster(s: seq<Placed>, cs: seq<seq<Placed>>, k: nat, i: nat)
    requires Split(s, cs) && k < |cs| && i < |cs[k]|
    ensures cs[k][i] in s
    decreases k
  {
    ClusteringTail(s, cs);
    if k == 0 {
      assert cs[0][i] == s[i];
    } else {
      MemberOfCluster(s[|cs[0]|..], cs[1..], k - 1, i);
    }
  }

  // ---------------------------------------------------------------------------
  // timeIndicatorPosition
  // ---------------------------------------------------------------------------

  /** 7:15, the start of the first period, in minutes after midnight. */
  const DayStart: int := 7 * 60 + 15
  /** 20:30, the end of the last period, in minutes after midnight. */
  const DayEnd: int := 20 * 60 + 30

  /** Where the indicator line is drawn: its height as a percentage of the grid body, and its day column. */
  datatype Indicator = Indicator(percent: real, dayColumn: int)

  /** `jsDayIndex === 0 ? 6 : jsDayIndex - 1`: Monday is day 0 and Sunday day 6. */
  function DayIndex(jsDay: int): (r: int)
    requires 0 <= jsDay < 7
    ensures 0 <= r < 7
    ensures (r + 1) % 7 == jsDay
  {
    if jsDay == 0 then 6 else jsDay - 1
  }

  /**
   * `timeIndicatorPosition` at `hours:minutes` on the weekday `jsDay`
   * (`Date.getDay`, Sunday = 0), for a merged timetable of `dayCount` days.
   * There is no line before 7:15, after 20:30, or on a day past the last
   * column; otherwise the line sits `percent` of the way from 7:15 to 20:30,
   * in the column after the day's header column.
   */
  function TimeIndicator(hours: int, minutes: int, jsDay: int, dayCount: nat): (r: Option<Indicator>)
    requires 0 <= hours < 24 && 0 <= minutes < 60 && 0 <= jsDay < 7
    ensures r.None? <==>
      hours * 60 + minutes < DayStart || hours * 60 + minutes > DayEnd || DayIndex(jsDay) >= dayCount
    ensures r.Some? ==>
      && 0.0 <= r.value.percent <= 100.0
      && 2 <= r.value.dayColumn < dayCount + 2
      && r.value.dayColumn == DayIndex(jsDay) + 2
      && r.value.percent * (DayEnd - DayStart) as real == (hours * 60 + minutes - DayStart) as real * 100.0
  {
    var now := hours * 60 + minutes;
    if now < DayStart || now > DayEnd then None
    else
      var minutesIntoDay := now - DayStart;
      var percentage := (minutesIntoDay as real / (DayEnd - DayStart) as real) * 100.0;
      var index := DayIndex(jsDay);
      if index < 0 || index >= dayCount then None
      else Some(Indicator(percentage, index + 2))
  }

  /** The line moves down as the clock moves on within one day. */
  lemma IndicatorMonotone(h1: int, m1: int, h2: int, m2: int, jsDay: int, dayCount: nat)
    requires 0 <= h1 < 24 && 0 <= m1 < 60 && 0 <= h2 < 24 && 0 <= m2 < 60 && 0 <= jsDay < 7
    requires TimeIndicator(h1, m1, jsDay, dayCount).Some? && TimeIndicator(h2, m2, jsDay, dayCount).Some?
    requires h1 * 60 + m1 < h2 * 60 + m2
    ensures TimeIndicator(h1, m1, jsDay, dayCount).value.percent < TimeIndicator(h2, m2, jsDay, dayCount).value.percent
  {
  }
}

=== FILE: home.dfy ===
/**
 * The home page (`pages/index.tsx`): the stored preferences behind
 * `localStorage`, the handlers that apply saved settings, and the choice
 * of timetable request. Browser storage is a record of optional fields;
 * `typeof window === 'undefined'` (rendering on the server) is the flag
 * `browser` being false.
 */
module Home {
  import opened Wrappers
  import JsObject
  import opened SettingsTypes

  /**
   * What `localStorage` holds under the page's keys: `viewMode`,
   * `professorId`, `classId`, `groups`, `subjects` (one subject list per
   * class id) and `timetableType`. `None` is a missing key.
   */
  datatype Store = Store(
    browser: bool,
    viewMode: Option<Mode>,
    professorId: Option<string>,
    classId: Option<string>,
    groups: Option<seq<StoredGroup>>,
    subjects: Option<map<string, seq<string>>>,
    timetableType: Option<TimetableType>)

  // ---------------------------------------------------------------------------
  // Stored preferences
  // ---------------------------------------------------------------------------

  /** `getStoredMode`: `'class'` off the browser, otherwise the stored mode or `null`. */
  function GetStoredMode(st: Store): Option<Mode> {
    if !st.browser then Some(ClassMode) else st.viewMode
  }

  function SetStoredMode(st: Store, mode: Mode): Store {
    if !st.browser then st else st.(viewMode := Some(mode))
  }

  /** `getStoredProfessorId`: the stored id, or `""`. */
  function GetStoredProfessorId(st: Store): string {
    if !st.browser then "" else st.professorId.GetOr("")
  }

  function SetStoredProfessorId(st: Store, id: string): Store {
    if !st.browser then st else st.(professorId := Some(id))
  }

  /** `getStoredClassId`: the stored id, or `""`. */
  function GetStoredClassId(st: Store): string {
    if !st.browser then "" else st.classId.GetOr("")
  }

  function SetStoredClassId(st: Store, id: string): Store {
    if !st.browser then st else st.(classId := Some(id))
  }

  /** `getStoredGroups`: the stored list, or `[]`. */
  function GetStoredGroups(st: Store): seq<StoredGroup> {
    if !st.browser then [] else st.groups.GetOr([])
  }

  function SetStoredGroups(st: Store, groups: seq<StoredGroup>): Store {
    if !st.browser then st else st.(groups := Some(groups))
  }

  /** `getStoredSubjects(classId)`: the list stored for the class, or `[]`. */
  function GetStoredSubjects(st: Store, classId: string): seq<string> {
    if !st.browser || classId == "" then []
    else if st.subjects.None? then []
    else if classId in st.subjects.value then st.subjects.value[classId]
    else []
  }

  /**
   * `setStoredSubjects(classId, subjects)`: replaces one class's list in
   * the per-class map, creating the map when there is none yet.
   */
  function SetStoredSubjects(st: Store, classId: string, subjects: seq<string>): Store {
    if !st.browser || classId == "" then st
    else
      var byClass := st.subjects.GetOr(map[]);
      st.(subjects := Some(byClass[classId := subjects]))
  }

  /** `getStoredTimetableType`: the stored type, or `'default'`. */
  function GetStoredTimetableType(st: Store): TimetableType {
    if !st.browser then DefaultView else st.timetableType.GetOr(DefaultView)
  }

  function SetStoredTimetableType(st: Store, t: TimetableType): Store {
    if !st.browser then st else st.(timetableType := Some(t))
  }

  /** A class's stored subjects read back as they were written. */
  lemma SubjectsRoundTrip(st: Store, classId: string, subjects: seq<string>)
    requires st.browser && classId != ""
    ensures GetStoredSubjects(SetStoredSubjects(st, classId, subjects), classId) == subjects
  {
  }

  /** Writing one class's subjects leaves every other class's list as it was. */
  lemma SubjectsOtherClassesKept(st: Store, classId: string, subjects: seq<string>, other: string)
    requires other != classId
    ensures GetStoredSubjects(SetStoredSubjects(st, classId, subjects), other)
      == GetStoredSubjects(st, other)
  {
  }

  /** With no class id, reading gives `[]` and writing changes nothing. */
  lemma EmptyClassId(st: Store, subjects: seq<string>)
    ensures GetStoredSubjects(st, "") == []
    ensures SetStoredSubjects(st, "", subjects) == st
  {
  }

  /** The defaults for missing keys. */
  lemma MissingKeyDefaults(browser: bool)
    ensures var st := Store(browser, None, None, None, None, None, None);
      && GetStoredProfessorId(st) == ""
      && GetStoredClassId(st) == ""
      && GetStoredGroups(st) == []
      && GetStoredTimetableType(st) == DefaultView
      && (browser ==> GetStoredMode(st).None?)
      && (!browser ==> GetStoredMode(st) == Some(ClassMode))
  {
  }

  // ---------------------------------------------------------------------------
  // Page state and handlers
  // ---------------------------------------------------------------------------

  /** The page's signals that the handlers touch. */
  datatype Page = Page(
    mode: Option<Mode>,
    displayClassId: string,
    displayProfessorId: string,
    displayGroups: seq<StoredGroup>,
    displaySubjects: seq<string>,
    timetableType: TimetableType,
    settingsOpen: bool,
    showOnboarding: bool)

  /** A page and the storage behind it. */
  datatype World = World(page: Page, store: Store)

  /** `newSettings.timetableType || 'default'`. */
  function TypeOrDefault(s: SavedSettings): TimetableType {
    s.timetableType.GetOr(DefaultView)
  }

  /** The professor branch of both save handlers fires. */
  predicate ProfessorBranch(s: SavedSettings) {
    s.mode == ProfessorMode && Chosen(s.professorId)
  }

  /** The class branch of both save handlers fires. */
  predicate ClassBranch(s: SavedSettings) {
    s.mode == ClassMode && Chosen(s.classId)
  }

  /** What the professor branch stores and shows. */
  function ApplyProfessor(w: World, id: string): World {
    World(w.page.(displayProfessorId := id), SetStoredProfessorId(w.store, id))
  }

  /** What the class branch stores and shows. */
  function ApplyClass(w: World, classId: string, groups: seq<StoredGroup>, subjects: seq<string>): World {
    var st := SetStoredClassId(w.store, classId);
    var st := SetStoredGroups(st, groups);
    var st := SetStoredSubjects(st, classId, subjects);
    World(w.page.(displayClassId := classId, displayGroups := groups, displaySubjects := subjects), st)
  }

  /**
   * `handleSaveSettings`: the mode and the timetable type (default when
   * absent) are always set and stored; then the professor branch records
   * the professor, or the class branch records class, groups and subjects
   * (`[]` when absent); the settings modal closes.
   */
  function HandleSaveSettings(w: World, s: SavedSettings): (r: World)
    ensures r.page.mode == Some(s.mode)
    ensures r.page.timetableType == TypeOrDefault(s)
    ensures w.store.browser ==> GetStoredMode(r.store) == Some(s.mode)
    ensures GetStoredTimetableType(r.store) ==
      if w.store.browser then TypeOrDefault(s) else DefaultView
    ensures !r.page.settingsOpen
    ensures r.page.showOnboarding == w.page.showOnboarding
  {
    var page := w.page.(mode := Some(s.mode), timetableType := TypeOrDefault(s));
    var store := SetStoredTimetableType(SetStoredMode(w.store, s.mode), TypeOrDefault(s));
    var w1 := World(page, store);
    var w2 :=
      if ProfessorBranch(s) then ApplyProfessor(w1, s.professorId.value)
      else if ClassBranch(s) then
        ApplyClass(w1, s.classId.value, s.groups.GetOr([]), s.subjects.GetOr([]))
      else w1;
    World(w2.page.(settingsOpen := false), w2.store)
  }

  /**
   * The professor branch of `handleSaveSettings` touches only the
   * professor: class, groups and subjects, shown or stored, stay as they
   * were.
   */
  lemma SaveSettingsProfessor(w: World, s: SavedSettings)
    requires ProfessorBranch(s)
    ensures var r := HandleSaveSettings(w, s);
      && r.page.displayProfessorId == s.professorId.value
      && (w.store.browser ==> GetStoredProfessorId(r.store) == s.professorId.value)
      && r.page.displayClassId == w.page.displayClassId
      && r.page.displayGroups == w.page.displayGroups
      && r.page.displaySubjects == w.page.displaySubjects
      && r.store.classId == w.store.classId
      && r.store.groups == w.store.groups
      && r.store.subjects == w.store.subjects
  {
  }

  /**
   * The class branch of `handleSaveSettings` shows and stores the class,
   * its groups and its subjects, and the shown subjects are the ones the
   * store now gives back for that class.
   */
  lemma SaveSettingsClass(w: World, s: SavedSettings)
    requires ClassBranch(s)
    ensures var r := HandleSaveSettings(w, s);
      && r.page.displayClassId == s.classId.value
      && r.page.displayGroups == s.groups.GetOr([])
      && r.page.displaySubjects == s.subjects.GetOr([])
      && r.page.displayProfessorId == w.page.displayProfessorId
      && r.store.professorId == w.store.professorId
      && (w.store.browser ==>
            && GetStoredClassId(r.store) == s.classId.value
            && GetStoredGroups(r.store) == s.groups.GetOr([])
            && GetStoredSubjects(r.store, s.classId.value) == r.page.displaySubjects)
  {
  }

  /** When neither branch fires, only the mode and the timetable type change. */
  lemma SaveSettingsNeitherBranch(w: World, s: SavedSettings)
    requires !ProfessorBranch(s) && !ClassBranch(s)
    ensures var r := HandleSaveSettings(w, s);
      && r.page.displayClassId == w.page.displayClassId
      && r.page.displayProfessorId == w.page.displayProfessorId
      && r.page.displayGroups == w.page.displayGroups
      && r.page.displaySubjects == w.page.displaySubjects
      && r.store.professorId == w.store.professorId
      && r.store.classId == w.store.classId
      && r.store.groups == w.store.groups
      && r.store.subjects == w.store.subjects
  {
  }

  /**
   * `handleOnboardingSave`: like `handleSaveSettings`, except that the
   * timetable type is set and stored only inside the two branches, and it
   * closes the onboarding modal rather than the settings one.
   */
  function HandleOnboardingSave(w: World, s: SavedSettings): (r: World)
    ensures r.page.mode == Some(s.mode)
    ensures w.store.browser ==> GetStoredMode(r.store) == Some(s.mode)
    ensures !r.page.showOnboarding
    ensures r.page.settingsOpen == w.page.settingsOpen
  {
    var w1 := World(w.page.(mode := Some(s.mode)), SetStoredMode(w.store, s.mode));
    var w2 :=
      if ProfessorBranch(s) then
        var a := ApplyProfessor(w1, s.professorId.value);
        World(a.page.(timetableType := TypeOrDefault(s)),
              SetStoredTimetableType(a.store, TypeOrDefault(s)))
      else if ClassBranch(s) then
        var a := ApplyClass(w1, s.classId.value, s.groups.GetOr([]), s.subjects.GetOr([]));
        World(a.page.(timetableType := TypeOrDefault(s)),
              SetStoredTimetableType(a.store, TypeOrDefault(s)))
      else w1;
    World(w2.page.(showOnboarding := false), w2.store)
  }

  /** Onboarding changes the timetable type exactly when one of the branches fires. */
  lemma OnboardingTimetableType(w: World, s: SavedSettings)
    ensures var r := HandleOnboardingSave(w, s);
      && (ProfessorBranch(s) || ClassBranch(s) ==>
            r.page.timetableType == TypeOrDefault(s)
            && (w.store.browser ==> GetStoredTimetableType(r.store) == TypeOrDefault(s)))
      && (!ProfessorBranch(s) && !ClassBranch(s) ==>
            r.page.timetableType == w.page.timetableType
            && r.store.timetableType == w.store.timetableType)
  {
  }

  /**
   * Both handlers leave the same shown and stored selection behind; they
   * differ only in the timetable type when no branch fires, and in which
   * modal they close.
   */
  lemma HandlersAgree(w: World, s: SavedSettings)
    requires ProfessorBranch(s) || ClassBranch(s)
    ensures var a := HandleSaveSettings(w, s);
      var b := HandleOnboardingSave(w, s);
      && a.store == b.store
      && a.page.(settingsOpen := false, showOnboarding := false)
         == b.page.(settingsOpen := false, showOnboarding := false)
  {
  }

  /**
   * `handleModeChange`: sets and stores the mode, and shows the stored id
   * for the new mode; the other mode's shown id stays.
   */
  function HandleModeChange(w: World, newMode: Mode): (r: World)
    ensures r.page.mode == Some(newMode)
    ensures w.store.browser ==> GetStoredMode(r.store) == Some(newMode)
    ensures newMode == ProfessorMode ==>
      r.page.displayProfessorId == GetStoredProfessorId(w.store)
      && r.page.displayClassId == w.page.displayClassId
    ensures newMode == ClassMode ==>
      r.page.displayClassId == GetStoredClassId(w.store)
      && r.page.displayProfessorId == w.page.displayProfessorId
    ensures r.page.displayGroups == w.page.displayGroups
    ensures r.page.displaySubjects == w.page.displaySubjects
  {
    var store := SetStoredMode(w.store, newMode);
    var page := w.page.(mode := Some(newMode));
    if newMode == ProfessorMode then
      World(page.(displayProfessorId := GetStoredProfessorId(store)), store)
    else
      World(page.(displayClassId := GetStoredClassId(store)), store)
  }

  /**
   * `changeClassId`: shows and stores the new class and shows the subjects
   * stored for it; the shown groups stay as they were.
   */
  function ChangeClassId(w: World, newClassId: string): (r: World)
    ensures r.page.displayClassId == newClassId
    ensures w.store.browser ==> GetStoredClassId(r.store) == newClassId
    ensures r.page.displaySubjects == GetStoredSubjects(w.store, newClassId)
    ensures r.page.displayGroups == w.page.displayGroups
    ensures r.store.subjects == w.store.subjects && r.store.groups == w.store.groups
  {
    var store := SetStoredClassId(w.store, newClassId);
    World(w.page.(displayClassId := newClassId, displaySubjects := GetStoredSubjects(store, newClassId)), store)
  }

  /** `changeProfessorId`: shows and stores the new professor. */
  function ChangeProfessorId(w: World, newProfessorId: string): (r: World)
    ensures r.page.displayProfessorId == newProfessorId
    ensures w.store.browser ==> GetStoredProfessorId(r.store) == newProfessorId
    ensures r.page.displayClassId == w.page.displayClassId
  {
    World(w.page.(displayProfessorId := newProfessorId), SetStoredProfessorId(w.store, newProfessorId))
  }

  /**
   * Switching to another class and back restores the subjects saved for
   * the first one.
   */
  lemma SwitchClassAndBack(w: World, s: SavedSettings, other: string)
    requires w.store.browser && ClassBranch(s)
    ensures var saved := HandleSaveSettings(w, s);
      ChangeClassId(ChangeClassId(saved, other), s.classId.value).page.displaySubjects
        == saved.page.displaySubjects
  {
    SaveSettingsClass(w, s);
  }

  /**
   * The page as it loads and then mounts: the signals start from the
   * stored mode, groups and timetable type with nothing shown; on mount,
   * with no stored mode the onboarding modal opens, and otherwise the
   * stored class (with its groups and subjects) and the stored professor
   * are shown when present.
   */
  function Mount(st: Store): (p: Page)
    ensures p.timetableType == GetStoredTimetableType(st)
    ensures !p.settingsOpen
    ensures p.showOnboarding <==> GetStoredMode(st).None?
    ensures GetStoredMode(st).None? ==>
      p.displayClassId == "" && p.displayProfessorId == "" && p.displaySubjects == []
    ensures GetStoredMode(st).Some? ==>
      && p.mode == GetStoredMode(st)
      && p.displayClassId == GetStoredClassId(st)
      && p.displayProfessorId == GetStoredProfessorId(st)
      && p.displayGroups == GetStoredGroups(st)
      && p.displaySubjects == GetStoredSubjects(st, p.displayClassId)
  {
    var loaded := Page(GetStoredMode(st), "", "", GetStoredGroups(st), [],
                       GetStoredTimetableType(st), false, false);
    var stored := GetStoredMode(st);
    if stored.None? then loaded.(showOnboarding := true)
    else
      var classId := GetStoredClassId(st);
      var professorId := GetStoredProfessorId(st);
      var p := loaded.(mode := stored);
      var p := if classId != "" then
        p.(displayClassId := classId, displayGroups := GetStoredGroups(st),
           displaySubjects := GetStoredSubjects(st, classId))
      else p;
      if professorId != "" then p.(displayProfessorId := professorId) else p
  }

  /**
   * Saving a class in the settings and loading the page again shows the
   * same mode, class, groups, subjects and timetable type.
   */
  lemma ReloadAfterClassSave(w: World, s: SavedSettings)
    requires w.store.browser && ClassBranch(s)
    ensures var r := HandleSaveSettings(w, s);
      var p := Mount(r.store);
      && !p.showOnboarding
      && p.mode == r.page.mode
      && p.displayClassId == r.page.displayClassId
      && p.displayGroups == r.page.displayGroups
      && p.displaySubjects == r.page.displaySubjects
      && p.timetableType == r.page.timetableType
  {
    SaveSettingsClass(w, s);
  }

  /**
   * Saving a professor in the settings and loading the page again shows
   * the same mode, professor and timetable type.
   */
  lemma ReloadAfterProfessorSave(w: World, s: SavedSettings)
    requires w.store.browser && ProfessorBranch(s)
    ensures var r := HandleSaveSettings(w, s);
      var p := Mount(r.store);
      && !p.showOnboarding
      && p.mode == r.page.mode
      && p.displayProfessorId == r.page.displayProfessorId
      && p.timetableType == r.page.timetableType
  {
    SaveSettingsProfessor(w, s);
  }

  // ---------------------------------------------------------------------------
  // fetchTimetable: which request is made
  // ---------------------------------------------------------------------------

  /** The `options` argument: the shown groups and subjects. */
  datatype Filter = Filter(groups: Option<seq<StoredGroup>>, subjects: Option<seq<string>>)

  datatype Request =
    | NoRequest
      /** `GET /timetable/professor/<week>/<professorId>` */
    | ProfessorTimetable(week: string, professorId: string)
      /** `GET /timetable/<week>/<classId>` */
    | ClassTimetable(week: string, classId: string)
      /** `POST /timetable/<week>/<classId>` with the group object and the subjects */
    | FilteredClassTimetable(week: string, classId: string,
                             groups: JsObject.Entries<int>, subjects: Option<seq<string>>)

  /** `options.groups?.length || options.subjects?.length`. */
  predicate HasFilter(options: Option<Filter>) {
    && options.Some?
    && ((options.value.groups.Some? && |options.value.groups.value| > 0)
        || (options.value.subjects.Some? && |options.value.subjects.value| > 0))
  }

  /**
   * The request `fetchTimetable` makes: none without a week; in professor
   * mode, the professor's timetable when a professor is chosen; in class
   * mode, the class's timetable, filtered by POST when there are groups or
   * subjects to filter by.
   */
  function SelectRequest(mode: Mode, week: Option<string>, classId: Option<string>,
                         professorId: Option<string>, options: Option<Filter>): (r: Request)
    ensures !Chosen(week) ==> r == NoRequest
    ensures Chosen(week) && mode == ProfessorMode ==>
      r == if Chosen(professorId) then ProfessorTimetable(week.value, professorId.value) else NoRequest
    ensures Chosen(week) && mode == ClassMode && !Chosen(classId) ==> r == NoRequest
    ensures Chosen(week) && mode == ClassMode && Chosen(classId) && !HasFilter(options) ==>
      r == ClassTimetable(week.value, classId.value)
    ensures Chosen(week) && mode == ClassMode && Chosen(classId) && HasFilter(options) ==>
      && r.FilteredClassTimetable?
      && r.week == week.value && r.classId == classId.value
      && r.subjects == options.value.subjects
  {
    if !Chosen(week) then NoRequest
    else if mode == ProfessorMode then
      if !Chosen(professorId) then NoRequest else ProfessorTimetable(week.value, professorId.value)
    else if !Chosen(classId) then NoRequest
    else if HasFilter(options) then
      FilteredClassTimetable(week.value, classId.value,
        GroupObject(options.value.groups.GetOr([])), options.value.subjects)
    else ClassTimetable(week.value, classId.value)
  }

  /** The filter's group object holds, per group name, the last number given for it. */
  lemma FilterGroupsLastWins(mode: Mode, week: Option<string>, classId: Option<string>,
                             professorId: Option<string>, options: Option<Filter>, k: nat)
    requires Chosen(week) && mode == ClassMode && Chosen(classId) && HasFilter(options)
    requires var gs := options.value.groups.GetOr([]);
      k < |gs| && forall m :: k < m < |gs| ==> gs[m].name != gs[k].name
    ensures var gs := options.value.groups.GetOr([]);
      var r := SelectRequest(mode, week, classId, professorId, options);
      JsObject.Get(r.groups, gs[k].name) == Some(gs[k].group)
  {
    LaterGroupWins(options.value.groups.GetOr([]), k);
  }

  /**
   * The page's own request: with the shown groups and subjects as the
   * filter, a class with nothing to filter by is fetched with a plain GET.
   */
  lemma PageRequestUnfiltered(p: Page, week: string)
    requires p.mode == Some(ClassMode) && week != "" && p.displayClassId != ""
    requires p.displayGroups == [] && p.displaySubjects == []
    ensures SelectRequest(ClassMode, Some(week), Some(p.displayClassId), Some(p.displayProfessorId),
      Some(Filter(Some(p.displayGroups), Some(p.displaySubjects))))
      == ClassTimetable(week, p.displayClassId)
  {
  }
}

=== FILE: js_number.dfy ===
/**
 * The parts of JavaScript number arithmetic the model needs: the 32-bit
 * conversion that bitwise operators apply to their operands and results,
 * the remainder operator `%`, and `Math.abs`.
 */
module JsNumber {

  const TwoTo32: int := 0x1_0000_0000
  const TwoTo31: int := 0x8000_0000

  /** ToInt32 of ECMAScript: the 32-bit two's-complement reading of `x` modulo 2^32. */
  function ToInt32(x: int): (r: int)
    ensures -TwoTo31 <= r < TwoTo31
    ensures (r - x) % TwoTo32 == 0
  {
    var m := x % TwoTo32;
    if m >= TwoTo31 then m - TwoTo32 else m
  }

  /** A value already in 32-bit range is left as it is. */
  lemma ToInt32Fixed(x: int)
    requires -TwoTo31 <= x < TwoTo31
    ensures ToInt32(x) == x
  {
    var m := x % TwoTo32;
    if x >= 0 {
      assert m == x;
    } else {
      assert m == x + TwoTo32;
    }
  }

  /** ToInt32 only looks at `x` modulo 2^32. */
  lemma ToInt32Periodic(x: int, k: int)
    ensures ToInt32(x + k * TwoTo32) == ToInt32(x)
  {
    assert (x + k * TwoTo32) % TwoTo32 == x % TwoTo32;
  }

  /** Division truncated toward zero, the quotient that goes with `%`. */
  function Quot(a: int, b: int): int
    requires b > 0
  {
    if a >= 0 then a / b else -((-a) / b)
  }

  /**
   * `a % b` for `b > 0`: what is left of `a` after the truncated quotient,
   * which takes the sign of `a`.
   */
  function Rem(a: int, b: int): (r: int)
    requires b > 0
    ensures a == Quot(a, b) * b + r
    ensures -b < r < b
    ensures a >= 0 ==> r >= 0
    ensures a < 0 ==> r <= 0
  {
    if a >= 0 then a % b else -((-a) % b)
  }

  /** `Math.abs`. */
  function Abs(x: int): (r: nat)
    ensures r == x || r == -x
  {
    if x < 0 then -x else x
  }
}

=== FILE: js_object.dfy ===
/**
 * A plain JavaScript object with string keys, as the modals and the request
 * builder use it (`obj[name] = value`): a list of entries with distinct keys in
 * first-insertion order, which is the order `Object.entries` reports.
 */
module JsObject {
  import opened Wrappers

  type Entries<V> = seq<(string, V)>

  /** The keys of `e` (or of a list of pairs), in order. */
  function KeysOf<V>(e: seq<(string, V)>): (r: seq<string>)
    ensures |r| == |e|
    ensures forall i :: 0 <= i < |e| ==> r[i] == e[i].0
  {
    if |e| == 0 then [] else [e[0].0] + KeysOf(e[1..])
  }

  ghost predicate DistinctKeys<V>(e: Entries<V>) {
    forall i, j :: 0 <= i < j < |e| ==> e[i].0 != e[j].0
  }

  /** `obj[k]`: the value stored under `k`, if any. */
  function Get<V>(e: Entries<V>, k: string): (r: Option<V>)
    ensures r.None? <==> k !in KeysOf(e)
    ensures r.Some? ==> (k, r.value) in e
  {
    if |e| == 0 then None
    else if e[0].0 == k then Some(e[0].1)
    else
      assert KeysOf(e) == [e[0].0] + KeysOf(e[1..]);
      Get(e[1..], k)
  }

  /** With distinct keys, an entry is present iff lookup of its key yields its value. */
  lemma {:induction false} GetFindsEntry<V>(e: Entries<V>, k: string, v: V)
    requires DistinctKeys(e)
    ensures (k, v) in e <==> Get(e, k) == Some(v)
    decreases |e|
  {
    if |e| > 0 && e[0].0 != k {
      assert (k, v) in e <==> (k, v) in e[1..] by {
        assert e == [e[0]] + e[1..];
      }
      GetFindsEntry(e[1..], k, v);
    }
  }

  lemma HeadKeyFresh<V>(e: Entries<V>)
    requires |e| > 0 && DistinctKeys(e)
    ensures e[0].0 !in KeysOf(e[1..]) && DistinctKeys(e[1..])
  {
  }

  lemma PrependFresh<V>(x: (string, V), t: Entries<V>)
    requires DistinctKeys(t) && x.0 !in KeysOf(t)
    ensures DistinctKeys([x] + t)
  {
    forall j | 0 <= j < |t| ensures x.0 != t[j].0 {
      assert KeysOf(t)[j] == t[j].0;
    }
  }

  /** `obj[k] = v`: overwrites the value of an existing key in place, or appends a new key. */
  function Put<V>(e: Entries<V>, k: string, v: V): (r: Entries<V>)
    ensures Get(r, k) == Some(v)
    ensures forall k' :: k' != k ==> Get(r, k') == Get(e, k')
    ensures KeysOf(r) == if k in KeysOf(e) then KeysOf(e) else KeysOf(e) + [k]
    ensures DistinctKeys(e) ==> DistinctKeys(r)
  {
    if |e| == 0 then [(k, v)]
    else if e[0].0 == k then
      assert KeysOf(e) == [k] + KeysOf(e[1..]);
      assert KeysOf([(k, v)] + e[1..]) == [k] + KeysOf(e[1..]);
      [(k, v)] + e[1..]
    else
      var tail := Put(e[1..], k, v);
      PutBehindHeadGet(e, k, v, tail);
      PutBehindHeadKeys(e, k, tail);
      [e[0]] + tail
  }

  /** The step of `Put` past a head entry with another key: lookups. */
  lemma PutBehindHeadGet<V>(e: Entries<V>, k: string, v: V, tail: Entries<V>)
    requires |e| > 0 && e[0].0 != k
    requires Get(tail, k) == Some(v)
    requires forall k' :: k' != k ==> Get(tail, k') == Get(e[1..], k')
    ensures Get([e[0]] + tail, k) == Some(v)
    ensures forall k' :: k' != k ==> Get([e[0]] + tail, k') == Get(e, k')
  {
    assert ([e[0]] + tail)[1..] == tail;
  }

  /** The step of `Put` past a head entry with another key: keys and their distinctness. */
  lemma PutBehindHeadKeys<V>(e: Entries<V>, k: string, tail: Entries<V>)
    requires |e| > 0 && e[0].0 != k
    requires KeysOf(tail) == if k in KeysOf(e[1..]) then KeysOf(e[1..]) else KeysOf(e[1..]) + [k]
    requires DistinctKeys(e[1..]) ==> DistinctKeys(tail)
    ensures KeysOf([e[0]] + tail) == if k in KeysOf(e) then KeysOf(e) else KeysOf(e) + [k]
    ensures DistinctKeys(e) ==> DistinctKeys([e[0]] + tail)
  {
    HeadKeys(e, k, tail);
    if DistinctKeys(e) {
      HeadKeyFresh(e);
      PrependFresh(e[0], tail);
    }
  }

  /** The keys of `e` and of `e[0]` in front of `tail` split into the head key and the rest. */
  lemma HeadKeys<V>(e: Entries<V>, k: string, tail: Entries<V>)
    requires |e| > 0 && e[0].0 != k
    requires KeysOf(tail) == if k in KeysOf(e[1..]) then KeysOf(e[1..]) else KeysOf(e[1..]) + [k]
    ensures KeysOf([e[0]] + tail) == if k in KeysOf(e) then KeysOf(e) else KeysOf(e) + [k]
  {
    var r := [e[0]] + tail;
    assert r[1..] == tail;
    assert KeysOf(e) == [e[0].0] + KeysOf(e[1..]);
    assert KeysOf(r) == [e[0].0] + KeysOf(tail);
    assert k in KeysOf(e) <==> k in KeysOf(e[1..]);
  }

  /** The object built by `for (p of pairs) obj[p.0] = p.1`, starting from `{}`. */
  function FromPairs<V>(pairs: seq<(string, V)>): (r: Entries<V>)
    ensures DistinctKeys(r)
    ensures forall k :: k in KeysOf(r) <==> k in KeysOf(pairs)
  {
    if |pairs| == 0 then []
    else
      var init := pairs[..|pairs| - 1];
      assert KeysOf(pairs) == KeysOf(init) + [pairs[|pairs| - 1].0];
      Put(FromPairs(init), pairs[|pairs| - 1].0, pairs[|pairs| - 1].1)
  }

  /** A later assignment to the same key overwrites an earlier one: the last pair for a key wins. */
  lemma {:induction false} FromPairsKeepsLast<V>(pairs: seq<(string, V)>, i: nat)
    requires i < |pairs|
    requires forall j :: i < j < |pairs| ==> pairs[j].0 != pairs[i].0
    ensures Get(FromPairs(pairs), pairs[i].0) == Some(pairs[i].1)
    decreases |pairs|
  {
    var init := pairs[..|pairs| - 1];
    if i < |pairs| - 1 {
      FromPairsKeepsLast(init, i);
    }
  }

  /** A key that is not the last pair's occurs among the earlier pairs. */
  lemma KeyBeforeLast<V>(pairs: seq<(string, V)>, k: string)
    requires k in KeysOf(pairs) && k != pairs[|pairs| - 1].0
    ensures k in KeysOf(pairs[..|pairs| - 1])
  {
    var keys := KeysOf(pairs);
    var i :| 0 <= i < |keys| && keys[i] == k;
    assert pairs[i].0 == k;
    assert i != |pairs| - 1;
    var init := pairs[..|pairs| - 1];
    assert init[i] == pairs[i];
    var initKeys := KeysOf(init);
    assert initKeys[i] == k;
  }

  /**
   * When every pair with key `k` carries the same value `v`, the object holds
   * `v` under `k`, however often `k` repeats.
   */
  lemma {:induction false} FromPairsAgreeing<V>(pairs: seq<(string, V)>, k: string, v: V)
    requires k in KeysOf(pairs)
    requires forall i :: 0 <= i < |pairs| && pairs[i].0 == k ==> pairs[i].1 == v
    ensures Get(FromPairs(pairs), k) == Some(v)
    decreases |pairs|
  {
    var init := pairs[..|pairs| - 1];
    var last := pairs[|pairs| - 1];
    assert FromPairs(pairs) == Put(FromPairs(init), last.0, last.1);
    if last.0 != k {
      KeyBeforeLast(pairs, k);
      assert forall i :: 0 <= i < |init| ==> init[i] == pairs[i];
      FromPairsAgreeing(init, k, v);
    }
  }
}

=== FILE: merge.dfy ===
/**
 * The merge loop both timetable views run when they are handed an array of
 * timetables (one per class taught by a professor, say): the first
 * timetable's days form the skeleton, and every lesson of every source day
 * is appended, tagged with its timetable's `className`, to the first
 * skeleton day carrying the same label.
 */
module Merge {
  import opened Wrappers
  import opened TimetableTypes

  /** The owner label of a merged timetable. */
  const CombinedName: string := "Professor View"

  /** `a` and `b` have the same days, in the same order, with the same labels and notes. */
  ghost predicate SameFrame(a: seq<Day>, b: seq<Day>) {
    && |a| == |b|
    && forall i :: 0 <= i < |a| ==> a[i].day == b[i].day && a[i].note == b[i].note
  }

  /** `days.find(d => d.day === title)`: the first day carrying `title`. */
  function FindDay(days: seq<Day>, title: string): (r: Option<nat>)
    ensures r.Some? ==> r.value < |days| && days[r.value].day == title
    ensures r.Some? ==> forall j :: 0 <= j < r.value ==> days[j].day != title
    ensures r.None? ==> forall j :: 0 <= j < |days| ==> days[j].day != title
  {
    if |days| == 0 then None
    else if days[0].day == title then Some(0)
    else
      match FindDay(days[1..], title)
      case None => None
      case Some(i) => Some(i + 1)
  }

  /** The first-match lookup depends on the labels alone. */
  lemma FindDaySameFrame(a: seq<Day>, b: seq<Day>, title: string)
    requires SameFrame(a, b)
    ensures FindDay(a, title) == FindDay(b, title)
  {
  }

  /** `{ ...c, className: name }` for every lesson `c`. */
  function Tag(classes: seq<Lesson>, name: string): (r: seq<Lesson>)
    ensures |r| == |classes|
    ensures forall i :: 0 <= i < |r| ==> r[i] == classes[i].(className := Some(name))
  {
    if |classes| == 0 then []
    else [classes[0].(className := Some(name))] + Tag(classes[1..], name)
  }

  /** `data[0].days.map(day => ({ ...day, classes: [] }))`. */
  function Skeleton(days: seq<Day>): (r: seq<Day>)
    ensures SameFrame(r, days)
    ensures forall k :: 0 <= k < |r| ==> r[k].classes == []
  {
    if |days| == 0 then []
    else [days[0].(classes := [])] + Skeleton(days[1..])
  }

  /** The loop body for one source day: append its tagged lessons to the first merged day with its label. */
  function AddDay(acc: seq<Day>, day: Day, name: string): seq<Day> {
    match FindDay(acc, day.day)
    case None => acc
    case Some(k) => acc[k := acc[k].(classes := acc[k].classes + Tag(day.classes, name))]
  }

  /** `for (const day of timetable.days)`. */
  function AddDays(acc: seq<Day>, days: seq<Day>, name: string): seq<Day>
    decreases |days|
  {
    if |days| == 0 then acc
    else AddDays(AddDay(acc, days[0], name), days[1..], name)
  }

  /** `for (const timetable of data)`. */
  function AddTimetables(acc: seq<Day>, ts: seq<Timetable>): seq<Day>
    decreases |ts|
  {
    if |ts| == 0 then acc
    else AddTimetables(AddDays(acc, ts[0].days, ts[0].className), ts[1..])
  }

  /** The merged day list of a non-empty array of timetables. */
  function MergeDays(ts: seq<Timetable>): seq<Day>
    requires |ts| > 0
  {
    AddTimetables(Skeleton(ts[0].days), ts)
  }

  // ---------------------------------------------------------------------------
  // A per-day reference description of the merge.
  // ---------------------------------------------------------------------------

  /** The lessons the days `days` of the timetable `name` contribute to skeleton day `k`. */
  function FromDays(skeleton: seq<Day>, days: seq<Day>, name: string, k: nat): seq<Lesson> {
    if |days| == 0 then []
    else
      (if FindDay(skeleton, days[0].day) == Some(k) then Tag(days[0].classes, name) else [])
      + FromDays(skeleton, days[1..], name, k)
  }

  /** The lessons all of `ts` contribute to skeleton day `k`, in timetable order. */
  function Gather(skeleton: seq<Day>, ts: seq<Timetable>, k: nat): seq<Lesson> {
    if |ts| == 0 then []
    else FromDays(skeleton, ts[0].days, ts[0].className, k) + Gather(skeleton, ts[1..], k)
  }

  lemma {:induction false} AddDaysContents(acc: seq<Day>, skeleton: seq<Day>, days: seq<Day>, name: string)
    requires SameFrame(acc, skeleton)
    ensures SameFrame(AddDays(acc, days, name), skeleton)
    ensures forall k :: 0 <= k < |acc| ==>
      AddDays(acc, days, name)[k].classes == acc[k].classes + FromDays(skeleton, days, name, k)
    decreases |days|
  {
    if |days| > 0 {
      var next := AddDay(acc, days[0], name);
      FindDaySameFrame(acc, skeleton, days[0].day);
      assert SameFrame(next, skeleton);
      AddDaysContents(next, skeleton, days[1..], name);
    }
  }

  lemma {:induction false} AddTimetablesContents(acc: seq<Day>, skeleton: seq<Day>, ts: seq<Timetable>)
    requires SameFrame(acc, skeleton)
    ensures SameFrame(AddTimetables(acc, ts), skeleton)
    ensures forall k :: 0 <= k < |acc| ==>
      AddTimetables(acc, ts)[k].classes == acc[k].classes + Gather(skeleton, ts, k)
    decreases |ts|
  {
    if |ts| > 0 {
      var next := AddDays(acc, ts[0].days, ts[0].className);
      AddDaysContents(acc, skeleton, ts[0].days, ts[0].className);
      AddTimetablesContents(next, skeleton, ts[1..]);
    }
  }

  /**
   * The merged days are the first timetable's days, in order, with their
   * labels and notes; merged day `k` holds exactly the lessons every source
   * timetable contributes to it, in source order.
   */
  lemma MergeDaysContents(ts: seq<Timetable>)
    requires |ts| > 0
    ensures SameFrame(MergeDays(ts), ts[0].days)
    ensures forall k :: 0 <= k < |ts[0].days| ==>
      MergeDays(ts)[k].classes == Gather(ts[0].days, ts, k)
  {
    AddTimetablesContents(Skeleton(ts[0].days), ts[0].days, ts);
    forall k | 0 <= k < |ts[0].days| ensures MergeDays(ts)[k].classes == Gather(ts[0].days, ts, k) {
      MergedDayClasses(ts, k);
    }
  }

  lemma MergedDayClasses(ts: seq<Timetable>, k: nat)
    requires |ts| > 0 && k < |ts[0].days|
    ensures k < |MergeDays(ts)| && MergeDays(ts)[k].classes == Gather(ts[0].days, ts, k)
  {
    var skeleton := Skeleton(ts[0].days);
    var merged := AddTimetables(skeleton, ts);
    assert MergeDays(ts) == merged;
    AddTimetablesContents(skeleton, ts[0].days, ts);
    var g := Gather(ts[0].days, ts, k);
    assert merged[k].classes == skeleton[k].classes + g;
    assert skeleton[k].classes == [];
    assert [] + g == g;
  }

  // ---------------------------------------------------------------------------
  // Properties of the contributions.
  // ---------------------------------------------------------------------------

  /** The number of lessons of the days in `days` whose label first matches skeleton day `k`. */
  function MatchedCountDays(skeleton: seq<Day>, days: seq<Day>, k: nat): nat {
    if |days| == 0 then 0
    else
      (if FindDay(skeleton, days[0].day) == Some(k) then |days[0].classes| else 0)
      + MatchedCountDays(skeleton, days[1..], k)
  }

  /** The number of lessons of all matching source days of skeleton day `k`. */
  function MatchedCount(skeleton: seq<Day>, ts: seq<Timetable>, k: nat): nat {
    if |ts| == 0 then 0
    else MatchedCountDays(skeleton, ts[0].days, k) + MatchedCount(skeleton, ts[1..], k)
  }

  /** A merged day holds as many lessons as its matching source days hold together. */
  lemma {:induction false} GatherCount(skeleton: seq<Day>, ts: seq<Timetable>, k: nat)
    ensures |Gather(skeleton, ts, k)| == MatchedCount(skeleton, ts, k)
    decreases |ts|
  {
    if |ts| > 0 {
      FromDaysCount(skeleton, ts[0].days, ts[0].className, k);
      GatherCount(skeleton, ts[1..], k);
    }
  }

  lemma {:induction false} FromDaysCount(skeleton: seq<Day>, days: seq<Day>, name: string, k: nat)
    ensures |FromDays(skeleton, days, name, k)| == MatchedCountDays(skeleton, days, k)
    decreases |days|
  {
    if |days| > 0 {
      FromDaysCount(skeleton, days[1..], name, k);
    }
  }

  /**
   * Every gathered lesson is a lesson of some source day whose label is the
   * label of skeleton day `k`, tagged with its timetable's name.
   */
  lemma {:induction false} GatheredLessonOrigin(skeleton: seq<Day>, ts: seq<Timetable>, k: nat, x: Lesson)
    requires x in Gather(skeleton, ts, k)
    ensures k < |skeleton|
    ensures exists t, d, c ::
      (t in ts && d in t.days && c in d.classes
       && d.day == skeleton[k].day && x == c.(className := Some(t.className)))
    decreases |ts|
  {
    var here := FromDays(skeleton, ts[0].days, ts[0].className, k);
    if x in here {
      FromDaysOrigin(skeleton, ts[0].days, ts[0].className, k, x);
      var d, c :| d in ts[0].days && c in d.classes
        && d.day == skeleton[k].day && x == c.(className := Some(ts[0].className));
      assert ts[0] in ts;
    } else {
      GatheredLessonOrigin(skeleton, ts[1..], k, x);
      var t, d, c :| t in ts[1..] && d in t.days && c in d.classes
        && d.day == skeleton[k].day && x == c.(className := Some(t.className));
      assert t in ts;
    }
  }

  lemma {:induction false} FromDaysOrigin(skeleton: seq<Day>, days: seq<Day>, name: string, k: nat, x: Lesson)
    requires x in FromDays(skeleton, days, name, k)
    ensures k < |skeleton|
    ensures exists d, c ::
      (d in days && c in d.classes && d.day == skeleton[k].day && x == c.(className := Some(name)))
    decreases |days|
  {
    var first := if FindDay(skeleton, days[0].day) == Some(k) then Tag(days[0].classes, name) else [];
    if x in first {
      var i :| 0 <= i < |first| && first[i] == x;
      assert days[0] in days && days[0].classes[i] in days[0].classes;
    } else {
      FromDaysOrigin(skeleton, days[1..], name, k, x);
      var d, c :| d in days[1..] && c in d.classes
        && d.day == skeleton[k].day && x == c.(className := Some(name));
      assert d in days;
    }
  }

  /**
   * Conversely, every lesson of a source day whose label first matches
   * skeleton day `k` is gathered into day `k`, tagged with its timetable's name.
   */
  lemma {:induction false} GatherIncludes(skeleton: seq<Day>, ts: seq<Timetable>, i: nat, j: nat, c: Lesson)
    requires i < |ts| && j < |ts[i].days|
    requires c in ts[i].days[j].classes
    requires FindDay(skeleton, ts[i].days[j].day).Some?
    ensures c.(className := Some(ts[i].className))
         in Gather(skeleton, ts, FindDay(skeleton, ts[i].days[j].day).value)
    decreases |ts|
  {
    var k := FindDay(skeleton, ts[i].days[j].day).value;
    if i == 0 {
      FromDaysIncludes(skeleton, ts[0].days, ts[0].className, j, c);
    } else {
      GatherIncludes(skeleton, ts[1..], i - 1, j, c);
    }
  }

  lemma {:induction false} FromDaysIncludes(skeleton: seq<Day>, days: seq<Day>, name: string, j: nat, c: Lesson)
    requires j < |days| && c in days[j].classes
    requires FindDay(skeleton, days[j].day).Some?
    ensures c.(className := Some(name)) in FromDays(skeleton, days, name, FindDay(skeleton, days[j].day).value)
    decreases |days|
  {
    var k := FindDay(skeleton, days[j].day).value;
    if j == 0 {
      var m :| 0 <= m < |days[0].classes| && days[0].classes[m] == c;
      assert Tag(days[0].classes, name)[m] == c.(className := Some(name));
    } else {
      FromDaysIncludes(skeleton, days[1..], name, j - 1, c);
    }
  }

  /**
   * A source day whose label does not occur in the skeleton contributes to no
   * merged day: removing it changes nothing.
   */
  lemma UnmatchedDayDropped(skeleton: seq<Day>, days: seq<Day>, name: string, j: nat, k: nat)
    requires j < |days|
    requires forall i :: 0 <= i < |skeleton| ==> skeleton[i].day != days[j].day
    ensures FromDays(skeleton, days, name, k) == FromDays(skeleton, days[..j] + days[j + 1..], name, k)
  {
    var before, d, after := days[..j], days[j], days[j + 1..];
    assert days == before + ([d] + after);
    assert FindDay(skeleton, d.day) == None;
    assert FromDays(skeleton, [d] + after, name, k) == FromDays(skeleton, after, name, k) by {
      assert ([d] + after)[1..] == after;
    }
    FromDaysAppend(skeleton, before, [d] + after, name, k);
    FromDaysAppend(skeleton, before, after, name, k);
  }

  lemma {:induction false} FromDaysAppend(skeleton: seq<Day>, a: seq<Day>, b: seq<Day>, name: string, k: nat)
    ensures FromDays(skeleton, a + b, name, k) == FromDays(skeleton, a, name, k) + FromDays(skeleton, b, name, k)
    decreases |a|
  {
    if |a| == 0 {
      assert a + b == b;
    } else {
      assert (a + b)[1..] == a[1..] + b;
      FromDaysAppend(skeleton, a[1..], b, name, k);
    }
  }

  /**
   * Merging a single timetable whose day labels are distinct gives back its
   * days, every lesson tagged with the timetable's name.
   */
  lemma SingleMergeTags(t: Timetable)
    requires forall i, j :: 0 <= i < j < |t.days| ==> t.days[i].day != t.days[j].day
    ensures SameFrame(MergeDays([t]), t.days)
    ensures forall k :: 0 <= k < |t.days| ==>
      MergeDays([t])[k].classes == Tag(t.days[k].classes, t.className)
  {
    MergeDaysContents([t]);
    forall k | 0 <= k < |t.days|
      ensures Gather(t.days, [t], k) == Tag(t.days[k].classes, t.className)
    {
      FromSuffix(t.days, t.className, k, 0);
      assert t.days[0..] == t.days;
      assert [t][1..] == [];
    }
  }

  lemma {:induction false} FromSuffix(days: seq<Day>, name: string, k: nat, m: nat)
    requires forall i, j :: 0 <= i < j < |days| ==> days[i].day != days[j].day
    requires k < |days| && m <= |days|
    ensures FromDays(days, days[m..], name, k) == if m <= k then Tag(days[k].classes, name) else []
    decreases |days| - m
  {
    if m < |days| {
      FromSuffix(days, name, k, m + 1);
      assert days[m..][1..] == days[m + 1..];
      assert FindDay(days, days[m].day) == Some(m);
    }
  }
}

=== FILE: modal_save.dfy ===
/**
 * `handleSave`, which the settings modal (`SettingsModal.tsx`) and the
 * onboarding modal (`OnboardingModal.tsx`) both carry, word for word: from
 * the modal's selection, build the object passed to `onSave`, or nothing.
 */
module ModalSave {
  import opened Wrappers
  import JsObject
  import opened SettingsTypes

  /**
   * The signals and stores a modal keeps while it is open. The mode is
   * `None` when the settings modal is handed the page's `null` mode, as
   * before any mode has been saved.
   */
  datatype ModalState = ModalState(
    mode: Option<Mode>,
    selectedClass: Option<string>,
    selectedProfessor: Option<string>,
    selectedGroups: JsObject.Entries<int>,
    selectedSubjects: JsObject.Entries<bool>,
    timetableType: TimetableType)

  /**
   * `Object.entries(selectedGroups).filter(([, n]) => n > 0)` as stored
   * groups: exactly the entries with a positive group number, so the "Vsi"
   * choice of 0 is not saved.
   */
  function SavedGroups(groups: JsObject.Entries<int>): (r: seq<StoredGroup>)
    ensures |r| <= |groups|
    ensures forall g :: g in r <==> (g.name, g.group) in groups && g.group > 0
  {
    if |groups| == 0 then []
    else
      var rest := SavedGroups(groups[1..]);
      assert groups == [groups[0]] + groups[1..];
      var (name, n) := groups[0];
      if n > 0 then [StoredGroup(name, n)] + rest else rest
  }

  /**
   * `Object.entries(selectedSubjects).filter(([, on]) => on)` as names:
   * exactly the subjects whose box is checked.
   */
  function SavedSubjects(subjects: JsObject.Entries<bool>): (r: seq<string>)
    ensures |r| <= |subjects|
    ensures forall name :: name in r <==> (name, true) in subjects
  {
    if |subjects| == 0 then []
    else
      var rest := SavedSubjects(subjects[1..]);
      assert subjects == [subjects[0]] + subjects[1..];
      var (name, on) := subjects[0];
      if on then [name] + rest else rest
  }

  /**
   * `handleSave`: in professor mode with a professor chosen, the mode, the
   * professor and the timetable type and nothing else; in class mode with
   * a class chosen, the class with its saved groups and subjects; otherwise,
   * and always while no mode is set, nothing is emitted.
   */
  function HandleSave(st: ModalState): (r: Option<SavedSettings>)
    ensures r.Some? <==>
      (st.mode == Some(ProfessorMode) && Chosen(st.selectedProfessor))
      || (st.mode == Some(ClassMode) && Chosen(st.selectedClass))
    ensures st.mode.None? ==> r.None?
    ensures r.Some? ==> st.mode == Some(r.value.mode) && r.value.timetableType == Some(st.timetableType)
    ensures r.Some? && st.mode == Some(ProfessorMode) ==>
      && r.value.professorId == st.selectedProfessor
      && r.value.classId.None? && r.value.groups.None? && r.value.subjects.None?
    ensures r.Some? && st.mode == Some(ClassMode) ==>
      && r.value.classId == st.selectedClass
      && r.value.professorId.None?
      && r.value.groups.Some? && r.value.subjects.Some?
      && (forall g :: g in r.value.groups.value <==>
            (g.name, g.group) in st.selectedGroups && g.group > 0)
      && (forall name :: name in r.value.subjects.value <==> (name, true) in st.selectedSubjects)
  {
    if st.mode == Some(ProfessorMode) && Chosen(st.selectedProfessor) then
      Some(SavedSettings(ProfessorMode, None, st.selectedProfessor, None, None, Some(st.timetableType)))
    else if st.mode == Some(ClassMode) && Chosen(st.selectedClass) then
      Some(SavedSettings(ClassMode, st.selectedClass, None,
        Some(SavedGroups(st.selectedGroups)), Some(SavedSubjects(st.selectedSubjects)),
        Some(st.timetableType)))
    else
      None
  }

  /** Saving depends only on the current mode's selection: the other one is ignored. */
  lemma SaveIgnoresOtherSelection(st: ModalState, other: Option<string>)
    ensures st.mode == Some(ProfessorMode) ==>
      HandleSave(st.(selectedClass := other)) == HandleSave(st)
    ensures st.mode == Some(ClassMode) ==>
      HandleSave(st.(selectedProfessor := other)) == HandleSave(st)
  {
  }

  /** The "Razred" and "Profesor" buttons: set the mode and nothing else. */
  function ChooseMode(st: ModalState, m: Mode): (r: ModalState)
    ensures r.mode == Some(m)
    ensures r.(mode := st.mode) == st
  {
    st.(mode := Some(m))
  }

  /**
   * Whatever mode the modal was in, including none, choosing one and then
   * saving emits settings exactly when that mode's own selection is made.
   */
  lemma ChosenModeSaves(st: ModalState, m: Mode)
    ensures var saved := HandleSave(ChooseMode(st, m));
      && (m == ProfessorMode ==> (saved.Some? <==> Chosen(st.selectedProfessor)))
      && (m == ClassMode ==> (saved.Some? <==> Chosen(st.selectedClass)))
      && (saved.Some? ==> saved.value.mode == m)
  {
  }
}

=== FILE: onboarding_modal.dfy ===
/**
 * The first-visit onboarding modal (`OnboardingModal.tsx`): its starting
 * selection, the subjects it checks once they arrive, and when its save
 * button is enabled. Saving is `ModalSave.HandleSave`.
 */
module OnboardingModal {
  import opened Wrappers
  import JsObject
  import opened SettingsTypes
  import opened ModalSave
  import SettingsModal

  /** Mode `'class'`, nothing selected, the card-list view. */
  const Initial: ModalState := ModalState(Some(ClassMode), None, None, [], [], DefaultView)

  /**
   * `allSubjects[subject.name] = true` for each fetched subject: every
   * fetched subject starts checked, and nothing else is in the object.
   */
  function AllChecked(fetched: seq<string>): (checks: JsObject.Entries<bool>)
    ensures JsObject.DistinctKeys(checks)
    ensures forall name :: name in JsObject.KeysOf(checks) <==> name in fetched
    ensures forall name :: name in fetched ==> JsObject.Get(checks, name) == Some(true)
  {
    SettingsModal.InitialChecks(fetched, [])
  }

  /** The state once a class is picked and its subjects arrive. */
  function ClassPicked(st: ModalState, classId: string, fetched: seq<string>): (r: ModalState)
    ensures r.selectedClass == Some(classId)
    ensures r.selectedSubjects == AllChecked(fetched)
    ensures r.mode == st.mode && r.selectedProfessor == st.selectedProfessor
    ensures r.selectedGroups == st.selectedGroups && r.timetableType == st.timetableType
  {
    st.(selectedClass := Some(classId), selectedSubjects := AllChecked(fetched))
  }

  /** `disabled={!selectedClass() && !selectedProfessor()}`, negated. */
  predicate SaveEnabled(st: ModalState) {
    Chosen(st.selectedClass) || Chosen(st.selectedProfessor)
  }

  /** The button starts disabled. */
  lemma InitiallyDisabled()
    ensures !SaveEnabled(Initial)
    ensures HandleSave(Initial).None?
  {
  }

  /** Whatever `handleSave` emits, the button was enabled. */
  lemma SaveNeedsEnabled(st: ModalState)
    ensures HandleSave(st).Some? ==> SaveEnabled(st)
  {
  }

  /**
   * The button and `handleSave` disagree exactly when the selection made
   * belongs to the other mode: then the button is enabled and a click
   * emits nothing. (A state with no mode, which this modal never reaches
   * since its mode starts as `'class'`, is silent whenever enabled.)
   */
  lemma EnabledButSilent(st: ModalState)
    ensures (SaveEnabled(st) && HandleSave(st).None?) <==>
      (st.mode == Some(ClassMode) && !Chosen(st.selectedClass) && Chosen(st.selectedProfessor))
      || (st.mode == Some(ProfessorMode) && !Chosen(st.selectedProfessor) && Chosen(st.selectedClass))
      || (st.mode.None? && SaveEnabled(st))
  {
    match st.mode
    case None =>
    case Some(m) => assert m == ClassMode || m == ProfessorMode;
  }

  /**
   * Picking a class straight after opening and saving sends every fetched
   * subject, no groups, and the default view.
   */
  lemma FirstClassSave(classId: string, fetched: seq<string>)
    requires classId != ""
    ensures var saved := HandleSave(ClassPicked(Initial, classId, fetched));
      && saved.Some?
      && saved.value.classId == Some(classId)
      && saved.value.groups == Some([])
      && saved.value.subjects.Some?
      && (forall name :: name in saved.value.subjects.value <==> name in fetched)
      && saved.value.timetableType == Some(DefaultView)
  {
    var st := ClassPicked(Initial, classId, fetched);
    forall name ensures name in SavedSubjects(st.selectedSubjects) <==> name in fetched {
      JsObject.GetFindsEntry(st.selectedSubjects, name, true);
    }
  }
}

=== FILE: palette_color.dfy ===
/**
 * `stringToColor` (`lib/color.ts`): a string hash over UTF-16 code units
 * that picks one of ten background classes.
 */
module PaletteColor {
  import opened JsNumber

  /** `COLORS`. */
  const Colors: seq<string> := [
    "bg-blue-500",
    "bg-green-500",
    "bg-yellow-500",
    "bg-red-500",
    "bg-indigo-500",
    "bg-purple-500",
    "bg-pink-500",
    "bg-teal-500",
    "bg-cyan-500",
    "bg-orange-500"
  ]

  // ---------------------------------------------------------------------------
  // UTF-16
  // ---------------------------------------------------------------------------

  /** The UTF-16 code units of one character: one below U+10000, a surrogate pair above. */
  function Units(c: char): (u: seq<int>)
    ensures 1 <= |u| <= 2
    ensures forall k :: 0 <= k < |u| ==> 0 <= u[k] < 0x10000
    ensures |u| == 1 <==> (c as int) < 0x10000
  {
    var v := c as int;
    if v < 0x10000 then [v]
    else [0xD800 + (v - 0x10000) / 0x400, 0xDC00 + (v - 0x10000) % 0x400]
  }

  /** The code units `charCodeAt` walks through, in order. */
  function CodeUnits(s: string): (u: seq<int>)
    ensures |u| >= |s|
    ensures forall k :: 0 <= k < |u| ==> 0 <= u[k] < 0x10000
  {
    if |s| == 0 then [] else Units(s[0]) + CodeUnits(s[1..])
  }

  /** A string without characters beyond U+FFFF has one code unit per character. */
  lemma {:induction false} BasicPlaneUnits(s: string)
    requires forall k :: 0 <= k < |s| ==> (s[k] as int) < 0x10000
    ensures |CodeUnits(s)| == |s|
    ensures forall k :: 0 <= k < |s| ==> CodeUnits(s)[k] == s[k] as int
    decreases |s|
  {
    if |s| > 0 {
      BasicPlaneUnits(s[1..]);
    }
  }

  // ---------------------------------------------------------------------------
  // The hash
  // ---------------------------------------------------------------------------

  /**
   * `hash = unit + ((hash << 5) - hash)`: the shift works on the hash's
   * 32-bit reading and gives a 32-bit result; the addition and subtraction
   * are on plain numbers, so the hash itself may leave the 32-bit range.
   */
  function Step(hash: int, unit: int): int {
    unit + ToInt32(ToInt32(hash) * 32) - hash
  }

  /** The hash after the given code units, starting from 0. */
  function Hash(units: seq<int>): int {
    if |units| == 0 then 0 else Step(Hash(units[..|units| - 1]), units[|units| - 1])
  }

  /** `Math.abs(hash % COLORS.length)`. */
  function PaletteIndex(hash: int): (i: nat)
    ensures i < |Colors|
    ensures hash >= 0 ==> i == hash % 10
    ensures hash < 0 ==> i == (-hash) % 10
  {
    Abs(Rem(hash, |Colors|))
  }

  /**
   * The colour chosen for a run of code units. Any units are accepted,
   * unpaired surrogates included, which a JavaScript string may hold and
   * a Dafny `string` cannot.
   */
  function UnitsColor(units: seq<int>): (color: string)
    ensures color in Colors
  {
    Colors[PaletteIndex(Hash(units))]
  }

  /** The colour chosen for a string. */
  function ColorOf(s: string): string {
    UnitsColor(CodeUnits(s))
  }

  /**
   * `stringToColor`, walking the code units as its `for` loop does. The
   * result is one of the palette's entries, and the same one `ColorOf`
   * names for the string.
   */
  method StringToColor(str: string) returns (color: string)
    ensures color in Colors
    ensures color == ColorOf(str)
  {
    var units := CodeUnits(str);
    var hash := 0;
    var i := 0;
    while i < |units|
      invariant 0 <= i <= |units|
      invariant hash == Hash(units[..i])
    {
      assert units[..i + 1][..i] == units[..i];
      hash := units[i] + ToInt32(ToInt32(hash) * 32) - hash;
      i := i + 1;
    }
    assert units[..|units|] == units;
    var index := Abs(Rem(hash, |Colors|));
    color := Colors[index];
  }

  /** Every string gets a palette entry. */
  lemma ColorInPalette(s: string)
    ensures ColorOf(s) in Colors
  {
  }

  /** The empty string leaves the hash at 0 and gets the first colour. */
  lemma EmptyIsBlue()
    ensures ColorOf("") == "bg-blue-500"
  {
    assert CodeUnits("") == [];
  }

  /**
   * Each step moves the hash by at most 2^31 plus the code unit, so after
   * `n` units it is within `n * (2^31 + 2^16)` of zero.
   */
  lemma {:induction false} HashBound(units: seq<int>)
    requires forall k :: 0 <= k < |units| ==> 0 <= units[k] < 0x10000
    ensures Abs(Hash(units)) <= |units| * (TwoTo31 + 0x10000)
    decreases |units|
  {
    if |units| > 0 {
      HashBound(units[..|units| - 1]);
    }
  }

  /**
   * Strings of up to 2^21 code units keep the hash below 2^53 in size, so
   * the double-precision arithmetic of `stringToColor` is exact on them and the
   * unbounded integers here give the same hash.
   */
  lemma HashExact(units: seq<int>)
    requires |units| <= 0x20_0000
    requires forall k :: 0 <= k < |units| ==> 0 <= units[k] < 0x10000
    ensures Abs(Hash(units)) < 0x20_0000_0000_0000
  {
    HashBound(units);
    assert |units| * (TwoTo31 + 0x10000) <= 0x20_0000 * (TwoTo31 + 0x10000);
  }

  /** A one-letter string lands on its code unit modulo ten: "a" is 97, so teal. */
  lemma SingleLetter()
    ensures ColorOf("a") == "bg-teal-500"
  {
    assert CodeUnits("a") == [97];
    SmallStep(0, 97);
    assert [97][..0] == [];
  }

  /** The hash of a longer string is one more step from the hash of its prefix. */
  lemma HashSnoc(units: seq<int>, u: int)
    ensures Hash(units + [u]) == Step(Hash(units), u)
  {
    assert (units + [u])[..|units|] == units;
  }

  /** While the hash stays below 2^26 the shift cannot wrap, so a step is `31 * hash + unit`. */
  lemma SmallStep(hash: int, unit: int)
    requires 0 <= hash < 0x400_0000
    ensures Step(hash, unit) == 31 * hash + unit
  {
    ToInt32Fixed(hash);
    ToInt32Fixed(hash * 32);
  }

  /** The sixth step shifts past 2^31 and wraps to a negative number. */
  lemma ZWrap()
    ensures Step(116425210, 122) == -685785664
  {
    ToInt32Fixed(116425210);
    var shifted := 116425210 * 32;
    assert shifted == 3725606720;
    ToInt32Periodic(shifted - TwoTo32, 1);
    ToInt32Fixed(shifted - TwoTo32);
    assert shifted - TwoTo32 + 1 * TwoTo32 == shifted;
  }

  lemma ZHash1()
    ensures Hash([122]) == 122
  {
    SmallStep(0, 122);
    assert [122][..0] == [];
  }

  lemma ZHash2()
    ensures Hash([122, 122]) == 3904
  {
    ZHash1();
    SmallStep(122, 122);
    assert [122, 122][..1] == [122];
  }

  lemma ZHash3()
    ensures Hash([122, 122, 122]) == 121146
  {
    ZHash2();
    SmallStep(3904, 122);
    assert [122, 122, 122][..2] == [122, 122];
  }

  lemma ZHash4()
    ensures Hash([122, 122, 122, 122]) == 3755648
  {
    ZHash3();
    SmallStep(121146, 122);
    assert [122, 122, 122, 122][..3] == [122, 122, 122];
  }

  lemma ZHash5()
    ensures Hash([122, 122, 122, 122, 122]) == 116425210
  {
    ZHash4();
    SmallStep(3755648, 122);
    assert [122, 122, 122, 122, 122][..4] == [122, 122, 122, 122];
  }

  lemma ZHash()
    ensures Hash([122, 122, 122, 122, 122, 122]) == -685785664
  {
    ZHash5();
    ZWrap();
    assert [122, 122, 122, 122, 122, 122][..5] == [122, 122, 122, 122, 122];
  }

  /**
   * A hash pushed past 2^31 wraps in the shift and can turn negative; the
   * index then takes the remainder's absolute value: "zzzzzz" hashes to
   * -685785664 and gets index 4.
   */
  lemma NegativeHash()
    ensures Hash(CodeUnits("zzzzzz")) == -685785664
    ensures ColorOf("zzzzzz") == "bg-indigo-500"
  {
    ZUnits();
    ZHash();
  }

  lemma ZUnits()
    ensures CodeUnits("zzzzzz") == [122, 122, 122, 122, 122, 122]
  {
    BasicPlaneUnits("zzzzzz");
  }

}

=== FILE: settings_modal.dfy ===
/**
 * The settings modal (`SettingsModal.tsx`): the selection it starts from
 * when it opens, seeded from the stored settings, and what saving that
 * selection straight away gives back.
 */
module SettingsModal {
  import opened Wrappers
  import JsObject
  import opened SettingsTypes
  import opened ModalSave

  /**
   * The stored settings the home page hands to the modal. The page passes
   * its own mode signal, which is `null` until a mode has been saved.
   */
  datatype Props = Props(
    initialMode: Option<Mode>,
    initialClassId: Option<string>,
    initialProfessorId: Option<string>,
    initialSelectedGroups: seq<StoredGroup>,
    initialSelectedSubjects: seq<string>,
    initialTimetableType: TimetableType)

  /** The pairs the subject effect writes: each fetched name with its first checkbox value. */
  function CheckPairs(fetched: seq<string>, initial: seq<string>): (pairs: seq<(string, bool)>)
    ensures |pairs| == |fetched|
    ensures forall k :: 0 <= k < |fetched| ==>
      pairs[k] == (fetched[k], if |initial| > 0 then fetched[k] in initial else true)
  {
    seq(|fetched|, k requires 0 <= k < |fetched| =>
      (fetched[k], if |initial| > 0 then fetched[k] in initial else true))
  }

  /**
   * The checkbox state once the class's subjects arrive: with stored
   * subjects, a fetched subject is checked exactly when it is stored;
   * with none stored, every fetched subject is checked.
   */
  function InitialChecks(fetched: seq<string>, initial: seq<string>): (checks: JsObject.Entries<bool>)
    ensures JsObject.DistinctKeys(checks)
    ensures forall name :: name in JsObject.KeysOf(checks) <==> name in fetched
    ensures forall name :: name in fetched ==>
      JsObject.Get(checks, name) == Some(if |initial| > 0 then name in initial else true)
  {
    var pairs := CheckPairs(fetched, initial);
    var checks := JsObject.FromPairs(pairs);
    forall name ensures name in JsObject.KeysOf(checks) <==> name in fetched {
      if name in fetched {
        var k :| 0 <= k < |fetched| && fetched[k] == name;
        assert JsObject.KeysOf(pairs)[k] == name;
      }
      if name in JsObject.KeysOf(pairs) {
        var k :| 0 <= k < |pairs| && JsObject.KeysOf(pairs)[k] == name;
        assert fetched[k] == name;
      }
    }
    forall name | name in fetched
      ensures JsObject.Get(checks, name) == Some(if |initial| > 0 then name in initial else true)
    {
      var k :| 0 <= k < |fetched| && fetched[k] == name;
      assert JsObject.KeysOf(pairs)[k] == name;
      JsObject.FromPairsAgreeing(pairs, name, if |initial| > 0 then name in initial else true);
    }
    checks
  }

  /**
   * The subject list the resource keyed on the class delivers: the fetched
   * list, except that an empty class id gives `[]` without asking the service.
   */
  function SubjectsFor(classId: string, fetched: seq<string>): (subjects: seq<string>)
    ensures classId == "" ==> subjects == []
    ensures classId != "" ==> subjects == fetched
  {
    if classId == "" then [] else fetched
  }

  /**
   * Setting the selected class. The subject resource is keyed on the class
   * signal, which only notifies on a different value, so the checks are
   * rebuilt only when the class really changes to a defined id; an
   * undefined id fetches nothing and the checks stay as they were.
   */
  function SwitchClass(st: ModalState, classId: Option<string>, initial: seq<string>, fetched: seq<string>): (r: ModalState)
    ensures r.selectedClass == classId
    ensures r.mode == st.mode && r.selectedProfessor == st.selectedProfessor
    ensures r.selectedGroups == st.selectedGroups && r.timetableType == st.timetableType
    ensures classId == st.selectedClass || classId.None? ==> r.selectedSubjects == st.selectedSubjects
    ensures classId != st.selectedClass && classId.Some? ==>
      && JsObject.DistinctKeys(r.selectedSubjects)
      && (forall name :: name in JsObject.KeysOf(r.selectedSubjects) <==> name in SubjectsFor(classId.value, fetched))
      && (forall name :: name in SubjectsFor(classId.value, fetched) ==>
            JsObject.Get(r.selectedSubjects, name) == Some(if |initial| > 0 then name in initial else true))
  {
    if classId == st.selectedClass || classId.None? then st.(selectedClass := classId)
    else st.(selectedClass := classId, selectedSubjects := InitialChecks(SubjectsFor(classId.value, fetched), initial))
  }

  /**
   * The modal as the page creates it, closed, once the subjects of its
   * class have arrived: the props' selection, no groups yet, and the
   * initial checks for those subjects.
   */
  function Mounted(props: Props, fetched: seq<string>): (st: ModalState)
    ensures st.mode == props.initialMode && st.selectedClass == props.initialClassId
    ensures st.selectedProfessor == props.initialProfessorId && st.timetableType == props.initialTimetableType
    ensures st.selectedGroups == []
    ensures props.initialClassId.Some? ==>
      st.selectedSubjects == InitialChecks(SubjectsFor(props.initialClassId.value, fetched), props.initialSelectedSubjects)
    ensures props.initialClassId.None? ==> st.selectedSubjects == []
  {
    var st := ModalState(props.initialMode, props.initialClassId, props.initialProfessorId, [], [], props.initialTimetableType);
    if props.initialClassId.None? then st
    else st.(selectedSubjects := InitialChecks(SubjectsFor(props.initialClassId.value, fetched), props.initialSelectedSubjects))
  }

  /**
   * Opening the modal from the state `prev` it was left in: mode,
   * professor, view type and the group object are taken from the props
   * every time; the class is set from the props too, and the subject
   * checks follow `SwitchClass`, so they are rebuilt only when the class
   * differs from the one the modal last held. The group object is stated
   * key by key: `reconcile` keeps keys the store already held in their old
   * places, so the order of its entries after reopening, and hence of the
   * saved groups, is not modelled.
   */
  function Opened(props: Props, prev: ModalState, fetched: seq<string>): (st: ModalState)
    ensures st.mode == props.initialMode
    ensures st.selectedClass == props.initialClassId
    ensures st.selectedProfessor == props.initialProfessorId
    ensures st.timetableType == props.initialTimetableType
    ensures forall name :: JsObject.Get(st.selectedGroups, name) == JsObject.Get(GroupObject(props.initialSelectedGroups), name)
    ensures props.initialClassId == prev.selectedClass ==> st.selectedSubjects == prev.selectedSubjects
  {
    var reset := prev.(mode := props.initialMode, selectedProfessor := props.initialProfessorId,
      timetableType := props.initialTimetableType, selectedGroups := GroupObject(props.initialSelectedGroups));
    SwitchClass(reset, props.initialClassId, props.initialSelectedSubjects, fetched)
  }

  /** Ticking or clearing one subject's box. */
  function ToggleSubject(st: ModalState, name: string, on: bool): (r: ModalState)
    ensures JsObject.Get(r.selectedSubjects, name) == Some(on)
    ensures forall other :: other != name ==> JsObject.Get(r.selectedSubjects, other) == JsObject.Get(st.selectedSubjects, other)
    ensures r.(selectedSubjects := st.selectedSubjects) == st
  {
    st.(selectedSubjects := JsObject.Put(st.selectedSubjects, name, on))
  }

  /**
   * When the modal opens on a class other than the one it last held, the
   * subjects reload, and saving straight away keeps the stored subjects
   * the class still offers, or every offered subject when none were stored.
   */
  lemma NewClassSavesSubjects(props: Props, prev: ModalState, fetched: seq<string>)
    requires props.initialMode == Some(ClassMode) && Chosen(props.initialClassId)
    requires prev.selectedClass != props.initialClassId
    ensures var saved := HandleSave(Opened(props, prev, fetched));
      && saved.Some? && saved.value.subjects.Some?
      && forall name :: name in saved.value.subjects.value <==>
           name in fetched && (|props.initialSelectedSubjects| > 0 ==> name in props.initialSelectedSubjects)
  {
    var st := Opened(props, prev, fetched);
    var saved := HandleSave(st).value.subjects.value;
    forall name ensures name in saved <==>
      name in fetched && (|props.initialSelectedSubjects| > 0 ==> name in props.initialSelectedSubjects)
    {
      JsObject.GetFindsEntry(st.selectedSubjects, name, true);
    }
  }

  /**
   * When the modal opens on the class it last held, nothing reloads:
   * saving straight away sends exactly the boxes left checked, whatever
   * subjects the page now holds for that class.
   */
  lemma SameClassKeepsChecks(props: Props, prev: ModalState, fetched: seq<string>)
    requires props.initialMode == Some(ClassMode) && Chosen(props.initialClassId)
    requires prev.selectedClass == props.initialClassId
    ensures var saved := HandleSave(Opened(props, prev, fetched));
      && saved.Some? && saved.value.subjects.Some?
      && forall name :: name in saved.value.subjects.value <==> (name, true) in prev.selectedSubjects
  {
  }

  /**
   * The first opening after the page creates the modal: the class is the
   * one the subjects were loaded for, so saving straight away keeps the
   * stored subjects the class offers, or every offered subject when none
   * were stored.
   */
  lemma FirstOpenSavesSubjects(props: Props, fetched: seq<string>, later: seq<string>)
    requires props.initialMode == Some(ClassMode) && Chosen(props.initialClassId)
    ensures var saved := HandleSave(Opened(props, Mounted(props, fetched), later));
      && saved.Some? && saved.value.subjects.Some?
      && forall name :: name in saved.value.subjects.value <==>
           name in fetched && (|props.initialSelectedSubjects| > 0 ==> name in props.initialSelectedSubjects)
  {
    var st := Opened(props, Mounted(props, fetched), later);
    var saved := HandleSave(st).value.subjects.value;
    forall name ensures name in saved <==>
      name in fetched && (|props.initialSelectedSubjects| > 0 ==> name in props.initialSelectedSubjects)
    {
      JsObject.GetFindsEntry(st.selectedSubjects, name, true);
    }
  }

  /**
   * Class "7" offers MAT and SLO. With both boxes cleared and saved, the
   * page holds no subjects for it; reopening and saving at once sends no
   * subjects, not every offered one.
   */
  lemma ClearedChecksStayCleared(prev: ModalState, props: Props)
    requires prev.selectedClass == Some("7") && prev.selectedSubjects == [("MAT", false), ("SLO", false)]
    requires props.initialMode == Some(ClassMode) && props.initialClassId == Some("7")
    requires props.initialSelectedSubjects == []
    ensures HandleSave(Opened(props, prev, ["MAT", "SLO"])).value.subjects == Some([])
  {
    assert Opened(props, prev, ["MAT", "SLO"]).selectedSubjects == prev.selectedSubjects;
    assert SavedSubjects([("SLO", false)]) == [] by {
      assert [("SLO", false)][1..] == [];
    }
    assert SavedSubjects([("MAT", false), ("SLO", false)]) == [] by {
      assert [("MAT", false), ("SLO", false)][1..] == [("SLO", false)];
    }
  }

  /**
   * Clearing SLO and leaving with Escape keeps the edit: the next opening
   * on the same class saves MAT alone, although the page still holds both.
   */
  lemma EscapeKeepsEdits(props: Props)
    requires props.initialMode == Some(ClassMode) && props.initialClassId == Some("7")
    requires props.initialSelectedSubjects == ["MAT", "SLO"]
    ensures var fetched := ["MAT", "SLO"];
      var edited := ToggleSubject(Opened(props, Mounted(props, fetched), fetched), "SLO", false);
      HandleSave(Opened(props, edited, fetched)).value.subjects == Some(["MAT"])
  {
    var fetched := ["MAT", "SLO"];
    var first := Opened(props, Mounted(props, fetched), fetched);
    FirstOpenChecks(props, fetched);
    ClearSecond(first);
    SaveFirstOnly(props, ToggleSubject(first, "SLO", false), fetched);
  }

  /** Opening for the first time with MAT and SLO stored shows both checked. */
  lemma FirstOpenChecks(props: Props, fetched: seq<string>)
    requires props.initialClassId == Some("7") && fetched == ["MAT", "SLO"]
    requires props.initialSelectedSubjects == ["MAT", "SLO"]
    ensures Opened(props, Mounted(props, fetched), fetched).selectedSubjects == [("MAT", true), ("SLO", true)]
    ensures Opened(props, Mounted(props, fetched), fetched).selectedClass == Some("7")
  {
    BothChecked();
  }

  /** Clearing SLO in place. */
  lemma ClearSecond(st: ModalState)
    requires st.selectedSubjects == [("MAT", true), ("SLO", true)]
    ensures ToggleSubject(st, "SLO", false).selectedSubjects == [("MAT", true), ("SLO", false)]
  {
    assert JsObject.Put([("SLO", true)], "SLO", false) == [("SLO", false)];
    assert [("MAT", true), ("SLO", true)][1..] == [("SLO", true)];
  }

  /** Reopening on the same class with MAT checked and SLO cleared saves MAT alone. */
  lemma SaveFirstOnly(props: Props, edited: ModalState, fetched: seq<string>)
    requires props.initialMode == Some(ClassMode) && props.initialClassId == Some("7")
    requires edited.selectedClass == Some("7")
    requires edited.selectedSubjects == [("MAT", true), ("SLO", false)]
    ensures HandleSave(Opened(props, edited, fetched)).value.subjects == Some(["MAT"])
  {
    assert Opened(props, edited, fetched).selectedSubjects == edited.selectedSubjects;
    assert SavedSubjects([("SLO", false)]) == [] by {
      assert [("SLO", false)][1..] == [];
    }
    assert SavedSubjects([("MAT", true), ("SLO", false)]) == ["MAT"] by {
      assert [("MAT", true), ("SLO", false)][1..] == [("SLO", false)];
    }
  }

  /** With both subjects stored, both boxes of MAT and SLO start checked, in that order. */
  lemma BothChecked()
    ensures InitialChecks(["MAT", "SLO"], ["MAT", "SLO"]) == [("MAT", true), ("SLO", true)]
  {
    var pairs := CheckPairs(["MAT", "SLO"], ["MAT", "SLO"]);
    assert pairs == [("MAT", true), ("SLO", true)];
    assert pairs[..1] == [("MAT", true)] && pairs[..1][..0] == [];
    assert JsObject.FromPairs(pairs[..1]) == [("MAT", true)];
    assert JsObject.Put([("MAT", true)], "SLO", true) == [("MAT", true), ("SLO", true)] by {
      assert [("MAT", true)][1..] == [];
    }
  }

  /**
   * Saving right after opening in class mode keeps, for each stored group
   * name, the last number stored for it, when that number is not 0: the
   * group object is rebuilt on every opening.
   */
  lemma ReopenSavesGroups(props: Props, prev: ModalState, fetched: seq<string>)
    requires props.initialMode == Some(ClassMode) && Chosen(props.initialClassId)
    ensures var saved := HandleSave(Opened(props, prev, fetched));
      && saved.Some? && saved.value.groups.Some?
      && forall g :: g in saved.value.groups.value <==>
           g.group > 0 && JsObject.Get(GroupObject(props.initialSelectedGroups), g.name) == Some(g.group)
  {
    var st := Opened(props, prev, fetched);
    var saved := HandleSave(st).value.groups.value;
    forall g ensures g in saved <==>
      g.group > 0 && JsObject.Get(GroupObject(props.initialSelectedGroups), g.name) == Some(g.group)
    {
      JsObject.GetFindsEntry(st.selectedGroups, g.name, g.group);
      JsObject.GetFindsEntry(GroupObject(props.initialSelectedGroups), g.name, g.group);
    }
  }

  /** Opening in professor mode with a professor and saving gives back just the professor. */
  lemma ReopenSavesProfessor(props: Props, prev: ModalState, fetched: seq<string>)
    requires props.initialMode == Some(ProfessorMode) && Chosen(props.initialProfessorId)
    ensures HandleSave(Opened(props, prev, fetched)) == Some(SavedSettings(
      ProfessorMode, None, props.initialProfessorId, None, None, Some(props.initialTimetableType)))
  {
  }

  /**
   * Opening with the page's `null` mode, as after onboarding is closed with
   * Escape: saving straight away emits nothing, whatever is selected, until
   * a mode button is pressed; after that, saving follows that mode's
   * selection from the props.
   */
  lemma NullModeSavesNothing(props: Props, prev: ModalState, fetched: seq<string>)
    requires props.initialMode.None?
    ensures HandleSave(Opened(props, prev, fetched)).None?
    ensures HandleSave(ChooseMode(Opened(props, prev, fetched), ProfessorMode)).Some? <==>
      Chosen(props.initialProfessorId)
    ensures HandleSave(ChooseMode(Opened(props, prev, fetched), ClassMode)).Some? <==>
      Chosen(props.initialClassId)
  {
  }
}

=== FILE: settings_types.dfy ===
/**
 * What the settings and onboarding modals hand to `onSave`, and the group
 * choices they and the mailing-list modal keep.
 */
module SettingsTypes {
  import opened Wrappers
  import JsObject

  /** A group choice for one subject: `group` 0 is "Vsi" (all groups). */
  datatype StoredGroup = StoredGroup(name: string, group: int)

  datatype Mode = ClassMode | ProfessorMode

  /** `'default'` is the card list, `'timetable'` the grid. */
  datatype TimetableType = DefaultView | TimetableView

  /**
   * The object passed to `onSave`. A field that the object literal leaves
   * out is `None`.
   */
  datatype SavedSettings = SavedSettings(
    mode: Mode,
    classId: Option<string>,
    professorId: Option<string>,
    groups: Option<seq<StoredGroup>>,
    subjects: Option<seq<string>>,
    timetableType: Option<TimetableType>)

  /** A selection JavaScript treats as true: present and not the empty string. */
  predicate Chosen(id: Option<string>) {
    id.Some? && id.value != ""
  }

  /** The pairs `[name, group]` of a list of stored groups, in order. */
  function GroupPairs(groups: seq<StoredGroup>): (pairs: seq<(string, int)>)
    ensures |pairs| == |groups|
    ensures forall k :: 0 <= k < |groups| ==> pairs[k] == (groups[k].name, groups[k].group)
  {
    seq(|groups|, k requires 0 <= k < |groups| => (groups[k].name, groups[k].group))
  }

  /**
   * `obj[g.name] = g.group` for each group in turn, starting from `{}`: the
   * object has a key for exactly the names that occur.
   */
  function GroupObject(groups: seq<StoredGroup>): (obj: JsObject.Entries<int>)
    ensures JsObject.DistinctKeys(obj)
    ensures forall name :: name in JsObject.KeysOf(obj) <==>
      exists k :: 0 <= k < |groups| && groups[k].name == name
  {
    var pairs := GroupPairs(groups);
    var obj := JsObject.FromPairs(pairs);
    forall name ensures name in JsObject.KeysOf(obj) <==> exists k :: 0 <= k < |groups| && groups[k].name == name {
      if name in JsObject.KeysOf(pairs) {
        var k :| 0 <= k < |pairs| && JsObject.KeysOf(pairs)[k] == name;
        assert groups[k].name == name;
      }
      if exists k :: 0 <= k < |groups| && groups[k].name == name {
        var k :| 0 <= k < |groups| && groups[k].name == name;
        assert JsObject.KeysOf(pairs)[k] == name;
      }
    }
    obj
  }

  /** When two groups share a name, the later one's number is the one kept. */
  lemma LaterGroupWins(groups: seq<StoredGroup>, k: nat)
    requires k < |groups|
    requires forall m :: k < m < |groups| ==> groups[m].name != groups[k].name
    ensures JsObject.Get(GroupObject(groups), groups[k].name) == Some(groups[k].group)
  {
    JsObject.FromPairsKeepsLast(GroupPairs(groups), k);
  }
}

=== FILE: stable_sort.dfy ===
/**
 * The stable ascending sort `xs.sort((a, b) => key(a) - key(b))` that both
 * timetable views apply to a day's lessons. `Array.prototype.sort` is stable
 * since ES2019; the model sorts by insertion, and `StableSortIsUnique` shows
 * that every stable sort produces the same sequence, so the choice of
 * algorithm does not matter.
 */
module StableSort {

  /** `s` is ascending by `key`. */
  ghost predicate SortedBy<T>(s: seq<T>, key: T -> int) {
    forall i, j :: 0 <= i < j < |s| ==> key(s[i]) <= key(s[j])
  }

  /** The elements of `s` whose key is `v`, in their order in `s`. */
  function WithKey<T>(s: seq<T>, key: T -> int, v: int): seq<T> {
    if |s| == 0 then []
    else (if key(s[0]) == v then [s[0]] else []) + WithKey(s[1..], key, v)
  }

  /** A stable sort keeps, for every key, the relative order of the elements with that key. */
  ghost predicate StableSortOf<T>(r: seq<T>, s: seq<T>, key: T -> int) {
    && SortedBy(r, key)
    && forall v :: WithKey(r, key, v) == WithKey(s, key, v)
  }

  /** Inserts `x` into the ascending `s` after every element whose key is not greater. */
  function Insert<T>(x: T, s: seq<T>, key: T -> int): (r: seq<T>)
    requires SortedBy(s, key)
    ensures SortedBy(r, key)
    ensures multiset(r) == multiset(s) + multiset{x}
    ensures |r| == |s| + 1
    ensures r[0] == x || (|s| > 0 && r[0] == s[0])
  {
    if |s| == 0 then [x]
    else if key(x) < key(s[0]) then [x] + s
    else
      var tail := Insert(x, s[1..], key);
      assert s == [s[0]] + s[1..];
      assert key(s[0]) <= key(tail[0]);
      [s[0]] + tail
  }

  /** Sorts `s` ascending by `key`, inserting its elements one by one from the left. */
  function Sort<T>(s: seq<T>, key: T -> int): (r: seq<T>)
    ensures SortedBy(r, key)
    ensures multiset(r) == multiset(s)
    ensures |r| == |s|
  {
    if |s| == 0 then []
    else
      var init := s[..|s| - 1];
      assert s == init + [s[|s| - 1]];
      Insert(s[|s| - 1], Sort(init, key), key)
  }

  lemma {:induction false} WithKeyAppend<T>(a: seq<T>, b: seq<T>, key: T -> int, v: int)
    ensures WithKey(a + b, key, v) == WithKey(a, key, v) + WithKey(b, key, v)
    decreases |a|
  {
    if |a| == 0 {
      assert a + b == b;
    } else {
      var head := if key(a[0]) == v then [a[0]] else [];
      assert (a + b)[0] == a[0] && (a + b)[1..] == a[1..] + b;
      WithKeyAppend(a[1..], b, key, v);
      assert WithKey(a + b, key, v) == head + WithKey(a[1..] + b, key, v);
      AppendAssoc(head, WithKey(a[1..], key, v), WithKey(b, key, v));
    }
  }

  /** An ascending sequence whose least key exceeds `v` has no element with key `v`. */
  lemma {:induction false} WithKeyAbsent<T>(s: seq<T>, key: T -> int, v: int)
    requires forall i :: 0 <= i < |s| ==> key(s[i]) != v
    ensures WithKey(s, key, v) == []
    decreases |s|
  {
    if |s| > 0 {
      WithKeyAbsent(s[1..], key, v);
    }
  }

  /** Inserting `x` appends it to the run of its key and leaves the other runs alone. */
  lemma {:induction false} InsertWithKey<T>(x: T, s: seq<T>, key: T -> int, v: int)
    requires SortedBy(s, key)
    ensures WithKey(Insert(x, s, key), key, v)
         == WithKey(s, key, v) + (if key(x) == v then [x] else [])
    decreases |s|
  {
    if |s| == 0 {
    } else if key(x) < key(s[0]) {
      InsertInFront(x, s, key, v);
    } else {
      InsertWithKey(x, s[1..], key, v);
      InsertBehindHead(x, s, key, v);
    }
  }

  lemma AppendAssoc<T>(a: seq<T>, b: seq<T>, c: seq<T>)
    ensures a + (b + c) == (a + b) + c
  {
  }

  lemma InsertInFront<T>(x: T, s: seq<T>, key: T -> int, v: int)
    requires SortedBy(s, key) && |s| > 0 && key(x) < key(s[0])
    ensures WithKey(Insert(x, s, key), key, v)
         == WithKey(s, key, v) + (if key(x) == v then [x] else [])
  {
    if key(x) == v {
      assert forall i :: 0 <= i < |s| ==> key(s[0]) <= key(s[i]);
      WithKeyAbsent(s, key, v);
    }
    assert ([x] + s)[1..] == s;
  }

  lemma InsertBehindHead<T>(x: T, s: seq<T>, key: T -> int, v: int)
    requires SortedBy(s, key) && |s| > 0 && key(s[0]) <= key(x)
    requires WithKey(Insert(x, s[1..], key), key, v)
         == WithKey(s[1..], key, v) + (if key(x) == v then [x] else [])
    ensures WithKey(Insert(x, s, key), key, v)
         == WithKey(s, key, v) + (if key(x) == v then [x] else [])
  {
    var tail := Insert(x, s[1..], key);
    var head := if key(s[0]) == v then [s[0]] else [];
    var extra := if key(x) == v then [x] else [];
    assert Insert(x, s, key) == [s[0]] + tail;
    assert ([s[0]] + tail)[1..] == tail;
    calc {
      WithKey(Insert(x, s, key), key, v);
      WithKey([s[0]] + tail, key, v);
      head + WithKey(tail, key, v);
      head + (WithKey(s[1..], key, v) + extra);
      { AppendAssoc(head, WithKey(s[1..], key, v), extra); }
      (head + WithKey(s[1..], key, v)) + extra;
      WithKey(s, key, v) + extra;
    }
  }

  /** The insertion sort is stable. */
  lemma {:induction false} SortIsStable<T>(s: seq<T>, key: T -> int)
    ensures StableSortOf(Sort(s, key), s, key)
    decreases |s|
  {
    forall v
      ensures WithKey(Sort(s, key), key, v) == WithKey(s, key, v)
    {
      SortWithKey(s, key, v);
    }
  }

  lemma {:induction false} SortWithKey<T>(s: seq<T>, key: T -> int, v: int)
    ensures WithKey(Sort(s, key), key, v) == WithKey(s, key, v)
    decreases |s|
  {
    if |s| > 0 {
      var init := s[..|s| - 1];
      var last := s[|s| - 1];
      var extra := if key(last) == v then [last] else [];
      assert s == init + [last];
      WithKeyAppend(init, [last], key, v);
      SortWithKey(init, key, v);
      InsertWithKey(last, Sort(init, key), key, v);
      assert WithKey([last], key, v) == extra + WithKey([last][1..], key, v);
      assert [last][1..] == [];
      calc {
        WithKey(Sort(s, key), key, v);
        WithKey(Insert(last, Sort(init, key), key), key, v);
        WithKey(Sort(init, key), key, v) + extra;
        WithKey(init, key, v) + extra;
        WithKey(init, key, v) + WithKey([last], key, v);
        WithKey(s, key, v);
      }
    }
  }

  lemma HeadStartsRun<T>(s: seq<T>, key: T -> int)
    requires |s| > 0
    ensures WithKey(s, key, key(s[0])) != []
  {
  }

  /** Two ascending sequences with the same run for every key are equal. */
  lemma {:induction false} SortedRunsDetermine<T>(a: seq<T>, b: seq<T>, key: T -> int)
    requires SortedBy(a, key) && SortedBy(b, key)
    requires forall v :: WithKey(a, key, v) == WithKey(b, key, v)
    ensures a == b
    decreases |a| + |b|
  {
    if |a| == 0 || |b| == 0 {
      if |a| > 0 {
        HeadStartsRun(a, key);
      } else if |b| > 0 {
        HeadStartsRun(b, key);
      }
    } else {
      var ka, kb := key(a[0]), key(b[0]);
      if ka < kb {
        assert WithKey(a, key, ka) != [];
        WithKeyAbsent(b, key, ka);
      } else if kb < ka {
        assert WithKey(b, key, kb) != [];
        WithKeyAbsent(a, key, kb);
      } else {
        assert WithKey(a, key, ka)[0] == a[0];
        assert WithKey(b, key, ka)[0] == b[0];
        assert a[0] == b[0];
        forall v
          ensures WithKey(a[1..], key, v) == WithKey(b[1..], key, v)
        {
          var head := if ka == v then [a[0]] else [];
          assert WithKey(a, key, v) == head + WithKey(a[1..], key, v);
          assert WithKey(b, key, v) == head + WithKey(b[1..], key, v);
          assert WithKey(a[1..], key, v) == (head + WithKey(a[1..], key, v))[|head|..];
          assert WithKey(b[1..], key, v) == (head + WithKey(b[1..], key, v))[|head|..];
        }
        SortedRunsDetermine(a[1..], b[1..], key);
        assert a == [a[0]] + a[1..];
        assert b == [b[0]] + b[1..];
      }
    }
  }

  /**
   * Any stable ascending sort of `s` by `key` (the engine's TimSort included)
   * yields exactly `Sort(s, key)`.
   */
  lemma StableSortIsUnique<T>(r: seq<T>, s: seq<T>, key: T -> int)
    requires StableSortOf(r, s, key)
    ensures r == Sort(s, key)
  {
    SortIsStable(s, key);
    SortedRunsDetermine(r, Sort(s, key), key);
  }
}

=== FILE: time_slots.dfy ===
/**
 * The school's sixteen periods (`lib/time.ts`) and the clock-time range a
 * lesson card shows for a start slot and a duration.
 */
module TimeSlots {
  import opened Wrappers

  /** A time of day. */
  datatype Clock = Clock(hour: nat, minute: nat)

  /** One period's start and end. */
  datatype TimeSlot = TimeSlot(start: Clock, end: Clock)

  /**
   * `timeSlots`: period `k + 1` is entry `k`. `timeSlots` holds each time as
   * its `H:MM` text; `ClockText` gives back exactly that text.
   */
  const Slots: seq<TimeSlot> := [
    TimeSlot(Clock(7, 15), Clock(8, 0)),
    TimeSlot(Clock(8, 5), Clock(8, 50)),
    TimeSlot(Clock(8, 55), Clock(9, 40)),
    TimeSlot(Clock(9, 45), Clock(10, 30)),
    TimeSlot(Clock(10, 35), Clock(11, 20)),
    TimeSlot(Clock(11, 25), Clock(12, 10)),
    TimeSlot(Clock(12, 15), Clock(13, 0)),
    TimeSlot(Clock(13, 5), Clock(13, 50)),
    TimeSlot(Clock(13, 55), Clock(14, 40)),
    TimeSlot(Clock(14, 45), Clock(15, 30)),
    TimeSlot(Clock(15, 35), Clock(16, 20)),
    TimeSlot(Clock(16, 25), Clock(17, 10)),
    TimeSlot(Clock(17, 15), Clock(18, 0)),
    TimeSlot(Clock(18, 5), Clock(18, 50)),
    TimeSlot(Clock(18, 55), Clock(19, 40)),
    TimeSlot(Clock(19, 45), Clock(20, 30))
  ]

  /** The text shown when a lesson's first or last period is not in the table. */
  const NotAvailable: string := "N/A"

  /** Minutes after midnight. */
  function MinutesOf(c: Clock): nat { c.hour * 60 + c.minute }

  /** The clock showing `minutes` after midnight. */
  function ClockAt(minutes: nat): (c: Clock)
    ensures c.minute < 60 && MinutesOf(c) == minutes
  {
    Clock(minutes / 60, minutes % 60)
  }

  /** A clock with a minute below 60 is the clock of its minutes after midnight. */
  lemma ClockRoundTrip(c: Clock)
    requires c.minute < 60
    ensures ClockAt(MinutesOf(c)) == c
  {
  }

  function Digit(d: int): (c: char)
    requires 0 <= d < 10
    ensures '0' <= c <= '9'
  {
    (48 + d) as char
  }

  /** `H:MM`: the hour without padding, the minutes as two digits. */
  function ClockText(c: Clock): (r: string)
    requires c.hour < 100 && c.minute < 60
    ensures |r| > 0 && '0' <= r[0] <= '9'
  {
    (if c.hour < 10 then [Digit(c.hour)] else [Digit(c.hour / 10), Digit(c.hour % 10)])
    + [':', Digit(c.minute / 10), Digit(c.minute % 10)]
  }

  // ---------------------------------------------------------------------------
  // The schedule the table writes out: 45-minute periods, 5-minute breaks.
  // ---------------------------------------------------------------------------

  /** Minutes after midnight at which period `k + 1` starts. */
  function StartMinutes(k: int): int { 7 * 60 + 15 + 50 * k }

  /** Minutes after midnight at which period `k + 1` ends. */
  function EndMinutes(k: int): int { StartMinutes(k) + 45 }

  /** Every entry is a valid time of day, and period `k + 1` runs 45 minutes from `7:15 + 50k`. */
  lemma TableIsSchedule()
    ensures |Slots| == 16
    ensures forall k :: 0 <= k < 16 ==>
      && Slots[k].start.minute < 60 && Slots[k].end.minute < 60
      && Slots[k].start.hour < 24 && Slots[k].end.hour < 24
      && MinutesOf(Slots[k].start) == StartMinutes(k)
      && MinutesOf(Slots[k].end) == EndMinutes(k)
  {
  }

  // ---------------------------------------------------------------------------
  // getTimeRange
  // ---------------------------------------------------------------------------

  /** `timeSlots[i]`: `undefined` outside the table. */
  function SlotAt(i: int): (r: Option<TimeSlot>)
    ensures r.Some? <==> 0 <= i < |Slots|
    ensures r.Some? ==> r.value == Slots[i]
  {
    if 0 <= i < |Slots| then Some(Slots[i]) else None
  }

  /** Both the first period `startSlot` and the last period `startSlot + duration - 1` exist. */
  predicate InTable(startSlot: int, duration: int) {
    1 <= startSlot <= 16 && 1 <= startSlot + duration - 1 <= 16
  }

  /**
   * `getTimeRange(startSlot, duration)`: "N/A" exactly when the first or
   * the last period is missing from the table; otherwise the first
   * period's start clock, a dash, and the last period's end clock.
   */
  function GetTimeRange(startSlot: int, duration: int): (r: string)
    ensures r == NotAvailable <==> !InTable(startSlot, duration)
    ensures InTable(startSlot, duration) ==>
      r == ClockText(ClockAt(StartMinutes(startSlot - 1))) + "-"
           + ClockText(ClockAt(EndMinutes(startSlot + duration - 2)))
  {
    var firstSlot := SlotAt(startSlot - 1);
    var lastSlot := SlotAt(startSlot + duration - 2);
    if firstSlot.None? || lastSlot.None? then NotAvailable
    else
      TableIsSchedule();
      var first := firstSlot.value.start;
      var last := lastSlot.value.end;
      ClockRoundTrip(first);
      ClockRoundTrip(last);
      var r := ClockText(first) + "-" + ClockText(last);
      assert r[0] != NotAvailable[0];
      r
  }

  /**
   * A range the card shows spans `duration` periods and the
   * `duration - 1` breaks between them: 50 minutes per period, less the
   * break after the last.
   */
  lemma RangeSpan(startSlot: int, duration: int)
    requires InTable(startSlot, duration)
    ensures EndMinutes(startSlot + duration - 2) - StartMinutes(startSlot - 1) == 50 * duration - 5
  {
  }

  /** A one-period lesson shows its period. */
  lemma FirstPeriodRange()
    ensures GetTimeRange(1, 1) == "7:15-8:00"
  {
  }

  /** A lesson over the whole day shows 7:15 to 20:30. */
  lemma WholeDayRange()
    ensures GetTimeRange(1, 16) == "7:15-20:30"
  {
  }

  /** A double period runs from the first period's start to the second one's end. */
  lemma DoublePeriodRange()
    ensures GetTimeRange(4, 2) == "9:45-11:20"
  {
  }

  /** A lesson reaching past the sixteenth period has no range. */
  lemma PastLastPeriod()
    ensures GetTimeRange(17, 1) == NotAvailable
    ensures GetTimeRange(16, 2) == NotAvailable
  {
  }

  /**
   * The table checks each end of the range on its own: a zero-length lesson
   * after the first period shows the previous period's end as its end.
   */
  lemma ZeroDurationRange()
    ensures GetTimeRange(2, 0) == "8:05-8:00"
    ensures GetTimeRange(1, 0) == NotAvailable
  {
  }
}

=== FILE: timetable_types.dfy ===
/**
 * The timetable records exchanged with the schedule service (`ClassInfo`, `Day`,
 * `TimetableData`), extended with the optional owner tag that a merge adds.
 */
module TimetableTypes {
  import opened Wrappers

  /**
   * One lesson. It occupies the slots `slot .. slot + duration - 1`.
   * `className` is absent as delivered and set by a merge to the name of
   * the timetable the lesson came from.
   */
  datatype Lesson = Lesson(
    slot: int,
    duration: int,
    color: string,
    dayName: string,
    subject: string,
    teacher: string,
    classroom: string,
    note: string,
    specialNote: string,
    group: Option<int>,
    className: Option<string>)

  /** One day column: a free-form label `day` (often embedding "D.M."), its lessons and a note. */
  datatype Day = Day(day: string, classes: seq<Lesson>, note: Option<string>)

  /** The timetable of one class or professor for one week. */
  datatype Timetable = Timetable(className: string, weekLabel: string, days: seq<Day>)

  /** The views accept either a single timetable or an array of them. */
  datatype TimetableInput = Single(timetable: Timetable) | Many(timetables: seq<Timetable>)

  /** The key both views sort lessons by. */
  function SlotOf(l: Lesson): int { l.slot }
}

=== FILE: wrappers.dfy ===
/** Failure-compatible wrappers shared by every module of the model. */
module Wrappers {

  /** A value that may be absent: JavaScript's `undefined` / `null`. */
  datatype Option<+T> = None | Some(value: T) {

    /** The wrapped value, or `default` when absent (the `x || default` idiom). */
    function GetOr(default: T): T {
      match this
      case Some(v) => v
      case None => default
    }
  }

  /** Either a value or an error message. */
  datatype Result<+R, +E> = Success(value: R) | Failure(error: E)
}
